=== FILE: README.md ===
# SimplifiedAnnotationProcessor code generation core, in Dafny

This project models the code-generation core of SimplifiedAnnotationProcessor, a small
framework for writing Java annotation processors. It proves properties of that model.

- `codegen.dfy` (module `CodeGen`) models `CodeGeneratorOutputStream`. This is a print stream that keeps:
  - an indentation prefix;
  - a comma slot and a first-only slot;
  - a queue of deferred ("delayed") fragments that the next flushing write emits first;
  - the identity of the last list-item caller, which `onFirst`/`onNonFirst` use to tell the first call of a run from the later ones.

  The stream is an immutable `Emitter` value. Every operation is a pure function from one emitter to the next. The operations that can raise a Java runtime exception return a `Result`.
- `javasource.dfy` (module `JavaSource`) models the templates of `JavaSourceOutputStream`:
  - comments, package and import lines, annotations;
  - class and method headers with `extends`, `implements`, arguments and `throws`;
  - fields, and `if`/`while`/`for` blocks.

  They are built only from the `CodeGen` operations. The lemmas there prove:
  - the exact text that whole headers and blocks produce;
  - that every `beg...`/`end...` pair restores the indentation.
- `generation.dfy` (module `GenerationSupport`) models the pure naming and selection rules of `GenerationSupport`:
  - splitting a qualified name or a path at its last separator;
  - where the maven and current-directory resource files go;
  - deriving a filer package and name from a relative path;
  - the root a best-effort resource reference picks.
- `model.dfy` (module `ElementModel`) models the element wrappers `BaseElement`/`Type` and `SAPBaseElement`/`SAPType`:
  - kind filters over enclosed elements;
  - method lookup by name;
  - the two package derivations and the simple name of a superclass;
  - annotation lookup by name;
  - `equals` and `hashCode`, with Java `int` wrap-around.
- `autodiscovery.dfy` (module `AutoDiscovery`) models how the `@AutoDiscovery` processor updates `META-INF/services/javax.annotation.processing.Processor`:
  - where the file is looked up;
  - the update rule as written;
  - a corrected rule that compares lines.
- `jstrings.dfy` (module `JavaStrings`) holds the `java.lang.String` operations these rely on: `indexOf`, `lastIndexOf`, `contains`, `trim`, `split` and `replace(char, char)`. Its strings are sequences of Unicode characters; the UTF-16 code units Java stores are given by `Utf16` where they matter.
- `wrappers.dfy` (module `Wrappers`) holds `Option` and a `Result` that carries the Java exception raised.

Host services are not modelled; they become parameters instead:
- The file system becomes a predicate `exists_` over root paths.
- A resource read becomes an `Option<string>` (None for an IOException).
- A variable context (`java.util.Properties`) becomes a sequence of key/value pairs, taken in the order given.
- The call site the source reads from the stack trace becomes a `site` string. The templates pass their own qualified method name, which is what `getCaller` would report.

Paths in the table below are relative to the repository root. `C` stands for
`src/main/java/se/natusoft/annotation/processor/simplified`, so `C/codegen/X.java` means
`src/main/java/se/natusoft/annotation/processor/simplified/codegen/X.java`. The source cells
spell the full path.

## Model

| member | source | states |
|---|---|---|
| CodeGen.Drain | src/main/java/se/natusoft/annotation/processor/simplified/codegen/CodeGeneratorOutputStream.java:262-264 | the flushing loop writes the queued fragments one after another, in FIFO order |
| CodeGen.FlushAll | src/main/java/se/natusoft/annotation/processor/simplified/codegen/CodeGeneratorOutputStream.java:260-267 | flushing writes every pending fragment and leaves no queue; stream validity is kept |
| CodeGen.RawPrint | src/main/java/se/natusoft/annotation/processor/simplified/codegen/CodeGeneratorOutputStream.java:491-493 | a raw write appends its text and leaves the deferred queue untouched |
| CodeGen.Print | src/main/java/se/natusoft/annotation/processor/simplified/codegen/CodeGeneratorOutputStream.java:546-549 | a normal write first emits everything pending, then its text, and empties the queue |
| CodeGen.Println | src/main/java/se/natusoft/annotation/processor/simplified/codegen/CodeGeneratorOutputStream.java:546-549 | a line write is a flushing write of the text followed by the line separator |
| CodeGen.AppendRange | src/main/java/se/natusoft/annotation/processor/simplified/codegen/CodeGeneratorOutputStream.java:593-597 | a range append flushes and then writes the sub-sequence; it throws exactly when the range is outside the text |
| CodeGen.IncrementIndent | src/main/java/se/natusoft/annotation/processor/simplified/codegen/CodeGeneratorOutputStream.java:186-188 | the prefix grows by four characters, extends the old one, stays a whole number of space units, and nothing else changes |
| CodeGen.DecrementIndent | src/main/java/se/natusoft/annotation/processor/simplified/codegen/CodeGeneratorOutputStream.java:193-195 | throws exactly when the prefix is shorter than four; otherwise it drops four characters and keeps the stream valid |
| CodeGen.IndentRoundTrip | src/main/java/se/natusoft/annotation/processor/simplified/codegen/CodeGeneratorOutputStream.java:186-195 | a decrement undoes an increment exactly |
| CodeGen.Indent | src/main/java/se/natusoft/annotation/processor/simplified/codegen/CodeGeneratorOutputStream.java:200-203 | `indent()` is a flushing write of the current prefix |
| CodeGen.Contentln | src/main/java/se/natusoft/annotation/processor/simplified/codegen/CodeGeneratorOutputStream.java:298-301 | a content line is the pending text, the prefix, the line and a newline |
| CodeGen.EmptyLine | src/main/java/se/natusoft/annotation/processor/simplified/codegen/CodeGeneratorOutputStream.java:306-309 | an empty line still carries the indentation prefix |
| CodeGen.NewComma | src/main/java/se/natusoft/annotation/processor/simplified/codegen/CodeGeneratorOutputStream.java:208-210 | a fresh comma slot renders "" next, and nothing else changes |
| CodeGen.PrintComma | src/main/java/se/natusoft/annotation/processor/simplified/codegen/CodeGeneratorOutputStream.java:215-217 | with no slot it throws NullPointerException; otherwise it writes at most two characters and the slot then holds ", " |
| CodeGen.CommaFirstThenSeparator | src/main/java/se/natusoft/annotation/processor/simplified/codegen/CodeGeneratorOutputStream.java:636-646 | after `newComma` the first comma writes nothing and the second writes ", " |
| CodeGen.CommaListAfterFirst | src/main/java/se/natusoft/annotation/processor/simplified/codegen/CodeGeneratorOutputStream.java:636-646 | once the slot holds ", ", each item of a list is preceded by ", " |
| CodeGen.CommaListJoins | src/main/java/se/natusoft/annotation/processor/simplified/codegen/CodeGeneratorOutputStream.java:208-217 | comma-then-item over a list writes the items joined by ", ", with no leading or trailing comma |
| CodeGen.NewFirstOnly | src/main/java/se/natusoft/annotation/processor/simplified/codegen/CodeGeneratorOutputStream.java:225-227 | the first-only slot now holds the value, and nothing else changes |
| CodeGen.PrintFirstOnly | src/main/java/se/natusoft/annotation/processor/simplified/codegen/CodeGeneratorOutputStream.java:232-234 | with no slot it throws NullPointerException; otherwise it writes the value and the slot then holds "" |
| CodeGen.FirstOnlyOnce | src/main/java/se/natusoft/annotation/processor/simplified/codegen/CodeGeneratorOutputStream.java:680-686 | the value is written once; every later `printFirstOnly` changes nothing |
| CodeGen.DelayedPrint | src/main/java/se/natusoft/annotation/processor/simplified/codegen/CodeGeneratorOutputStream.java:241-246 | the text is appended to the queue, which is created if absent; the output is untouched |
| CodeGen.DelayedPrintln | src/main/java/se/natusoft/annotation/processor/simplified/codegen/CodeGeneratorOutputStream.java:253-255 | queues exactly the text plus a newline |
| CodeGen.DelayedThenPrint | src/main/java/se/natusoft/annotation/processor/simplified/codegen/CodeGeneratorOutputStream.java:241-269 | deferred fragments come out in FIFO order, ahead of the next flushing write's text, and the queue ends empty |
| CodeGen.FlushFirstDelayedPrint | src/main/java/se/natusoft/annotation/processor/simplified/codegen/CodeGeneratorOutputStream.java:272-277 | writes the head fragment and blanks it in place, so the queue length is unchanged; with no queue nothing happens |
| CodeGen.FlushFirstTwice | src/main/java/se/natusoft/annotation/processor/simplified/codegen/CodeGeneratorOutputStream.java:272-277 | a second non-removing flush is a no-op |
| CodeGen.FlushAndRemoveFirstDelayedPrint | src/main/java/se/natusoft/annotation/processor/simplified/codegen/CodeGeneratorOutputStream.java:283-291 | writes the head fragment and leaves the rest of the queue |
| CodeGen.FlushAndRemoveTwice | src/main/java/se/natusoft/annotation/processor/simplified/codegen/CodeGeneratorOutputStream.java:283-291 | two removing flushes write the first two fragments in order |
| CodeGen.RemovingFlushesDrainQueue | src/main/java/se/natusoft/annotation/processor/simplified/codegen/CodeGeneratorOutputStream.java:260-291 | one removing flush per queued fragment does exactly what a full flush does |
| CodeGen.InitializeOnFirst | src/main/java/se/natusoft/annotation/processor/simplified/codegen/CodeGeneratorOutputStream.java:335-337 | records the call site and changes nothing else |
| CodeGen.OnFirst | src/main/java/se/natusoft/annotation/processor/simplified/codegen/CodeGeneratorOutputStream.java:345-351 | the action runs exactly when the site differs from the last caller; the site is recorded either way |
| CodeGen.OnFirstOncePerRun | src/main/java/se/natusoft/annotation/processor/simplified/codegen/CodeGeneratorOutputStream.java:345-351 | the second call from the same site is a no-op |
| CodeGen.OnNonFirst | src/main/java/se/natusoft/annotation/processor/simplified/codegen/CodeGeneratorOutputStream.java:358-364 | the action runs exactly when the site equals the last caller; the site is recorded either way |
| CodeGen.OnNonFirstSkipsFirst | src/main/java/se/natusoft/annotation/processor/simplified/codegen/CodeGeneratorOutputStream.java:358-364 | the first call of a run is skipped and the next one acts |
| CodeGen.Replace | src/main/java/se/natusoft/annotation/processor/simplified/codegen/CodeGeneratorOutputStream.java:402-411 | a finished replacement leaves no occurrence of `from`; text without `from` is returned unchanged |
| CodeGen.ReplaceEmptyNeverEnds | src/main/java/se/natusoft/annotation/processor/simplified/codegen/CodeGeneratorOutputStream.java:402-411 | with an empty `from` the loop never ends |
| CodeGen.ReplaceShrinkingEnds | src/main/java/se/natusoft/annotation/processor/simplified/codegen/CodeGeneratorOutputStream.java:402-411 | when `to` is shorter than `from`, the loop ends within as many splices as the text is long |
| CodeGen.Capitalized | src/main/java/se/natusoft/annotation/processor/simplified/codegen/CodeGeneratorOutputStream.java:384-389 | the getter and setter names upper-case the first character and keep the rest |
| CodeGen.ExpandVar | src/main/java/se/natusoft/annotation/processor/simplified/codegen/CodeGeneratorOutputStream.java:377-389 | one variable's expansion succeeds only with a non-empty value, and then no `${set:key}` remains |
| CodeGen.ExpandVarRewrites | src/main/java/se/natusoft/annotation/processor/simplified/codegen/CodeGeneratorOutputStream.java:377-389 | between text free of '$', `${key}` becomes the value, `${get:key}` becomes `get` + capitalized value + `()`, and `${set:key}` becomes `set` + capitalized value |
| CodeGen.ExpandRewrites | src/main/java/se/natusoft/annotation/processor/simplified/codegen/CodeGeneratorOutputStream.java:374-393 | in a whole expansion the first variable rewrites its placeholder that way, and later variables with non-empty values leave the '$'-free result alone |
| CodeGen.ExpandNeedsValues | src/main/java/se/natusoft/annotation/processor/simplified/codegen/CodeGeneratorOutputStream.java:374-395 | expansion succeeds only if every variable's value is non-empty |
| CodeGen.ExpandLeavesPlainText | src/main/java/se/natusoft/annotation/processor/simplified/codegen/CodeGeneratorOutputStream.java:374-395 | text with no '$' comes back unchanged |
| CodeGen.PrintExpanded | src/main/java/se/natusoft/annotation/processor/simplified/codegen/CodeGeneratorOutputStream.java:423-425 | the expanded text is written by a flushing write; it fails exactly when expansion fails |
| CodeGen.PrintlnExpanded | src/main/java/se/natusoft/annotation/processor/simplified/codegen/CodeGeneratorOutputStream.java:437-441 | one line per expanded text; no texts writes nothing, not even the queue |
| CodeGen.ContentlnExpanded | src/main/java/se/natusoft/annotation/processor/simplified/codegen/CodeGeneratorOutputStream.java:453-457 | one indented line per expanded text |
| JavaSource.CommentRows | src/main/java/se/natusoft/annotation/processor/simplified/codegen/JavaSourceOutputStream.java:237-241 | each comment line becomes an indented ` * line` row |
| JavaSource.IntComment | src/main/java/se/natusoft/annotation/processor/simplified/codegen/JavaSourceOutputStream.java:228-245 | one line without forceBlock gives a single indented comment line; anything else gives the opener, one row per line, and the closer |
| JavaSource.BlockComment | src/main/java/se/natusoft/annotation/processor/simplified/codegen/JavaSourceOutputStream.java:283-285 | `comment(String...)` always gives the block shape, even for one line |
| JavaSource.JavadocBlock | src/main/java/se/natusoft/annotation/processor/simplified/codegen/JavaSourceOutputStream.java:302-304 | `javadocComment(String...)` always gives the block shape |
| JavaSource.SingleLineComment | src/main/java/se/natusoft/annotation/processor/simplified/codegen/JavaSourceOutputStream.java:252-255 | `// text` at the current column, with no indent |
| JavaSource.SingleLineCommentln | src/main/java/se/natusoft/annotation/processor/simplified/codegen/JavaSourceOutputStream.java:262-266 | an indented `// text` line |
| JavaSource.PackageLine | src/main/java/se/natusoft/annotation/processor/simplified/codegen/JavaSourceOutputStream.java:311-315 | `package p;` and a newline, not indented |
| JavaSource.ImportLine | src/main/java/se/natusoft/annotation/processor/simplified/codegen/JavaSourceOutputStream.java:322-326 | `import s;` and a newline, not indented |
| JavaSource.ParamAsWritten | src/main/java/se/natusoft/annotation/processor/simplified/codegen/JavaSourceOutputStream.java:341-343 | the tokenizer throws NoSuchElementException exactly when a parameter has fewer than two non-empty '='-free tokens; otherwise the name and value are the first two tokens |
| JavaSource.ParamAsWrittenPlain | src/main/java/se/natusoft/annotation/processor/simplified/codegen/JavaSourceOutputStream.java:341-343 | a parameter `n=v` with non-empty, '='-free name and value is read back as `(n, v)` |
| JavaSource.SplitAllPlain | src/main/java/se/natusoft/annotation/processor/simplified/codegen/JavaSourceOutputStream.java:334-353 | a list of such parameters passes the tokenizer unchanged |
| JavaSource.AnnotationAsWrittenPlain | src/main/java/se/natusoft/annotation/processor/simplified/codegen/JavaSourceOutputStream.java:334-353 | for such parameters the annotation is written as given: `@a(p1, p2, ...)` and a newline |
| JavaSource.AnnotationParamsRest | src/main/java/se/natusoft/annotation/processor/simplified/codegen/JavaSourceOutputStream.java:340-349 | after the first parameter, each comes out as `, name=value`; the list fails exactly when a parameter fails to split |
| JavaSource.AnnotationParamsText | src/main/java/se/natusoft/annotation/processor/simplified/codegen/JavaSourceOutputStream.java:338-350 | the parameters come out joined by ", " |
| JavaSource.AnnotationWith | src/main/java/se/natusoft/annotation/processor/simplified/codegen/JavaSourceOutputStream.java:334-353 | `@a` and a newline with no parameters; otherwise `@a(p1, p2)` and a newline, failing exactly when a parameter fails |
| JavaSource.TokenizerDropsSecondEquals | src/main/java/se/natusoft/annotation/processor/simplified/codegen/JavaSourceOutputStream.java:341-343 | `n=v=w` is read as name `n` and value `v`, so the text written differs from the parameter |
| JavaSource.AnnotationLosesValueTail | src/main/java/se/natusoft/annotation/processor/simplified/codegen/JavaSourceOutputStream.java:334-353 | the annotation as written prints `@a(n=v)` for the parameter `n=v=w` |
| JavaSource.ParamAtFirstEquals | src/main/java/se/natusoft/annotation/processor/simplified/codegen/JavaSourceOutputStream.java:341-347 | splitting at the first '=' throws exactly when there is no '='; otherwise `name=value` spells the parameter back |
| JavaSource.SplitAllVerbatim | src/main/java/se/natusoft/annotation/processor/simplified/codegen/JavaSourceOutputStream.java:340-349 | with the first-'=' reading, every parameter containing '=' is written back verbatim |
| JavaSource.AnnotationVerbatim | src/main/java/se/natusoft/annotation/processor/simplified/codegen/JavaSourceOutputStream.java:334-353 | the corrected annotation is `@a(` + the parameters joined by ", " + `)` |
| JavaSource.AnnotationKeepsValueTail | src/main/java/se/natusoft/annotation/processor/simplified/codegen/JavaSourceOutputStream.java:334-353 | the corrected annotation prints `@a(n=v=w)` |
| JavaSource.BegClass | src/main/java/se/natusoft/annotation/processor/simplified/codegen/JavaSourceOutputStream.java:371-389 | the indented `access modifiers class Name` (empty words omitted), " {" deferred, one more indent level, the call site recorded |
| JavaSource.EndBlock | src/main/java/se/natusoft/annotation/processor/simplified/codegen/JavaSourceOutputStream.java:394-398 | throws exactly when there is no level to remove; otherwise one level less and `}` on its own line at the outer indent |
| JavaSource.ExtendsClass | src/main/java/se/natusoft/annotation/processor/simplified/codegen/JavaSourceOutputStream.java:405-408 | ` extends S` is written raw, so " {" stays deferred |
| JavaSource.ImplementsInterface | src/main/java/se/natusoft/annotation/processor/simplified/codegen/JavaSourceOutputStream.java:415-425 | the first call of a run writes ` implements I`; later calls write `, I`; all raw |
| JavaSource.ImplementsRest | src/main/java/se/natusoft/annotation/processor/simplified/codegen/JavaSourceOutputStream.java:415-425 | within a run, each interface is preceded by ", " |
| JavaSource.ClassOpen | src/main/java/se/natusoft/annotation/processor/simplified/codegen/JavaSourceOutputStream.java:371-408 | `begClass` and an optional `extendsClass` give the header start, with " {" still deferred |
| JavaSource.ImplementsAllClause | src/main/java/se/natusoft/annotation/processor/simplified/codegen/JavaSourceOutputStream.java:415-425 | a run of interfaces writes one `implements` clause and never flushes the queue |
| JavaSource.ClassHeader | src/main/java/se/natusoft/annotation/processor/simplified/codegen/JavaSourceOutputStream.java:371-425 | a whole class header is one line `... class N extends S implements I1, I2 {` |
| JavaSource.BegMethod | src/main/java/se/natusoft/annotation/processor/simplified/codegen/JavaSourceOutputStream.java:435-461 | the indented `access modifiers T name(`, with ")" and " {" deferred as two fragments, one more level, and a fresh comma |
| JavaSource.BeginConstructorMethod | src/main/java/se/natusoft/annotation/processor/simplified/codegen/JavaSourceOutputStream.java:468-470 | a constructor header is the method header with only the name |
| JavaSource.MethodArg | src/main/java/se/natusoft/annotation/processor/simplified/codegen/JavaSourceOutputStream.java:478-483 | the comma, then `Type name`, raw; with no comma slot it throws |
| JavaSource.MethodArgsRest | src/main/java/se/natusoft/annotation/processor/simplified/codegen/JavaSourceOutputStream.java:478-483 | after the first argument, each is preceded by ", " |
| JavaSource.MethodArgsJoin | src/main/java/se/natusoft/annotation/processor/simplified/codegen/JavaSourceOutputStream.java:478-483 | after a fresh comma, the arguments are joined by ", " and nothing is flushed |
| JavaSource.MethodException | src/main/java/se/natusoft/annotation/processor/simplified/codegen/JavaSourceOutputStream.java:494-504 | the first call of a run writes the deferred ")" and ` throws X`; later calls write `, X` |
| JavaSource.MethodExceptionsRest | src/main/java/se/natusoft/annotation/processor/simplified/codegen/JavaSourceOutputStream.java:494-504 | within a run, each exception is preceded by ", " |
| JavaSource.FirstException | src/main/java/se/natusoft/annotation/processor/simplified/codegen/JavaSourceOutputStream.java:494-504 | right after the argument list, the first exception writes `) throws X` and leaves only " {" deferred |
| JavaSource.ExceptionsClause | src/main/java/se/natusoft/annotation/processor/simplified/codegen/JavaSourceOutputStream.java:494-504 | a run of exceptions writes `) throws X, Y` once; with none, nothing changes |
| JavaSource.MethodHeader | src/main/java/se/natusoft/annotation/processor/simplified/codegen/JavaSourceOutputStream.java:435-504 | a whole method header is one line `... T name(A a, B b) throws X, Y {`, with ")" written exactly once |
| JavaSource.Field | src/main/java/se/natusoft/annotation/processor/simplified/codegen/JavaSourceOutputStream.java:520-528 | an indented `access type name;` line, with the access word's space written even when it is empty |
| JavaSource.PrivateField | src/main/java/se/natusoft/annotation/processor/simplified/codegen/JavaSourceOutputStream.java:537-553 | an optional one-line javadoc, the private field line, and an indented empty line |
| JavaSource.BegIf | src/main/java/se/natusoft/annotation/processor/simplified/codegen/JavaSourceOutputStream.java:562-568 | the whole `if (c) {` line, then one more level |
| JavaSource.BegIfOpen | src/main/java/se/natusoft/annotation/processor/simplified/codegen/JavaSourceOutputStream.java:575-580 | only `if (`, with `) {` deferred until the next flushing write |
| JavaSource.Criteria | src/main/java/se/natusoft/annotation/processor/simplified/codegen/JavaSourceOutputStream.java:588-590 | criteria are written raw, so the deferred `) {` stays queued |
| JavaSource.BegWhile | src/main/java/se/natusoft/annotation/processor/simplified/codegen/JavaSourceOutputStream.java:609-615 | the whole `while (c) {` line, then one more level |
| JavaSource.BegWhileOpen | src/main/java/se/natusoft/annotation/processor/simplified/codegen/JavaSourceOutputStream.java:622-627 | only `while (`, with `) {` deferred |
| JavaSource.BegFor | src/main/java/se/natusoft/annotation/processor/simplified/codegen/JavaSourceOutputStream.java:658-668 | `for (init; compare ; increment) {`, spacing as written, then one more level |
| JavaSource.BegForShort | src/main/java/se/natusoft/annotation/processor/simplified/codegen/JavaSourceOutputStream.java:676-684 | `for (decl : items) {`, then one more level |
| JavaSource.EndRestoresIndent | src/main/java/se/natusoft/annotation/processor/simplified/codegen/JavaSourceOutputStream.java:689-693 | whatever a block body writes, if it keeps the block's level, the `end...` restores the indent from before the block |
| JavaSource.IfRestoresIndent | src/main/java/se/natusoft/annotation/processor/simplified/codegen/JavaSourceOutputStream.java:562-600 | `begIf`/`endIf` restore the indent |
| JavaSource.WhileRestoresIndent | src/main/java/se/natusoft/annotation/processor/simplified/codegen/JavaSourceOutputStream.java:609-647 | both `begWhile` forms and `endWhile` restore the indent |
| JavaSource.ForRestoresIndent | src/main/java/se/natusoft/annotation/processor/simplified/codegen/JavaSourceOutputStream.java:658-693 | `begFor`/`endFor` restore the indent |
| JavaSource.ClassRestoresIndent | src/main/java/se/natusoft/annotation/processor/simplified/codegen/JavaSourceOutputStream.java:371-398 | `begClass`/`endClass` restore the indent |
| JavaSource.MethodRestoresIndent | src/main/java/se/natusoft/annotation/processor/simplified/codegen/JavaSourceOutputStream.java:435-511 | `begMethod`/`endMethod` restore the indent |
| JavaSource.IfBlock | src/main/java/se/natusoft/annotation/processor/simplified/codegen/JavaSourceOutputStream.java:562-600 | `begIf(c); contentln(y); endIf()` writes the block with `y` one level in and `}` back at the outer level |
| JavaSource.IfBlockAtTop | src/main/java/se/natusoft/annotation/processor/simplified/codegen/JavaSourceOutputStream.java:562-600 | on a fresh stream that block is exactly `if (c) {\n    y\n}\n` |
| GenerationSupport.SplitLast | src/main/java/se/natusoft/annotation/processor/simplified/codegen/GenerationSupport.java:196-208 | splits at the last separator only when it is not at index 0: the parts rejoin to the input and the name holds no separator; otherwise everything is the name |
| GenerationSupport.SplitQualifiedName | src/main/java/se/natusoft/annotation/processor/simplified/codegen/GenerationSupport.java:229-240 | the package and simple name spell the qualified name back, with a package exactly when there is a dot after index 0 |
| GenerationSupport.LeadingDotIsName | src/main/java/se/natusoft/annotation/processor/simplified/codegen/GenerationSupport.java:196-208 | `.Foo` has an empty package and the whole `.Foo` as its name |
| GenerationSupport.QualifiedOverloadsAgree | src/main/java/se/natusoft/annotation/processor/simplified/codegen/GenerationSupport.java:183-313 | all four qualified-name overloads ask for the same package and name, which spell the qualified name back; the element is passed on by the two-argument forms and absent otherwise, and only the stream forms delete the old file |
| GenerationSupport.MavenResourceLocation | src/main/java/se/natusoft/annotation/processor/simplified/codegen/GenerationSupport.java:322-341 | the file goes under `src/main/resources`; it has a directory exactly when the path has a separator after its first character, and then directory and name rejoin to the path with a separator-free name; otherwise the name is the whole path |
| GenerationSupport.CurrentDirLocation | src/main/java/se/natusoft/annotation/processor/simplified/codegen/GenerationSupport.java:351-374 | the directory part is trimmed and loses one leading separator; the name is what follows the last separator |
| GenerationSupport.AbsolutePathBecomesRelative | src/main/java/se/natusoft/annotation/processor/simplified/codegen/GenerationSupport.java:351-374 | `/d/n` is written as `n` in the directory `d` below the current directory |
| GenerationSupport.FilerResourceReference | src/main/java/se/natusoft/annotation/processor/simplified/codegen/GenerationSupport.java:459-464 | throws exactly when the path has no separator; otherwise the name is what follows the last separator and the package is the rest with separators turned into dots |
| GenerationSupport.FilerReferenceOf | src/main/java/se/natusoft/annotation/processor/simplified/codegen/GenerationSupport.java:459-464 | `dir/name` comes back as the package `dir` (dotted) and the name |
| GenerationSupport.FirstExisting | src/main/java/se/natusoft/annotation/processor/simplified/codegen/GenerationSupport.java:390-397 | the chosen root exists and no earlier one does; none is chosen only if none exists |
| GenerationSupport.BestEffort | src/main/java/se/natusoft/annotation/processor/simplified/codegen/GenerationSupport.java:385-411 | the first existing listed root wins; otherwise the maven root if it exists; otherwise a filer reference |
| GenerationSupport.BestEffortResourceReference | src/main/java/se/natusoft/annotation/processor/simplified/codegen/GenerationSupport.java:385-411 | the loop with its early exit computes that choice, and a file reference keeps the relative path |
| GenerationSupport.BestEffortDefault | src/main/java/se/natusoft/annotation/processor/simplified/codegen/GenerationSupport.java:421-423 | with no listed roots: the maven root if it exists, otherwise the filer |
| GenerationSupport.EarlierRootWins | src/main/java/se/natusoft/annotation/processor/simplified/codegen/GenerationSupport.java:390-397 | an existing root shadows every root after it |
| ElementModel.HasParentIffGiven | src/main/java/se/natusoft/annotation/processor/simplified/model/SAPBaseElement.java:71-108 | the one-argument constructor gives no parent; `hasParent` is true exactly when a parent was given |
| ElementModel.KindFilter | src/main/java/se/natusoft/annotation/processor/simplified/model/Type.java:103-113 | the getters keep only enclosed elements of the wanted kinds, and no more of them |
| ElementModel.KindFilterMembers | src/main/java/se/natusoft/annotation/processor/simplified/model/Type.java:103-158 | an element is returned exactly when it is enclosed and of a wanted kind |
| ElementModel.KindFilterAppend | src/main/java/se/natusoft/annotation/processor/simplified/model/Type.java:103-158 | the getters keep the enclosed order: filtering a concatenation filters each part |
| ElementModel.KindFilterIdempotent | src/main/java/se/natusoft/annotation/processor/simplified/model/Type.java:103-158 | filtering a second time changes nothing |
| ElementModel.TypeGettersKeepKinds | src/main/java/se/natusoft/annotation/processor/simplified/model/Type.java:103-199 | `getFields`, `getConstructors`, `getMethods` and `getInnerInterfaces` return exactly the enclosed fields and enum constants, constructors, methods, and interfaces |
| ElementModel.SapFields | src/main/java/se/natusoft/annotation/processor/simplified/model/SAPType.java:155-165 | the SAP fields are the type's fields, in order, each with the type as its parent |
| ElementModel.SapConstructors | src/main/java/se/natusoft/annotation/processor/simplified/model/SAPType.java:170-180 | the SAP constructors, in order, each with the type as its parent |
| ElementModel.SapMethods | src/main/java/se/natusoft/annotation/processor/simplified/model/SAPType.java:185-195 | the SAP methods, in order, each with the type as its parent |
| ElementModel.SapAllMethods | src/main/java/se/natusoft/annotation/processor/simplified/model/SAPType.java:200-210 | the methods among all members, own and inherited, each with the type as its parent |
| ElementModel.SapInterfaces | src/main/java/se/natusoft/annotation/processor/simplified/model/SAPType.java:115-124 | one wrapper per implemented interface, in order, with no parent |
| ElementModel.SapInnerInterfaces | src/main/java/se/natusoft/annotation/processor/simplified/model/SAPType.java:241-251 | one wrapper per enclosed interface, in order, with no parent |
| ElementModel.FirstWhere | src/main/java/se/natusoft/annotation/processor/simplified/model/Type.java:165-177 | the index of the first item accepted for the name: it is accepted and nothing before it is; none exactly when no item is accepted |
| ElementModel.FirstWhereIsFirst | src/main/java/se/natusoft/annotation/processor/simplified/model/Type.java:165-177 | an accepted item with nothing accepted before it is the one the search returns |
| ElementModel.MethodSearchesAgree | src/main/java/se/natusoft/annotation/processor/simplified/model/Type.java:165-177 | searching the list of methods for the name finds the same element as searching all members for the first method with that name, and both find nothing together |
| ElementModel.MethodNamed | src/main/java/se/natusoft/annotation/processor/simplified/model/Type.java:165-177 | the method found is the first member, in member order, that is a method with that name; there is none exactly when no member is such a method |
| ElementModel.TypeMethodByName | src/main/java/se/natusoft/annotation/processor/simplified/model/Type.java:165-177 | the loop returns the first method with the name among all members, own and inherited (so null exactly when no method has it) |
| ElementModel.SapMethodByName | src/main/java/se/natusoft/annotation/processor/simplified/model/SAPType.java:217-229 | the same lookup: the first method with the name among all members, wrapped with the type as its parent, or null exactly when `Type` finds none |
| ElementModel.TypePackage | src/main/java/se/natusoft/annotation/processor/simplified/model/Type.java:95-98 | the qualified name minus the simple name and one separator; it throws when the simple name is too long for that |
| ElementModel.TypePackageRoundTrip | src/main/java/se/natusoft/annotation/processor/simplified/model/Type.java:95-98 | for `p.S` with simple name `S`, the package is `p` |
| ElementModel.TypePackageInner | src/main/java/se/natusoft/annotation/processor/simplified/model/Type.java:95-98 | for a nested class the `Type` package keeps the outer class |
| ElementModel.ExtendsSimpleName | src/main/java/se/natusoft/annotation/processor/simplified/model/SAPType.java:102-110 | the superclass text after its last dot: a dot-free suffix preceded by a dot, or all of it when there is no dot |
| ElementModel.LeadingLowerParts | src/main/java/se/natusoft/annotation/processor/simplified/model/SAPType.java:138-147 | keeps the parts before the first upper-case one; an empty part met first throws StringIndexOutOfBoundsException |
| ElementModel.LowerPartsKept | src/main/java/se/natusoft/annotation/processor/simplified/model/SAPType.java:138-147 | a package with no upper-case part is kept whole |
| ElementModel.UpperPartCuts | src/main/java/se/natusoft/annotation/processor/simplified/model/SAPType.java:138-147 | an upper-case part cuts off itself and everything after it |
| ElementModel.SapPackage | src/main/java/se/natusoft/annotation/processor/simplified/model/SAPType.java:129-150 | the SAP package fails whenever the `Type` package would |
| ElementModel.SplitOfJoin | src/main/java/se/natusoft/annotation/processor/simplified/model/SAPType.java:138 | splitting on '.' undoes joining non-empty dot-free parts |
| ElementModel.SapPackageTopLevel | src/main/java/se/natusoft/annotation/processor/simplified/model/SAPType.java:129-150 | a top-level class in a lower-case package gets that package |
| ElementModel.SapPackageInner | src/main/java/se/natusoft/annotation/processor/simplified/model/SAPType.java:129-150 | a class nested in an upper-case outer class gets the outer class's package |
| ElementModel.BaseMirrorByName | src/main/java/se/natusoft/annotation/processor/simplified/model/BaseElement.java:129-141 | the loop returns that first simple-name match, and null exactly when there is none |
| ElementModel.LastQualified | src/main/java/se/natusoft/annotation/processor/simplified/model/SAPBaseElement.java:160-162 | the last mirror matching by qualified name |
| ElementModel.SapMirrorSpec | src/main/java/se/natusoft/annotation/processor/simplified/model/SAPBaseElement.java:156-170 | a mirror found is one of the element's mirrors and matches by qualified or simple name; there is none exactly when no mirror matches either way |
| ElementModel.SapMirrorByName | src/main/java/se/natusoft/annotation/processor/simplified/model/SAPBaseElement.java:156-170 | the loop returns the first simple-only match if any, else the last qualified match (so null exactly when nothing matches) |
| ElementModel.SimpleOnlyOverridesQualified | src/main/java/se/natusoft/annotation/processor/simplified/model/SAPBaseElement.java:156-170 | the break on a simple-name match ends the search at that mirror |
| ElementModel.QualifiedLastWins | src/main/java/se/natusoft/annotation/processor/simplified/model/SAPBaseElement.java:160-162 | with only qualified matches, the later one overwrites the earlier |
| ElementModel.Annotations | src/main/java/se/natusoft/annotation/processor/simplified/model/SAPBaseElement.java:175-184 | one annotation wrapper per mirror, in order; the SAP wrappers carry the annotated element |
| ElementModel.HasAnnotationsIffAny | src/main/java/se/natusoft/annotation/processor/simplified/model/SAPBaseElement.java:127-129 | `hasAnnotations` is true exactly when `getAnnotations` is non-empty |
| ElementModel.BaseAnnotationByName | src/main/java/se/natusoft/annotation/processor/simplified/model/BaseElement.java:162-171 | null exactly when no mirror has the simple name; otherwise a wrapper, with no annotated element, of the first mirror that does |
| ElementModel.SapAnnotationByName | src/main/java/se/natusoft/annotation/processor/simplified/model/SAPBaseElement.java:191-200 | wraps what the mirror lookup finds, with the element attached |
| ElementModel.SapAnnotationMatches | src/main/java/se/natusoft/annotation/processor/simplified/model/SAPBaseElement.java:156-200 | what is found matches by qualified or simple name, and null means nothing matches |
| ElementModel.SapAnnotationByClass | src/main/java/se/natusoft/annotation/processor/simplified/model/SAPBaseElement.java:209-211 | a lookup by class is the lookup by the class's name: it finds a mirror matching that name, or null when none does |
| ElementModel.BaseIgnoresQualifiedName | src/main/java/se/natusoft/annotation/processor/simplified/model/BaseElement.java:129-141 | the `BaseElement` lookup misses by qualified name where the SAP lookup finds the mirror |
| ElementModel.TypeEqualsIsEquivalence | src/main/java/se/natusoft/annotation/processor/simplified/model/Type.java:210-224 | type equality is reflexive, symmetric and transitive |
| ElementModel.Wrap | src/main/java/se/natusoft/annotation/processor/simplified/model/Type.java:205-208 | `int` addition wraps modulo 2^32 |
| ElementModel.StringHash | src/main/java/se/natusoft/annotation/processor/simplified/model/Type.java:205-208 | the string hash of `String.hashCode` is the documented polynomial `u[0]*31^(n-1) + ... + u[n-1]` of the UTF-16 code units, modulo 2^32 |
| JavaStrings.CharUnits | src/main/java/se/natusoft/annotation/processor/simplified/model/Type.java:205-208 | a character below 0x10000 is one code unit; any other is a high and a low surrogate that decode back to it |
| ElementModel.SupplementaryCharHash | src/main/java/se/natusoft/annotation/processor/simplified/model/Type.java:205-208 | U+1F600 is hashed as its surrogates 0xD83D, 0xDE00, giving 1772899 |
| ElementModel.TypeHash | src/main/java/se/natusoft/annotation/processor/simplified/model/SAPType.java:257-260 | the hash is the sum of the name hash and the string hashes of the kind and type text, modulo 2^32 |
| ElementModel.EqualTypesHashAlike | src/main/java/se/natusoft/annotation/processor/simplified/model/SAPType.java:257-276 | equal types have equal hash codes, for any name hash |
| ElementModel.ElementEqualsIsEquivalence | src/main/java/se/natusoft/annotation/processor/simplified/model/SAPBaseElement.java:219-232 | element equality is an equivalence |
| ElementModel.ElementHash | src/main/java/se/natusoft/annotation/processor/simplified/model/SAPBaseElement.java:214-217 | the hash is the sum of the simple-name hash and the string hashes of the kind and type text, modulo 2^32 |
| ElementModel.EqualElementsHashAlike | src/main/java/se/natusoft/annotation/processor/simplified/model/BaseElement.java:173-191 | equal elements have equal hash codes, for any name hash |
| ElementModel.WrapperEqualsNotSymmetric | src/main/java/se/natusoft/annotation/processor/simplified/model/SAPType.java:262-276 | a base wrapper can equal a type wrapper while the type wrapper does not equal it back; nothing equals null |
| ElementModel.WrapperEqualsWithinClass | src/main/java/se/natusoft/annotation/processor/simplified/model/SAPBaseElement.java:219-232 | within one class, equality is an equivalence |
| ElementModel.WrapperHashBreaksEquals | src/main/java/se/natusoft/annotation/processor/simplified/model/SAPBaseElement.java:214-232 | a base wrapper equals the type wrapper of the same element, yet their hash codes differ whenever the simple and qualified names hash differently |
| ElementModel.SameClassEqualsKeepsHashContract | src/main/java/se/natusoft/annotation/processor/simplified/model/SAPType.java:257-276 | with equality restricted to one runtime class, equality is symmetric and equal wrappers hash alike |
| AutoDiscovery.DiscoveryReference | src/main/java/se/natusoft/annotation/processor/simplified/AutoDiscoveryProcessor.java:77-82 | the service file is found under `src/main/processors`, else under the maven root, else in the filer package `META-INF.services` |
| AutoDiscovery.DiscoveryPathSplits | src/main/java/se/natusoft/annotation/processor/simplified/AutoDiscoveryProcessor.java:58-82 | the filer reference of the service path is package `META-INF.services` (dotted) and name `javax.annotation.processing.Processor` |
| AutoDiscovery.UpdateAsWritten | src/main/java/se/natusoft/annotation/processor/simplified/AutoDiscoveryProcessor.java:84-100 | the file is left alone exactly when its text contains the name anywhere; otherwise the name and a newline are appended to the old text |
| AutoDiscovery.AsWrittenIdempotent | src/main/java/se/natusoft/annotation/processor/simplified/AutoDiscoveryProcessor.java:92-93 | after an update the name is present, so a second update does nothing |
| AutoDiscovery.AsWrittenMissesPrefixName | src/main/java/se/natusoft/annotation/processor/simplified/AutoDiscoveryProcessor.java:92-93 | a name that is a prefix of a listed name is never registered |
| AutoDiscovery.AsWrittenMergesLastLine | src/main/java/se/natusoft/annotation/processor/simplified/AutoDiscoveryProcessor.java:92-93 | appending to text without a final newline glues two names into one line |
| AutoDiscovery.UpdateByLines | src/main/java/se/natusoft/annotation/processor/simplified/AutoDiscoveryProcessor.java:84-100 | the file is left alone exactly when the name is one of its lines; otherwise the name becomes a line, the old text is a prefix, and every old line survives |
| AutoDiscovery.AppendedLine | src/main/java/se/natusoft/annotation/processor/simplified/AutoDiscoveryProcessor.java:92-93 | adding a line keeps the old lines and adds the new one |
| AutoDiscovery.UpdateIdempotent | src/main/java/se/natusoft/annotation/processor/simplified/AutoDiscoveryProcessor.java:92-93 | with the line rule, a second update with the same name does nothing |
| AutoDiscovery.LineRuleRegistersPrefixName | src/main/java/se/natusoft/annotation/processor/simplified/AutoDiscoveryProcessor.java:92-93 | the line rule registers the prefix name the rule as written misses, and keeps the longer name |
| AutoDiscovery.ProcessAllContainsAll | src/main/java/se/natusoft/annotation/processor/simplified/AutoDiscoveryProcessor.java:65-100 | after processing every annotated processor, the old text is still at the start of the file and every processor name occurs in it |
| AutoDiscovery.ProcessAllContainedUnchanged | src/main/java/se/natusoft/annotation/processor/simplified/AutoDiscoveryProcessor.java:65-100 | processing names that all occur in the text already leaves it unchanged |
| AutoDiscovery.ProcessAllIdempotent | src/main/java/se/natusoft/annotation/processor/simplified/AutoDiscoveryProcessor.java:65-100 | a second run over the same processors leaves the file as the first run left it |
| AutoDiscovery.ProcessAllMissesPrefixName | src/main/java/se/natusoft/annotation/processor/simplified/AutoDiscoveryProcessor.java:65-100 | processing `n + suffix` and then `n` into an empty file writes the single line `n + suffix`, and `n` is never listed |
| AutoDiscovery.ProcessAllByLinesRegistersAll | src/main/java/se/natusoft/annotation/processor/simplified/AutoDiscoveryProcessor.java:65-100 | with the line rule, each processor name ends up as a line of the file and every earlier line is still there |
| AutoDiscovery.ProcessAllByLinesRegisteredUnchanged | src/main/java/se/natusoft/annotation/processor/simplified/AutoDiscoveryProcessor.java:65-100 | with the line rule, processing names that are all registered already leaves the file unchanged |

## Left out

- Output is modelled as one growing string. `PrintStream` buffering, character encoding and the underlying `OutputStream` are not modelled.
- Strings are sequences of Unicode characters, while a Java `String` is a sequence of UTF-16 code units. Searching, splitting and cutting at characters the text contains give the same text either way. Lengths and caller-given indices agree with Java only for text in the Basic Multilingual Plane. The string hash is the exception: it is computed over the UTF-16 code units.
- AppendRange: `start` and `end` count characters, not UTF-16 code units, so for text outside the Basic Multilingual Plane the range check and the cut differ from Java's: for the one-character text U+1F600, two code units long, `append(text, 0, 2)` writes it in Java and throws here. A range that splits a surrogate pair writes a lone surrogate in Java, which a `string` here cannot hold.
- TypePackage: the length arithmetic counts characters. It agrees with Java whenever the qualified name ends with a dot and the simple name, and otherwise only for text in the Basic Multilingual Plane.
- When an operation throws part-way through, the model returns the exception and drops the partial output. The Java stream would have kept whatever it had written before the throw.
- The overloads for `boolean`, `char`, `int`, `long`, `float`, `double`, `char[]` and `Object` are not modelled, in either the `print` or the `rawPrint` family. They differ from the `String` versions only in how Java turns the value into text, and floating-point text is out of scope. `append(CharSequence)` and `append(char)` are the same as `print` of the text.
- `printf` and `format`, with or without a `Locale`, are not modelled: Java's format-string language is out of scope. Like every other flushing write, they flush the queue first.
- The private `getCaller` is not modelled. Stack inspection is replaced by an explicit call-site string. `initializeOnFirst` and `onFirst` receive the caller's qualified method name, which is what `getCaller(2)`/`getCaller(3)` read from the stack.
- OnFirst: its action is a total emitter transformer. The runnables the templates pass (`implementsInterface`, `methodException`) cannot throw, so the exception path of `Runnable.run` is not modelled.
- Replace: the Java loop has no bound. The model gives it a `fuel` budget and reports `OutOfFuel` when the budget runs out. `ReplaceEmptyNeverEnds` shows an input on which no budget suffices.
- Expand: `Properties.stringPropertyNames()` has no defined order. The model takes the variables in the order given, so for contexts whose expansions interact it describes one of the possible orders.
- Capitalized: `toUpperCase` is modelled for ASCII letters only. Java's Unicode case tables can change the length, turning "ß" into "SS", which `|r| == |value|` does not allow.
- ExpandVarRewrites: states the rewrite only for keys without '$' or '}' and text and values without '$'. Other keys and values can make one placeholder's replacement create or hide another.
- LeadingLowerParts: `Character.isUpperCase` is modelled as ASCII 'A' to 'Z'. A part starting with a non-ASCII capital such as 'Ü' counts as lower-case here but not in Java.
- LowerPartsKept: inherits the ASCII-only upper-case test of `LeadingLowerParts`.
- UpperPartCuts: inherits the ASCII-only upper-case test of `LeadingLowerParts`.
- SapPackage: inherits the ASCII-only upper-case test. For a class nested in `a.Über`, Java gives the package `a`, and the model gives `a.Über`.
- SapPackageTopLevel: inherits the ASCII-only upper-case test of `LeadingLowerParts`.
- SapPackageInner: inherits the ASCII-only upper-case test of `LeadingLowerParts`.
- CodeGen.NewLine: `line.separator` is fixed to "\n". The source also writes literal "\n" in some places, so on a platform whose separator is "\r\n" its output mixes line endings. The model cannot show that.
- JavaSource.Comment: `comment(boolean, String...)` and `javadocComment(boolean, String...)` forward to `intComment`. Their contract is that of `IntComment`.
- JavaSource.EndClass, EndMethod, EndIf, EndWhile and EndFor have identical bodies in the source. They are modelled by `EndBlock`, whose contract they share.
- GenerationSupport: `File.separatorChar` is fixed to '/'.
- GenerationSupport: the `Verbose` sink is not modelled. The one-argument constructor leaves it null, so on such an instance every call that logs first throws NullPointerException before doing anything else: `getWritableResourceFileObject(pkg, name, element)` and everything built on it, `getWritableMavenResourceFileStream`, `getWritableCurrentDirRelativeResourceFileStream` and `getBestEffortResourceReference`. The model describes instances built with a sink. The `System.out.println` of the resolved file in the maven and current-directory streams is console output and is dropped too.
- GenerationSupport: the filer call `createResource` and the stream overloads' `delete` and `openOutputStream` are host I/O. A request records package, name, element, and whether the old file is deleted first.
- GenerationSupport: the Java source-file helpers (`getWritableJavaFileObjectForToBeCompiledSource`, `getToBeCompiledSourceFileStream`, `getToBeCompiledJavaSourceOutputStream`) only call the filer and are not modelled.
- GenerationSupport: directory creation, `ResourceReference.getInputStream`, `getOutputStream`, `readResourceAsString` and `writeResourceFromString` are host I/O. A read is an `Option<string>` parameter, and a write is the `Change` value an update returns.
- ElementModel: plain accessors are not modelled, and neither is `printType`/`toString`. The accessors are `getElement`, `getParent`, `getSimpleName`, `getKind`, `getQualifiedName`, `getExtends`, `getTypeParameters` and `getAnnotationMirrors`; they return a field of the host element.
- ElementModel: `getAnnotationsAsElementFromMirror` is not modelled. It returns host annotation type elements, which the model only knows by name.
- ElementModel: the compiler's `Elements.getAllMembers` is a parameter of the all-methods getters.
- TypeHash: `Name.hashCode` is implementation-defined, so the name hash is the parameter `nameHash`. The kind and type text are hashed with `String.hashCode` over their UTF-16 code units, as Java does. The same holds for ElementHash.
- ElementModel: the casts to `TypeElement` and `DeclaredType` are assumed to succeed, as the compiler API guarantees for the kinds involved.
- AutoDiscovery: `processAD` receives the annotated elements as a `Set`, whose iteration order is unspecified. `ProcessAll` takes them as a sequence, which fixes one order.
- AutoDiscovery: the console messages are not modelled. A failed write calls `failCompile`, which reports to the compiler's messager; that is not modelled either. The update model assumes the write succeeds.
- SimplifiedAnnotationProcessor, the dispatch of annotated elements to `@Process` methods, is not part of this model.

## Findings

| source | as written | input that shows it | evidently intended | confidence | as-written member | corrected member |
|---|---|---|---|---|---|---|
| src/main/java/se/natusoft/annotation/processor/simplified/codegen/JavaSourceOutputStream.java:341-343 | each `name=value` parameter is read with a `StringTokenizer` on '=', taking only the first two tokens | the parameter `n=v=w`, e.g. `expr=a=b`, is written as `n=v`, which loses `=w` | the parameter written as given: the name up to the first '=', the rest as the value | not executed; follows from the `StringTokenizer` contract | JavaSource.AnnotationLosesValueTail | JavaSource.AnnotationKeepsValueTail |
| src/main/java/se/natusoft/annotation/processor/simplified/AutoDiscoveryProcessor.java:92-93 | a processor counts as registered when its name occurs anywhere in the file's text | processing `a.FooBar` and then `a.Foo` into an empty file writes only `a.FooBar`; `a.Foo` is never added | a processor is registered when its name is one of the file's lines | not executed; follows from `String.contains` | AutoDiscovery.ProcessAllMissesPrefixName | AutoDiscovery.ProcessAllByLinesRegistersAll |
| src/main/java/se/natusoft/annotation/processor/simplified/AutoDiscoveryProcessor.java:93 | the new name is appended right after the old text | a hand-written file `a.Foo` with no final newline becomes `a.Fooa.Bar` plus a newline, which lists neither class | the new name on a line of its own | not executed; depends on the file lacking a final newline | AutoDiscovery.AsWrittenMergesLastLine | AutoDiscovery.UpdateByLines |
| src/main/java/se/natusoft/annotation/processor/simplified/model/SAPBaseElement.java:214-232 | `SAPBaseElement.equals` accepts any `SAPBaseElement`, a `SAPType` included, and compares simple names; `SAPType.hashCode` hashes the qualified name | for a type `p.A`, the base wrapper equals the `SAPType` wrapper of the same element, but one hashes `A` and the other `p.A` | equal objects have equal hash codes, as `Object.hashCode` requires; for example, equality only within one runtime class | not executed; needs a name hash that tells `A` from `p.A` | ElementModel.WrapperHashBreaksEquals | ElementModel.SameClassEqualsKeepsHashContract |

=== FILE: autodiscovery.dfy ===
/** The `@AutoDiscovery` processor: for each annotated processor class it
    registers the class's qualified name in the service file
    `META-INF/services/javax.annotation.processing.Processor`, one name per
    line.

    The file is located with the best-effort resource lookup, trying
    `src/main/processors` first. Reading and writing are host I/O: the read
    comes in as `Option<string>` (None for an IOException) and the decision
    goes out as a `Change`.
 */
module AutoDiscovery {
  import opened Wrappers
  import opened JavaStrings
  import opened GenerationSupport

  const ProcessorDiscoveryFile := "javax.annotation.processing.Processor"
  const RelativeProcessorDiscoveryPath := "META-INF/services"

  /** The roots tried before the maven resource root. */
  const ProcessorRoots := ["src/main/processors"]

  /** The service file's path relative to its root. */
  const DiscoveryPath := RelativeProcessorDiscoveryPath + "/" + ProcessorDiscoveryFile

  /** Where the service file is read and written: under `src/main/processors`
      if that exists, else under the maven resource root if that exists,
      else as the filer resource `javax.annotation.processing.Processor` in
      the package `META-INF.services`. */
  function DiscoveryReference(exists_: string -> bool): (r: Result<ResourceReference>)
    ensures exists_(ProcessorRoots[0]) ==> r == Ok(FileReference(ProcessorRoots[0], DiscoveryPath))
    ensures !exists_(ProcessorRoots[0]) && exists_(MavenResourceRoot) ==> r == Ok(FileReference(MavenResourceRoot, DiscoveryPath))
    ensures !exists_(ProcessorRoots[0]) && !exists_(MavenResourceRoot) ==>
      r == Ok(FilerReference(ReplaceChar(RelativeProcessorDiscoveryPath, FileSeparator, '.'), ProcessorDiscoveryFile))
  {
    DiscoveryPathSplits();
    assert ProcessorRoots[1..] == [];
    BestEffort(DiscoveryPath, ProcessorRoots, exists_)
  }

  lemma DiscoveryPathSplits()
    ensures FilerResourceReference(DiscoveryPath)
      == Ok(FilerReference(ReplaceChar(RelativeProcessorDiscoveryPath, FileSeparator, '.'), ProcessorDiscoveryFile))
  {
    assert DiscoveryPath == RelativeProcessorDiscoveryPath + [FileSeparator] + ProcessorDiscoveryFile;
    FilerReferenceOf(RelativeProcessorDiscoveryPath, ProcessorDiscoveryFile);
  }

  /** The file's text before the update: a failed read counts as empty. */
  function ExistingContent(read: Option<string>): string
  {
    if read.Some? then read.value else ""
  }

  /** What an update does to the file. */
  datatype Change = Unchanged | Write(content: string)

  /** The text the file holds after an update. */
  function After(existing: string, u: Change): string
  {
    if u.Write? then u.content else existing
  }

  /** The lines of a file's text (the last one empty when it ends in a newline). */
  function FileLines(content: string): seq<string>
  {
    Fields(content, '\n')
  }

  /** `name` is one of the file's lines. */
  predicate Registered(content: string, name: string)
  {
    name in FileLines(content)
  }

  // ---------------------------------------------------------------------------
  // The update rule as the source writes it
  // ---------------------------------------------------------------------------

  /** `updateJavaxAnnotationProcessinProcessors`: leave the file alone when
      its text contains the name anywhere, else append the name and a newline. */
  function UpdateAsWritten(read: Option<string>, name: string): (r: Change)
    ensures r.Unchanged? <==> Contains(ExistingContent(read), name)
    ensures r.Write? ==> ExistingContent(read) <= r.content
    ensures r.Write? ==> r.content[|ExistingContent(read)|..] == name + "\n"
  {
    var existing := ExistingContent(read);
    if Contains(existing, name) then Unchanged
    else
      var c := existing + name + "\n";
      assert c[|existing|..] == name + "\n";
      Write(c)
  }

  /** After an update the text contains the name, so a second update with
      the same name leaves the file alone. */
  lemma AsWrittenIdempotent(read: Option<string>, name: string)
    ensures var c := After(ExistingContent(read), UpdateAsWritten(read, name));
      Contains(c, name) && UpdateAsWritten(Some(c), name) == Unchanged
  {
    var existing := ExistingContent(read);
    if !Contains(existing, name) {
      var c := existing + name + "\n";
      assert OccursAt(c, name, |existing|) by {
        assert c[|existing|..|existing| + |name|] == name;
      }
    }
  }

  /** A name that is a proper prefix of a registered name is found inside
      it, and so is never registered itself. */
  lemma AsWrittenMissesPrefixName(n: string, suffix: string)
    requires n != "" && suffix != ""
    requires '\n' !in n && '\n' !in suffix
    ensures var content := n + suffix + "\n";
      && UpdateAsWritten(Some(content), n) == Unchanged
      && !Registered(content, n)
  {
    var content := n + suffix + "\n";
    assert OccursAt(content, n, 0) by { assert content[..|n|] == n; }
    LinesOfTerminatedLine(n + suffix);
    assert |n + suffix| > |n|;
  }

  /** Appending to a text that does not end in a newline glues the new name
      to the last line, so neither name is a line afterwards. */
  lemma AsWrittenMergesLastLine(a: string, b: string)
    requires a != "" && b != ""
    requires '\n' !in a && '\n' !in b
    requires !Contains(a, b)
    ensures UpdateAsWritten(Some(a), b) == Write(a + b + "\n")
    ensures !Registered(a + b + "\n", a) && !Registered(a + b + "\n", b)
  {
    LinesOfTerminatedLine(a + b);
    assert |a + b| > |a| && |a + b| > |b|;
  }

  /** A single line followed by a newline has that line and an empty one. */
  lemma LinesOfTerminatedLine(line: string)
    requires '\n' !in line
    ensures FileLines(line + "\n") == [line, ""]
  {
    FieldsAround(line, "", '\n');
    FieldsWithoutSeparator(line, '\n');
    assert line + ['\n'] + "" == line + "\n";
  }

  // ---------------------------------------------------------------------------
  // The update rule by lines
  // ---------------------------------------------------------------------------

  /** The text with a newline added unless it is empty or already ends in one. */
  function Terminated(content: string): (r: string)
    ensures content <= r
    ensures r == "" || r[|r| - 1] == '\n'
  {
    if content == "" || content[|content| - 1] == '\n' then content else content + "\n"
  }

  /** The update compared line by line: leave the file alone when the name is
      one of its lines, else end the last line and add the name as a line. */
  function UpdateByLines(read: Option<string>, name: string): (r: Change)
    ensures r.Unchanged? <==> Registered(ExistingContent(read), name)
    ensures r.Write? ==> ExistingContent(read) <= r.content
    ensures r.Write? && '\n' !in name ==> Registered(r.content, name)
    ensures r.Write? ==> forall l :: l in FileLines(ExistingContent(read)) ==> l in FileLines(r.content)
  {
    var existing := ExistingContent(read);
    if Registered(existing, name) then Unchanged
    else
      var c := Terminated(existing) + name + "\n";
      AppendedLine(existing, name);
      Write(c)
  }

  /** Adding a line keeps every old line and adds the new one. */
  lemma AppendedLine(existing: string, name: string)
    ensures forall l :: l in FileLines(existing) ==> l in FileLines(Terminated(existing) + name + "\n")
    ensures '\n' !in name ==> Registered(Terminated(existing) + name + "\n", name)
  {
    var t := Terminated(existing);
    var c := t + name + "\n";
    assert c == t + name + ['\n'] + "";
    FieldsAround(t + name, "", '\n');
    if t == "" {
      assert existing == "";
      assert t + name == name;
    } else {
      var p := t[..|t| - 1];
      assert t == p + ['\n'] + "";
      FieldsAround(p, "", '\n');
      assert t + name == p + ['\n'] + name;
      FieldsAround(p, name, '\n');
      if existing == t {
        assert FileLines(existing) == FileLines(p) + [""];
      } else {
        assert existing == p;
      }
      if '\n' !in name {
        FieldsWithoutSeparator(name, '\n');
      }
    }
    if t == "" && '\n' !in name {
      FieldsWithoutSeparator(name, '\n');
    }
    assert FileLines(c) == FileLines(t + name) + [""];
  }

  /** A name added by the line rule is found again, so the update is idempotent. */
  lemma UpdateIdempotent(read: Option<string>, name: string)
    requires '\n' !in name
    ensures var c := After(ExistingContent(read), UpdateByLines(read, name));
      Registered(c, name) && UpdateByLines(Some(c), name) == Unchanged
  {
  }

  /** The names whose prefix the as-written rule mistakes for registered are
      registered by the line rule. */
  lemma LineRuleRegistersPrefixName(n: string, suffix: string)
    requires n != "" && suffix != ""
    requires '\n' !in n && '\n' !in suffix
    ensures var content := n + suffix + "\n";
      && UpdateByLines(Some(content), n).Write?
      && Registered(UpdateByLines(Some(content), n).content, n)
      && Registered(UpdateByLines(Some(content), n).content, n + suffix)
  {
    var content := n + suffix + "\n";
    LinesOfTerminatedLine(n + suffix);
    assert |n + suffix| > |n|;
    assert n + suffix in FileLines(content);
  }

  // ---------------------------------------------------------------------------
  // Processing every annotated class
  // ---------------------------------------------------------------------------

  /** A text containing `pat` still contains it once more text is appended. */
  lemma ContainsExtended(s: string, u: string, pat: string)
    requires Contains(s, pat) && s <= u
    ensures Contains(u, pat)
  {
    var i :| 0 <= i <= |s| && OccursAt(s, pat, i);
    assert u[i..i + |pat|] == s[i..i + |pat|];
    assert OccursAt(u, pat, i);
  }

  /** `processAD`: one update per annotated processor, in order, each reading
      the text the previous one left. */
  function ProcessAll(existing: string, names: seq<string>): string
    decreases |names|
  {
    if |names| == 0 then existing
    else ProcessAll(After(existing, UpdateAsWritten(Some(existing), names[0])), names[1..])
  }

  /** After processing, the old text is still at the start of the file and
      every processor name occurs in it. */
  lemma {:induction false} ProcessAllContainsAll(existing: string, names: seq<string>)
    ensures existing <= ProcessAll(existing, names)
    ensures forall i :: 0 <= i < |names| ==> Contains(ProcessAll(existing, names), names[i])
    decreases |names|
  {
    if |names| > 0 {
      var next := After(existing, UpdateAsWritten(Some(existing), names[0]));
      AsWrittenIdempotent(Some(existing), names[0]);
      ProcessAllContainsAll(next, names[1..]);
      var result := ProcessAll(existing, names);
      ContainsExtended(next, result, names[0]);
      forall i | 0 <= i < |names|
        ensures Contains(result, names[i])
      {
        if i > 0 {
          assert names[i] == names[1..][i - 1];
        }
      }
    }
  }

  /** Names that already occur in the text change nothing. */
  lemma {:induction false} ProcessAllContainedUnchanged(existing: string, names: seq<string>)
    requires forall i :: 0 <= i < |names| ==> Contains(existing, names[i])
    ensures ProcessAll(existing, names) == existing
    decreases |names|
  {
    if |names| > 0 {
      assert forall i :: 1 <= i < |names| ==> names[i] == names[1..][i - 1];
      ProcessAllContainedUnchanged(existing, names[1..]);
    }
  }

  /** Running the processor a second time over the same classes leaves the
      file as the first run left it. */
  lemma ProcessAllIdempotent(existing: string, names: seq<string>)
    ensures ProcessAll(ProcessAll(existing, names), names) == ProcessAll(existing, names)
  {
    ProcessAllContainsAll(existing, names);
    ProcessAllContainedUnchanged(ProcessAll(existing, names), names);
  }

  /** Processing `n + suffix` and then `n` into an empty file writes one line
      and never lists `n`. */
  lemma ProcessAllMissesPrefixName(n: string, suffix: string)
    requires n != "" && suffix != ""
    requires '\n' !in n && '\n' !in suffix
    ensures ProcessAll("", [n + suffix, n]) == n + suffix + "\n"
    ensures !Registered(ProcessAll("", [n + suffix, n]), n)
  {
    var first := n + suffix;
    assert !Contains("", first);
    assert "" + first + "\n" == first + "\n";
    var c := first + "\n";
    assert [first, n][1..] == [n];
    assert [n][1..] == [];
    AsWrittenMissesPrefixName(n, suffix);
    assert ProcessAll("", [first, n]) == ProcessAll(c, [n]);
  }

  /** `processAD` with the line rule: the corrected fold. */
  function ProcessAllByLines(existing: string, names: seq<string>): string
    decreases |names|
  {
    if |names| == 0 then existing
    else ProcessAllByLines(After(existing, UpdateByLines(Some(existing), names[0])), names[1..])
  }

  /** With the line rule every processor name is a line of the file and
      every line the file had is still there. */
  lemma {:induction false} ProcessAllByLinesRegistersAll(existing: string, names: seq<string>)
    requires forall i :: 0 <= i < |names| ==> '\n' !in names[i]
    ensures forall i :: 0 <= i < |names| ==> Registered(ProcessAllByLines(existing, names), names[i])
    ensures forall l :: l in FileLines(existing) ==> l in FileLines(ProcessAllByLines(existing, names))
    decreases |names|
  {
    if |names| > 0 {
      var next := After(existing, UpdateByLines(Some(existing), names[0]));
      ProcessAllByLinesRegistersAll(next, names[1..]);
      assert Registered(next, names[0]);
      assert names[0] in FileLines(next);
      forall i | 0 <= i < |names|
        ensures Registered(ProcessAllByLines(existing, names), names[i])
      {
        if i > 0 {
          assert names[i] == names[1..][i - 1];
        }
      }
    }
  }

  /** With the line rule, processing names already registered changes nothing. */
  lemma {:induction false} ProcessAllByLinesRegisteredUnchanged(existing: string, names: seq<string>)
    requires forall i :: 0 <= i < |names| ==> Registered(existing, names[i])
    ensures ProcessAllByLines(existing, names) == existing
    decreases |names|
  {
    if |names| > 0 {
      ProcessAllByLinesRegisteredUnchanged(existing, names[1..]);
    }
  }
}

=== FILE: codegen.dfy ===
/** The source-text emitter of `CodeGeneratorOutputStream`: a print stream
    that keeps an indentation prefix, a comma slot, a first-only slot, a queue
    of deferred fragments and the identity of the last list-item caller.

    The stream is an immutable `Emitter` value and every public operation is a
    function from one emitter to the next. Operations that can raise a Java
    runtime exception return a `Result`; the others return the new emitter.
    The call-site identity that the source reads from the stack trace is an
    explicit `site` argument.
 */
module CodeGen {
  import opened Wrappers
  import opened JavaStrings

  /** One indentation level. */
  const IndentUnit := "    "

  /** What `PrintStream.newLine` writes (the platform line separator, taken as LF). */
  const NewLine := "\n"

  /** The value a comma slot renders after its first use. */
  const Separator := ", "

  /** The comma slot: renders its value and then switches to `Separator`. */
  datatype Comma = Comma(value: string)

  /** The first-only slot: renders its value and then switches to "". */
  datatype FirstOnly = FirstOnly(value: string)

  /** A deferred-fragment queue that exists: the source drops the list as soon
      as it becomes empty, so an existing queue is never empty. */
  type Fragments = q: seq<string> | |q| > 0 witness [""]

  /** The whole mutable state of a stream. A `None` slot or queue is Java's null. */
  datatype Emitter = Emitter(
    out: string,
    indent: string,
    comma: Option<Comma>,
    firstOnly: Option<FirstOnly>,
    queue: Option<Fragments>,
    lastCaller: string)

  /** A freshly constructed stream. */
  const Fresh := Emitter("", "", None, None, None, "")

  /** An indentation prefix: whole units of four spaces. */
  predicate IsIndent(p: string)
  {
    |p| % 4 == 0 && forall i :: 0 <= i < |p| ==> p[i] == ' '
  }

  /** What every sequence of public operations keeps true of a stream. */
  predicate Valid(e: Emitter)
  {
    && IsIndent(e.indent)
    && (e.comma.Some? ==> e.comma.value.value == "" || e.comma.value.value == Separator)
  }

  /** The deferred fragments, in the order they were queued. */
  function Queued(e: Emitter): seq<string>
  {
    if e.queue.Some? then e.queue.value else []
  }

  /** The text the next flushing write emits before its own text. */
  function Pending(e: Emitter): string
  {
    Concat(Queued(e))
  }

  // ---------------------------------------------------------------------------
  // Writing
  // ---------------------------------------------------------------------------

  /** The flushing loop: prints each fragment in turn onto `acc`. */
  function Drain(acc: string, q: seq<string>): (r: string)
    ensures r == acc + Concat(q)
    decreases |q|
  {
    if |q| == 0 then acc
    else
      assert acc + Concat(q) == (acc + q[0]) + Concat(q[1..]);
      Drain(acc + q[0], q[1..])
  }

  /** `flushAllDelayedPrints`: every queued fragment, in FIFO order, then no queue. */
  function FlushAll(e: Emitter): (r: Emitter)
    ensures r == e.(out := e.out + Pending(e), queue := None)
    ensures Valid(e) ==> Valid(r)
  {
    match e.queue
    case None => e
    case Some(q) => e.(out := Drain(e.out, q), queue := None)
  }

  /** `rawPrint(String)`: appends without touching the queue. */
  function RawPrint(e: Emitter, s: string): (r: Emitter)
    ensures r.queue == e.queue && Pending(r) == Pending(e)
    ensures r == e.(out := e.out + s)
    ensures Valid(e) ==> Valid(r)
  {
    e.(out := e.out + s)
  }

  /** `print(String)` (and `append(CharSequence)`): flushes the queue, then writes. */
  function Print(e: Emitter, s: string): (r: Emitter)
    ensures r == e.(out := e.out + Pending(e) + s, queue := None)
    ensures Valid(e) ==> Valid(r)
  {
    var f := FlushAll(e);
    f.(out := f.out + s)
  }

  /** `println(String)`: a flushing print of the text, then the line separator. */
  function Println(e: Emitter, s: string): (r: Emitter)
    ensures r == e.(out := e.out + Pending(e) + s + NewLine, queue := None)
    ensures Valid(e) ==> Valid(r)
  {
    RawPrint(Print(e, s), NewLine)
  }

  /** `append(CharSequence, int, int)`: flushes, then writes `csq[start..end]`;
      a range outside the text raises StringIndexOutOfBoundsException. */
  function AppendRange(e: Emitter, csq: string, start: int, end: int): (r: Result<Emitter>)
    ensures r.Throw? <==> !(0 <= start <= end <= |csq|)
    ensures r.Ok? ==> r.value == e.(out := e.out + Pending(e) + csq[start..end], queue := None)
  {
    if 0 <= start <= end <= |csq| then Ok(Print(e, csq[start..end]))
    else Throw(StringIndexOutOfBounds)
  }

  // ---------------------------------------------------------------------------
  // Indentation
  // ---------------------------------------------------------------------------

  /** `incrementIndent`: one more unit of indentation. */
  function IncrementIndent(e: Emitter): (r: Emitter)
    ensures |r.indent| == |e.indent| + 4 && e.indent <= r.indent
    ensures IsIndent(e.indent) ==> IsIndent(r.indent)
    ensures r == e.(indent := r.indent)
    ensures Valid(e) ==> Valid(r)
  {
    e.(indent := e.indent + IndentUnit)
  }

  /** `decrementIndent`: drops the last four characters of the prefix; with
      fewer than four the substring call raises StringIndexOutOfBoundsException. */
  function DecrementIndent(e: Emitter): (r: Result<Emitter>)
    ensures r.Throw? <==> |e.indent| < 4
    ensures r.Ok? ==> |r.value.indent| == |e.indent| - 4 && r.value.indent <= e.indent
    ensures r.Ok? ==> r.value == e.(indent := r.value.indent)
    ensures r.Ok? && Valid(e) ==> Valid(r.value)
  {
    if |e.indent| < 4 then Throw(StringIndexOutOfBounds)
    else Ok(e.(indent := e.indent[..|e.indent| - 4]))
  }

  /** `indent()`: a flushing write of the current prefix. */
  function Indent(e: Emitter): (r: Emitter)
    ensures r == e.(out := e.out + Pending(e) + e.indent, queue := None)
    ensures Valid(e) ==> Valid(r)
  {
    Print(e, e.indent)
  }

  /** `contentln`: one indented, terminated line. */
  function Contentln(e: Emitter, line: string): (r: Emitter)
    ensures r == e.(out := e.out + Pending(e) + e.indent + line + NewLine, queue := None)
    ensures Valid(e) ==> Valid(r)
  {
    Println(Indent(e), line)
  }

  /** `emptyLine`: an indented empty line (the prefix is still written). */
  function EmptyLine(e: Emitter): (r: Emitter)
    ensures r == e.(out := e.out + Pending(e) + e.indent + NewLine, queue := None)
    ensures Valid(e) ==> Valid(r)
  {
    Contentln(e, "")
  }

  lemma IndentRoundTrip(e: Emitter)
    ensures DecrementIndent(IncrementIndent(e)) == Ok(e)
  {
    assert (e.indent + IndentUnit)[..|e.indent|] == e.indent;
  }

  // ---------------------------------------------------------------------------
  // Comma and first-only slots
  // ---------------------------------------------------------------------------

  /** `newComma`: the next `printComma` renders "". */
  function NewComma(e: Emitter): (r: Emitter)
    ensures r.comma == Some(Comma(""))
    ensures r == e.(comma := r.comma)
    ensures Valid(e) ==> Valid(r)
  {
    e.(comma := Some(Comma("")))
  }

  /** `printComma`: a raw write of the slot's value, after which the slot holds
      `Separator`; without a slot it raises NullPointerException. */
  function PrintComma(e: Emitter): (r: Result<Emitter>)
    ensures r.Throw? <==> e.comma.None?
    ensures r.Throw? ==> r.exception == NullPointer
    ensures r.Ok? ==> r.value == e.(out := e.out + e.comma.value.value, comma := Some(Comma(Separator)))
    ensures r.Ok? && Valid(e) ==> Valid(r.value)
    ensures r.Ok? && Valid(e) ==> e.out <= r.value.out && |r.value.out| <= |e.out| + 2
  {
    match e.comma
    case None => Throw(NullPointer)
    case Some(c) => Ok(e.(out := e.out + c.value, comma := Some(Comma(Separator))))
  }

  /** `newFirstOnly(value)`: the next `printFirstOnly` renders `value`. */
  function NewFirstOnly(e: Emitter, value: string): (r: Emitter)
    ensures r.firstOnly == Some(FirstOnly(value))
    ensures r == e.(firstOnly := r.firstOnly)
    ensures Valid(e) ==> Valid(r)
  {
    e.(firstOnly := Some(FirstOnly(value)))
  }

  /** `printFirstOnly`: a raw write of the slot's value, after which the slot
      holds ""; without a slot it raises NullPointerException. */
  function PrintFirstOnly(e: Emitter): (r: Result<Emitter>)
    ensures r.Throw? <==> e.firstOnly.None?
    ensures r.Throw? ==> r.exception == NullPointer
    ensures r.Ok? ==> r.value == e.(out := e.out + e.firstOnly.value.value, firstOnly := Some(FirstOnly("")))
    ensures r.Ok? && Valid(e) ==> Valid(r.value)
  {
    match e.firstOnly
    case None => Throw(NullPointer)
    case Some(f) => Ok(e.(out := e.out + f.value, firstOnly := Some(FirstOnly(""))))
  }

  /** `printComma(); rawPrint(item)` for each item in turn: the list idiom of
      `methodArg`, `methodException` and `implementsInterface`. */
  function CommaList(e: Emitter, items: seq<string>): Result<Emitter>
    decreases |items|
  {
    if |items| == 0 then Ok(e)
    else
      var c :- PrintComma(e);
      CommaList(RawPrint(c, items[0]), items[1..])
  }

  /** Once the comma slot holds the separator, each item is preceded by ", ". */
  lemma {:induction false} CommaListAfterFirst(e: Emitter, items: seq<string>)
    requires e.comma == Some(Comma(Separator))
    ensures CommaList(e, items) == Ok(e.(out := e.out + Prefixed(items, Separator)))
    decreases |items|
  {
    if |items| > 0 {
      var p := PrintComma(e);
      assert p == Ok(e.(out := e.out + Separator));
      var c := RawPrint(p.value, items[0]);
      CommaListAfterFirst(c, items[1..]);
      assert CommaList(e, items) == CommaList(c, items[1..]);
      assert e.out + Prefixed(items, Separator) == c.out + Prefixed(items[1..], Separator);
    } else {
      assert e.out + Prefixed(items, Separator) == e.out;
    }
  }

  /** After `newComma`, the list comes out separated by ", " with no leading
      or trailing comma. */
  lemma {:induction false} CommaListJoins(e: Emitter, items: seq<string>)
    ensures CommaList(NewComma(e), items)
      == Ok(e.(out := e.out + Join(items, Separator),
               comma := Some(Comma(if |items| == 0 then "" else Separator))))
  {
    var n := NewComma(e);
    if |items| > 0 {
      assert e.out + "" == e.out;
      var p := e.(comma := Some(Comma(Separator)));
      assert PrintComma(n) == Ok(p);
      var c := p.(out := e.out + items[0]);
      assert RawPrint(p, items[0]) == c;
      CommaListAfterFirst(c, items[1..]);
      assert CommaList(n, items) == CommaList(c, items[1..]);
      assert e.out + Join(items, Separator) == c.out + Prefixed(items[1..], Separator);
    } else {
      assert e.out + Join(items, Separator) == e.out;
    }
  }

  /** After `newComma`, the first `printComma` writes "" and every later one ", ". */
  lemma CommaFirstThenSeparator(e: Emitter)
    ensures var c1 := PrintComma(NewComma(e));
      && c1.Ok? && c1.value.out == e.out
      && var c2 := PrintComma(c1.value);
         c2.Ok? && c2.value.out == e.out + Separator && c2.value.comma == c1.value.comma
  {
  }

  /** After `newFirstOnly(v)` the first `printFirstOnly` writes `v`, and from
      then on `printFirstOnly` changes nothing at all. */
  lemma FirstOnlyOnce(e: Emitter, v: string)
    ensures var f1 := PrintFirstOnly(NewFirstOnly(e, v));
      && f1.Ok? && f1.value.out == e.out + v
      && PrintFirstOnly(f1.value) == Ok(f1.value)
  {
    var f1 := PrintFirstOnly(NewFirstOnly(e, v)).value;
    assert f1.out + "" == f1.out;
  }

  // ---------------------------------------------------------------------------
  // The deferred-fragment queue
  // ---------------------------------------------------------------------------

  /** `delayedPrint`: appends one fragment to the queue, creating it if absent. */
  function DelayedPrint(e: Emitter, text: string): (r: Emitter)
    ensures r.queue == Some(Queued(e) + [text])
    ensures r == e.(queue := r.queue)
    ensures Valid(e) ==> Valid(r)
  {
    match e.queue
    case None =>
      assert Queued(e) + [text] == [text];
      e.(queue := Some([text]))
    case Some(q) => e.(queue := Some(q + [text]))
  }

  /** `delayedPrintln`: queues exactly the text followed by a newline. */
  function DelayedPrintln(e: Emitter, text: string): (r: Emitter)
    ensures r.queue == Some(Queued(e) + [text + "\n"])
    ensures r == e.(queue := r.queue)
    ensures Valid(e) ==> Valid(r)
  {
    DelayedPrint(e, text + "\n")
  }

  /** `flushFirstDelayedPrint`: writes the head fragment and blanks it in
      place, so the queue keeps its length; no queue, no effect. */
  function FlushFirstDelayedPrint(e: Emitter): (r: Emitter)
    ensures e.queue.None? ==> r == e
    ensures e.queue.Some? ==> var q := e.queue.value;
      r == e.(out := e.out + q[0], queue := Some(q[0 := ""]))
    ensures |Queued(r)| == |Queued(e)|
    ensures Valid(e) ==> Valid(r)
  {
    match e.queue
    case None => e
    case Some(q) => e.(out := e.out + q[0], queue := Some(q[0 := ""]))
  }

  /** `flushAndRemoveFirstDelayedPrint`: writes and removes the head fragment,
      dropping the queue when it becomes empty. */
  function FlushAndRemoveFirstDelayedPrint(e: Emitter): (r: Emitter)
    ensures e.queue.None? ==> r == e
    ensures e.queue.Some? ==> var q := e.queue.value;
      r.out == e.out + q[0] && Queued(r) == q[1..]
    ensures r == e.(out := r.out, queue := r.queue)
    ensures Valid(e) ==> Valid(r)
  {
    match e.queue
    case None => e
    case Some(q) =>
      e.(out := e.out + q[0], queue := if |q| == 1 then None else Some(q[1..]))
  }

  /** `delayedPrint` for each fragment in turn. */
  function DelayAll(e: Emitter, fragments: seq<string>): (r: Emitter)
    decreases |fragments|
  {
    if |fragments| == 0 then e else DelayAll(DelayedPrint(e, fragments[0]), fragments[1..])
  }

  /** Queued fragments come out in FIFO order, ahead of the text of the next
      flushing write, and leave the queue empty. */
  lemma {:induction false} DelayedThenPrint(e: Emitter, fragments: seq<string>, s: string)
    ensures Print(DelayAll(e, fragments), s)
      == e.(out := e.out + Pending(e) + Concat(fragments) + s, queue := None)
    decreases |fragments|
  {
    if |fragments| > 0 {
      var f := fragments[0];
      var rest := fragments[1..];
      var d := DelayedPrint(e, f);
      DelayedThenPrint(d, rest, s);
      assert DelayAll(e, fragments) == DelayAll(d, rest);
      PendingAfterDelay(e, f);
      assert Concat(fragments) == f + Concat(rest);
      var x := e.out + Pending(e) + Concat(fragments) + s;
      assert d.out + Pending(d) + Concat(rest) + s == x by {
        assert d.out + Pending(d) == e.out + Pending(e) + f;
      }
      assert d.(out := x, queue := None) == e.(out := x, queue := None);
    } else {
      assert Concat(fragments) == "";
    }
  }

  /** Delaying a fragment adds it at the end of the pending text. */
  lemma PendingAfterDelay(e: Emitter, text: string)
    ensures Pending(DelayedPrint(e, text)) == Pending(e) + text
  {
    ConcatAppend(Queued(e), [text]);
    ConcatOneTwo(text, "");
  }

  /** A second `flushFirstDelayedPrint` straight after the first writes nothing
      and changes nothing. */
  lemma FlushFirstTwice(e: Emitter)
    ensures FlushFirstDelayedPrint(FlushFirstDelayedPrint(e)) == FlushFirstDelayedPrint(e)
  {
    match e.queue
    case None =>
    case Some(q) =>
      var f := FlushFirstDelayedPrint(e);
      assert f.queue.value[0] == "";
      assert f.queue.value[0 := ""] == f.queue.value;
  }

  /** Two removing flushes write the first two queued fragments, in order. */
  lemma FlushAndRemoveTwice(e: Emitter)
    requires |Queued(e)| >= 2
    ensures var r := FlushAndRemoveFirstDelayedPrint(FlushAndRemoveFirstDelayedPrint(e));
      r.out == e.out + Queued(e)[0] + Queued(e)[1] && Queued(r) == Queued(e)[2..]
  {
  }

  /** `flushAndRemoveFirstDelayedPrint` applied `n` times. */
  function RemoveFirstN(e: Emitter, n: nat): (r: Emitter)
    decreases n
  {
    if n == 0 then e else RemoveFirstN(FlushAndRemoveFirstDelayedPrint(e), n - 1)
  }

  /** Removing flushes, one per queued fragment, do exactly what a full flush does. */
  lemma {:induction false} RemovingFlushesDrainQueue(e: Emitter)
    ensures RemoveFirstN(e, |Queued(e)|) == FlushAll(e)
    decreases |Queued(e)|
  {
    if e.queue.Some? {
      var q := e.queue.value;
      var f := FlushAndRemoveFirstDelayedPrint(e);
      RemovingFlushesDrainQueue(f);
      assert Concat(q) == q[0] + Concat(q[1..]);
    }
  }

  // ---------------------------------------------------------------------------
  // First-call detection
  // ---------------------------------------------------------------------------

  /** `initializeOnFirst`: records the initialising method's call site. */
  function InitializeOnFirst(e: Emitter, site: string): (r: Emitter)
    ensures r.lastCaller == site
    ensures r == e.(lastCaller := r.lastCaller)
    ensures Valid(e) ==> Valid(r)
  {
    e.(lastCaller := site)
  }

  /** `onFirst`: runs `action` iff `site` differs from the last caller, then
      records `site`. (The actions the templates pass never throw.) */
  function OnFirst(e: Emitter, site: string, action: Emitter -> Emitter): (r: Emitter)
    ensures r.lastCaller == site
    ensures site != e.lastCaller ==> r == action(e).(lastCaller := site)
    ensures site == e.lastCaller ==> r == e
  {
    var run := if site != e.lastCaller then action(e) else e;
    run.(lastCaller := site)
  }

  /** `onNonFirst`: runs `action` iff `site` equals the last caller, then
      records `site`. */
  function OnNonFirst(e: Emitter, site: string, action: Emitter -> Emitter): (r: Emitter)
    ensures r.lastCaller == site
    ensures site == e.lastCaller ==> r == action(e).(lastCaller := site)
    ensures site != e.lastCaller ==> r == e.(lastCaller := site)
  {
    var run := if site == e.lastCaller then action(e) else e;
    run.(lastCaller := site)
  }

  /** In a run of calls from one site, `onFirst` acts on the first call only:
      the next call from the same site is a no-op. */
  lemma OnFirstOncePerRun(e: Emitter, site: string, action: Emitter -> Emitter)
    ensures var e1 := OnFirst(e, site, action);
      OnFirst(e1, site, action) == e1
  {
  }

  /** `onNonFirst` skips the first call of a run and acts on every later one. */
  lemma OnNonFirstSkipsFirst(e: Emitter, site: string, action: Emitter -> Emitter)
    requires site != e.lastCaller
    ensures var e1 := OnNonFirst(e, site, action);
      && e1 == e.(lastCaller := site)
      && OnNonFirst(e1, site, action) == action(e1).(lastCaller := site)
  {
  }

  // ---------------------------------------------------------------------------
  // Variable expansion
  // ---------------------------------------------------------------------------

  /** The private `replace` loop: while `from` occurs, splice `to` in place of
      its first occurrence. The Java loop need not terminate (it spins forever
      when `from` is empty or `to` regenerates `from`), so each splice costs
      one unit of `fuel`; running out yields `OutOfFuel`. */
  function Replace(s: string, from: string, to: string, fuel: nat): (r: Result<string>)
    ensures r.Ok? ==> !Contains(r.value, from)
    ensures r.Throw? ==> r.exception == OutOfFuel
    ensures !Contains(s, from) ==> r == Ok(s)
    decreases fuel
  {
    match IndexOf(s, from)
    case None => Ok(s)
    case Some(ix) =>
      if fuel == 0 then Throw(OutOfFuel)
      else Replace(Splice(s, from, to, ix), from, to, fuel - 1)
  }

  /** With an empty `from` the loop never ends, however much fuel is given. */
  lemma {:induction false} ReplaceEmptyNeverEnds(s: string, to: string, fuel: nat)
    ensures Replace(s, "", to, fuel) == Throw(OutOfFuel)
    decreases fuel
  {
    assert OccursAt(s, "", 0);
    if fuel > 0 {
      ReplaceEmptyNeverEnds(to + s, to, fuel - 1);
      assert Splice(s, "", to, 0) == to + s;
    }
  }

  /** When `to` is shorter than `from` every splice shortens the text, so the
      loop ends within |s| splices. */
  lemma {:induction false} ReplaceShrinkingEnds(s: string, from: string, to: string, fuel: nat)
    requires |to| < |from| && fuel >= |s|
    ensures Replace(s, from, to, fuel).Ok?
    decreases fuel
  {
    var i := IndexOf(s, from);
    if i.Some? {
      var s' := Splice(s, from, to, i.value);
      ReplaceShrinkingEnds(s', from, to, fuel - 1);
    }
  }

  /** One step of the replacement loop: the occurrence of `from` at `ix`
      replaced by `to`. */
  function Splice(s: string, from: string, to: string, ix: nat): (r: string)
    requires ix + |from| <= |s|
    ensures |r| == |s| - |from| + |to|
    ensures r[..ix] == s[..ix] && r[ix..ix + |to|] == to && r[ix + |to|..] == s[ix + |from|..]
  {
    s[..ix] + to + s[ix + |from|..]
  }

  /** `value` with its first character upper-cased (ASCII). */
  function Capitalized(value: string): (r: string)
    requires |value| > 0
    ensures |r| == |value| && r[1..] == value[1..] && r[0] == ToUpper(value[0])
  {
    [ToUpper(value[0])] + value[1..]
  }

  /** What `${get:key}` expands to: the getter call for a property. */
  function Getter(value: string): string
    requires |value| > 0
  {
    "get" + Capitalized(value) + "()"
  }

  /** What `${set:key}` expands to: the setter name, without parentheses. */
  function Setter(value: string): string
    requires |value| > 0
  {
    "set" + Capitalized(value)
  }

  function Placeholder(key: string): string { "${" + key + "}" }
  function GetterPlaceholder(key: string): string { "${get:" + key + "}" }
  function SetterPlaceholder(key: string): string { "${set:" + key + "}" }

  /** One iteration of `expand`: `${key}`, then `${get:key}`, then `${set:key}`.
      The getter text is computed whether or not it is used, so an empty value
      raises StringIndexOutOfBoundsException once the first replacement ends. */
  function ExpandVar(t: string, key: string, value: string, fuel: nat): (r: Result<string>)
    ensures r.Ok? ==> |value| > 0 && !Contains(r.value, SetterPlaceholder(key))
  {
    var r1 :- Replace(t, Placeholder(key), value, fuel);
    if |value| == 0 then Throw(StringIndexOutOfBounds)
    else
      var r2 :- Replace(r1, GetterPlaceholder(key), Getter(value), fuel);
      Replace(r2, SetterPlaceholder(key), Setter(value), fuel)
  }

  /** `expand`: the variables applied in the order given. */
  function Expand(t: string, vars: seq<(string, string)>, fuel: nat): (r: Result<string>)
    decreases |vars|
  {
    if |vars| == 0 then Ok(t)
    else
      var t1 :- ExpandVar(t, vars[0].0, vars[0].1, fuel);
      Expand(t1, vars[1..], fuel)
  }

  /** A text containing no '$' has no placeholder to find. */
  lemma NoDollarNoPlaceholder(s: string, pat: string)
    requires '$' !in s && |pat| > 0 && pat[0] == '$'
    ensures !Contains(s, pat)
  {
  }

  /** Expansion succeeds only if every variable has a non-empty value. */
  lemma {:induction false} ExpandNeedsValues(t: string, vars: seq<(string, string)>, fuel: nat)
    requires Expand(t, vars, fuel).Ok?
    ensures forall i :: 0 <= i < |vars| ==> vars[i].1 != ""
    decreases |vars|
  {
    if |vars| > 0 {
      var t1 := ExpandVar(t, vars[0].0, vars[0].1, fuel).value;
      ExpandNeedsValues(t1, vars[1..], fuel);
      assert forall i :: 1 <= i < |vars| ==> vars[i] == vars[1..][i - 1];
    }
  }

  /** A text without '$' is left as it is by any variable context whose
      values are non-empty. */
  lemma {:induction false} ExpandLeavesPlainText(t: string, vars: seq<(string, string)>, fuel: nat)
    requires '$' !in t
    requires forall i :: 0 <= i < |vars| ==> vars[i].1 != ""
    ensures Expand(t, vars, fuel) == Ok(t)
    decreases |vars|
  {
    if |vars| > 0 {
      var (k, v) := vars[0];
      NoDollarNoPlaceholder(t, Placeholder(k));
      NoDollarNoPlaceholder(t, GetterPlaceholder(k));
      NoDollarNoPlaceholder(t, SetterPlaceholder(k));
      assert ExpandVar(t, k, v, fuel) == Ok(t);
      ExpandLeavesPlainText(t, vars[1..], fuel);
    }
  }

  /** A key that cannot be confused with the placeholder syntax around it. */
  predicate PlainKey(key: string)
  {
    '$' !in key && '}' !in key
  }

  /** Capitalizing introduces no '$'. */
  lemma CapitalizedNoDollar(value: string)
    requires |value| > 0 && '$' !in value
    ensures '$' !in Capitalized(value) && '$' !in Getter(value) && '$' !in Setter(value)
  {
    var c := Capitalized(value);
    assert c == [c[0]] + c[1..];
  }

  /** In a text whose only '$' is at `i`, a pattern starting with '$' can
      occur only at `i`. */
  lemma OnlyDollarAt(s: string, i: nat, pat: string)
    requires forall j :: 0 <= j < |s| && j != i ==> s[j] != '$'
    requires |pat| > 0 && pat[0] == '$'
    ensures Contains(s, pat) <==> OccursAt(s, pat, i)
  {
    if Contains(s, pat) {
      var j :| 0 <= j <= |s| && OccursAt(s, pat, j);
      assert s[j] == s[j..j + |pat|][0];
    }
  }

  /** A replacement whose only occurrence sits between '$'-free text is one
      splice, after which nothing is left to replace. */
  lemma ReplaceOnce(a: string, pat: string, b: string, x: string, fuel: nat)
    requires '$' !in a && '$' !in b && '$' !in x
    requires |pat| > 0 && pat[0] == '$' && fuel >= 1
    ensures Replace(a + pat + b, pat, x, fuel) == Ok(a + x + b)
  {
    var s := a + pat + b;
    assert OccursAt(s, pat, |a|) by { assert s[|a|..|a| + |pat|] == pat; }
    assert forall j :: 0 <= j < |a| ==> !OccursAt(s, pat, j) by {
      forall j | 0 <= j < |a| ensures !OccursAt(s, pat, j) {
        assert s[j] == a[j] != '$';
        if j + |pat| <= |s| {
          assert s[j..j + |pat|][0] == s[j];
        }
      }
    }
    assert IndexOf(s, pat) == Some(|a|);
    var r := Splice(s, pat, x, |a|);
    assert r == a + x + b by {
      assert s[..|a|] == a;
      assert s[|a| + |pat|..] == b;
    }
    NoDollarNoPlaceholder(a + x + b, pat);
  }

  /** The placeholder text `a + q + b` has its only '$' at |a|. */
  lemma DollarOnlyAt(a: string, q: string, b: string, key: string)
    requires '$' !in a && '$' !in b && '$' !in key
    requires q == Placeholder(key) || q == GetterPlaceholder(key) || q == SetterPlaceholder(key)
    ensures forall j :: 0 <= j < |a + q + b| && j != |a| ==> (a + q + b)[j] != '$'
  {
    var s := a + q + b;
    forall j | 0 <= j < |s| && j != |a| ensures s[j] != '$' {
      if j < |a| {
        assert s[j] == a[j];
      } else if j < |a| + |q| {
        assert s[j] == q[j - |a|];
        if j - |a| >= 2 && j - |a| < |q| - 1 {
          assert q[j - |a|] in q[..|q| - 1][2..];
        }
      } else {
        assert s[j] == b[j - |a| - |q|];
      }
    }
  }

  /** `${key}` is not found at the start of a getter or setter placeholder,
      and `${get:key}` not at the start of a setter placeholder. */
  lemma PlaceholdersDiffer(a: string, b: string, key: string)
    requires PlainKey(key)
    ensures !OccursAt(a + GetterPlaceholder(key) + b, Placeholder(key), |a|)
    ensures !OccursAt(a + SetterPlaceholder(key) + b, Placeholder(key), |a|)
    ensures !OccursAt(a + SetterPlaceholder(key) + b, GetterPlaceholder(key), |a|)
  {
    var p := Placeholder(key);
    var n := |key| + 2;
    assert p[n] == '}';
    var g := a + GetterPlaceholder(key) + b;
    if |key| < 4 {
      assert g[|a| + n] == "${get:"[n];
    } else {
      assert g[|a| + n] == key[|key| - 4];
    }
    assert g[|a|..|a| + |p|][n] == g[|a| + n] != '}';
    var s := a + SetterPlaceholder(key) + b;
    if |key| < 4 {
      assert s[|a| + n] == "${set:"[n];
    } else {
      assert s[|a| + n] == key[|key| - 4];
    }
    assert s[|a|..|a| + |p|][n] == s[|a| + n] != '}';
    assert s[|a|..|a| + |p| + 4][2] == 's' && GetterPlaceholder(key)[2] == 'g';
  }

  /** What one variable does to a placeholder standing between '$'-free
      text: `${key}` becomes the value, `${get:key}` the getter call and
      `${set:key}` the setter name. */
  lemma {:induction false} ExpandVarRewrites(a: string, b: string, key: string, value: string, fuel: nat)
    requires '$' !in a && '$' !in b && '$' !in value && value != "" && fuel >= 1
    requires PlainKey(key)
    ensures ExpandVar(a + Placeholder(key) + b, key, value, fuel) == Ok(a + value + b)
    ensures ExpandVar(a + GetterPlaceholder(key) + b, key, value, fuel) == Ok(a + Getter(value) + b)
    ensures ExpandVar(a + SetterPlaceholder(key) + b, key, value, fuel) == Ok(a + Setter(value) + b)
  {
    CapitalizedNoDollar(value);
    var p, g, s := Placeholder(key), GetterPlaceholder(key), SetterPlaceholder(key);
    PlaceholdersDiffer(a, b, key);

    ReplaceOnce(a, p, b, value, fuel);
    NoDollarNoPlaceholder(a + value + b, g);
    NoDollarNoPlaceholder(a + value + b, s);

    var tg := a + g + b;
    DollarOnlyAt(a, g, b, key);
    OnlyDollarAt(tg, |a|, p);
    ReplaceOnce(a, g, b, Getter(value), fuel);
    NoDollarNoPlaceholder(a + Getter(value) + b, s);

    var ts := a + s + b;
    DollarOnlyAt(a, s, b, key);
    OnlyDollarAt(ts, |a|, p);
    OnlyDollarAt(ts, |a|, g);
    ReplaceOnce(a, s, b, Setter(value), fuel);
  }

  /** In a whole expansion, the first variable rewrites its placeholder and
      the later ones, finding no '$', leave the result alone. */
  lemma ExpandRewrites(a: string, b: string, key: string, value: string,
                       rest: seq<(string, string)>, fuel: nat)
    requires '$' !in a && '$' !in b && '$' !in value && value != "" && fuel >= 1
    requires PlainKey(key)
    requires forall i :: 0 <= i < |rest| ==> rest[i].1 != ""
    ensures Expand(a + Placeholder(key) + b, [(key, value)] + rest, fuel) == Ok(a + value + b)
    ensures Expand(a + GetterPlaceholder(key) + b, [(key, value)] + rest, fuel) == Ok(a + Getter(value) + b)
    ensures Expand(a + SetterPlaceholder(key) + b, [(key, value)] + rest, fuel) == Ok(a + Setter(value) + b)
  {
    var vars := [(key, value)] + rest;
    assert vars[0] == (key, value) && vars[1..] == rest;
    ExpandVarRewrites(a, b, key, value, fuel);
    CapitalizedNoDollar(value);
    ExpandLeavesPlainText(a + value + b, rest, fuel);
    ExpandLeavesPlainText(a + Getter(value) + b, rest, fuel);
    ExpandLeavesPlainText(a + Setter(value) + b, rest, fuel);
  }

  /** The text of a write with variable expansion, then the write. */
  function PrintExpanded(e: Emitter, vars: seq<(string, string)>, text: string, fuel: nat): (r: Result<Emitter>)
    ensures r.Ok? <==> Expand(text, vars, fuel).Ok?
    ensures r.Ok? ==> r.value == e.(out := e.out + Pending(e) + Expand(text, vars, fuel).value, queue := None)
  {
    var x :- Expand(text, vars, fuel);
    Ok(Print(e, x))
  }

  /** Every text of a list expanded, or the first exception. */
  function ExpandAll(texts: seq<string>, vars: seq<(string, string)>, fuel: nat): (r: Result<seq<string>>)
    ensures r.Ok? ==> |r.value| == |texts|
    decreases |texts|
  {
    if |texts| == 0 then Ok([])
    else
      var x :- Expand(texts[0], vars, fuel);
      var rest :- ExpandAll(texts[1..], vars, fuel);
      Ok([x] + rest)
  }

  /** `println(Properties, String...)`: one flushing line per expanded text.
      With no texts nothing is written, not even the queue. */
  function PrintlnExpanded(e: Emitter, vars: seq<(string, string)>, texts: seq<string>, fuel: nat): (r: Result<Emitter>)
    ensures r.Ok? <==> ExpandAll(texts, vars, fuel).Ok?
    ensures r.Ok? && |texts| == 0 ==> r.value == e
    ensures r.Ok? && |texts| > 0 ==>
      r.value == e.(out := e.out + Pending(e) + Lines("", ExpandAll(texts, vars, fuel).value), queue := None)
    decreases |texts|
  {
    if |texts| == 0 then Ok(e)
    else
      var x :- Expand(texts[0], vars, fuel);
      var r := PrintlnExpanded(Println(e, x), vars, texts[1..], fuel);
      LinesCons(e.out + Pending(e), "", x, texts[1..], vars, fuel);
      assert e.out + Pending(e) + "" == e.out + Pending(e);
      r
  }

  /** `contentln(Properties, String...)`: one indented line per expanded text. */
  function ContentlnExpanded(e: Emitter, vars: seq<(string, string)>, texts: seq<string>, fuel: nat): (r: Result<Emitter>)
    ensures r.Ok? <==> ExpandAll(texts, vars, fuel).Ok?
    ensures r.Ok? && |texts| == 0 ==> r.value == e
    ensures r.Ok? && |texts| > 0 ==>
      r.value == e.(out := e.out + Pending(e) + Lines(e.indent, ExpandAll(texts, vars, fuel).value), queue := None)
    decreases |texts|
  {
    if |texts| == 0 then Ok(e)
    else
      var x :- Expand(texts[0], vars, fuel);
      var r := ContentlnExpanded(Contentln(e, x), vars, texts[1..], fuel);
      LinesCons(e.out + Pending(e), e.indent, x, texts[1..], vars, fuel);
      r
  }

  /** Writing one expanded line, then the lines of the rest, writes the
      lines of all of them. */
  lemma LinesCons(out: string, prefix: string, x: string, rest: seq<string>, vars: seq<(string, string)>, fuel: nat)
    ensures ExpandAll(rest, vars, fuel).Ok? ==>
      && (|rest| == 0 ==> out + prefix + x + NewLine == out + Lines(prefix, [x]))
      && out + prefix + x + NewLine + Lines(prefix, ExpandAll(rest, vars, fuel).value)
         == out + Lines(prefix, [x] + ExpandAll(rest, vars, fuel).value)
  {
    if ExpandAll(rest, vars, fuel).Ok? {
      var q := [x] + ExpandAll(rest, vars, fuel).value;
      assert q[0] == x && q[1..] == ExpandAll(rest, vars, fuel).value;
      var l := prefix + x + NewLine;
      AppendAssoc(out, prefix, x);
      AppendAssoc(out, prefix + x, NewLine);
      AppendAssoc(out, l, Lines(prefix, q[1..]));
      if |rest| == 0 {
        assert Lines(prefix, [x]) == l + "";
      }
    }
  }
}

=== FILE: generation.dfy ===
/** The pure naming and selection logic of `GenerationSupport`: splitting a
    qualified name into package and name, splitting a resource path into
    directory and file name, deriving a filer package from a relative path,
    and choosing the root of a best-effort resource reference.

    The file system is not modelled: whether a path exists is a predicate the
    caller supplies, and the file separator is fixed to '/'.
 */
module GenerationSupport {
  import opened Wrappers
  import opened JavaStrings

  /** `File.separatorChar` on the platforms the model fixes. */
  const FileSeparator := '/'

  /** The maven resource root. */
  const MavenResourceRoot := "src/main/resources"

  // ---------------------------------------------------------------------------
  // Splitting at the last separator
  // ---------------------------------------------------------------------------

  /** Splits `s` at its last `sep`, but only when that separator is not the
      first character: otherwise the first half is "" and the second all of `s`. */
  function SplitLast(s: string, sep: char): (r: (string, string))
    ensures r.0 != "" ==> r.0 + [sep] + r.1 == s && sep !in r.1
    ensures r.0 == "" ==> r.1 == s && forall i :: 0 < i < |s| ==> s[i] != sep
    ensures r.0 != "" <==> exists i :: 0 < i < |s| && s[i] == sep
  {
    var ix := LastIndexOf(s, sep);
    if ix > 0 then
      assert s == s[..ix] + [sep] + s[ix + 1..];
      (s[..ix], s[ix + 1..])
    else
      ("", s)
  }

  /** The package and simple name of a dotted name, as the four qualified-name
      overloads compute them. */
  function SplitQualifiedName(qualifiedName: string): (r: (string, string))
    ensures r.0 != "" ==> r.0 + "." + r.1 == qualifiedName && '.' !in r.1
    ensures r.0 == "" ==> r.1 == qualifiedName
    ensures r.0 != "" <==> exists i :: 0 < i < |qualifiedName| && qualifiedName[i] == '.'
  {
    SplitLast(qualifiedName, '.')
  }

  /** A leading '.' is not a package separator: `.Foo` is all name. */
  lemma LeadingDotIsName(name: string)
    requires '.' !in name
    ensures SplitQualifiedName("." + name) == ("", "." + name)
  {
    var q := "." + name;
    assert forall i :: 0 < i < |q| ==> q[i] == name[i - 1];
  }

  // ---------------------------------------------------------------------------
  // Resource file objects and streams in the source output
  // ---------------------------------------------------------------------------

  /** What the filer is asked for. `truncate` marks the stream overloads,
      which delete any existing file before opening it. */
  datatype ResourceRequest = ResourceRequest(pkg: string, name: string, element: Option<nat>, truncate: bool)

  /** `getWritableResourceFileObject(pkg, name, element)`. */
  function ResourceFileObject(pkg: string, name: string, element: Option<nat>): ResourceRequest
  {
    ResourceRequest(pkg, name, element, false)
  }

  /** `getWritableResourceFileStream(pkg, name, element)`. */
  function ResourceFileStream(pkg: string, name: string, element: Option<nat>): ResourceRequest
  {
    ResourceRequest(pkg, name, element, true)
  }

  /** `getWritableResourceFileObject(qualifiedName, element)`. */
  function QualifiedFileObject(qualifiedName: string, element: nat): ResourceRequest
  {
    var (pkg, name) := SplitQualifiedName(qualifiedName);
    ResourceFileObject(pkg, name, Some(element))
  }

  /** `getWritableResourceFileObject(qualifiedName)`. */
  function QualifiedFileObjectNoElement(qualifiedName: string): ResourceRequest
  {
    var (pkg, name) := SplitQualifiedName(qualifiedName);
    ResourceFileObject(pkg, name, None)
  }

  /** `getWritableResourceFileStream(qualifiedName, element)`. */
  function QualifiedFileStream(qualifiedName: string, element: nat): ResourceRequest
  {
    var (pkg, name) := SplitQualifiedName(qualifiedName);
    ResourceFileStream(pkg, name, Some(element))
  }

  /** `getWritableResourceFileStream(qualifiedName)`. */
  function QualifiedFileStreamNoElement(qualifiedName: string): ResourceRequest
  {
    var (pkg, name) := SplitQualifiedName(qualifiedName);
    ResourceFileStream(pkg, name, None)
  }

  /** All four qualified-name overloads ask the filer for the same package and
      name, which together spell the qualified name back; the element is
      passed on or absent, and only the stream overloads truncate. */
  lemma QualifiedOverloadsAgree(qualifiedName: string, element: nat)
    ensures var a := QualifiedFileObject(qualifiedName, element);
      && a.pkg == QualifiedFileObjectNoElement(qualifiedName).pkg == QualifiedFileStream(qualifiedName, element).pkg
         == QualifiedFileStreamNoElement(qualifiedName).pkg
      && a.name == QualifiedFileObjectNoElement(qualifiedName).name == QualifiedFileStream(qualifiedName, element).name
         == QualifiedFileStreamNoElement(qualifiedName).name
      && (if a.pkg == "" then a.name else a.pkg + "." + a.name) == qualifiedName
    ensures QualifiedFileObject(qualifiedName, element).element == QualifiedFileStream(qualifiedName, element).element
              == Some(element)
    ensures QualifiedFileObjectNoElement(qualifiedName).element == QualifiedFileStreamNoElement(qualifiedName).element
              == None
    ensures !QualifiedFileObject(qualifiedName, element).truncate && !QualifiedFileObjectNoElement(qualifiedName).truncate
    ensures QualifiedFileStream(qualifiedName, element).truncate && QualifiedFileStreamNoElement(qualifiedName).truncate
  {
  }

  // ---------------------------------------------------------------------------
  // Resource files outside the filer
  // ---------------------------------------------------------------------------

  /** A file given as root, directory under the root, and file name. */
  datatype FileLocation = FileLocation(root: string, directory: string, name: string)

  /** `getWritableMavenResourceFileStream`: the path split at its last
      separator (same rule as for qualified names) under the maven resource root. */
  function MavenResourceLocation(path: string): (r: FileLocation)
    ensures r.root == MavenResourceRoot
    ensures r.directory != "" ==> r.directory + [FileSeparator] + r.name == path && FileSeparator !in r.name
    ensures r.directory == "" ==> r.name == path
    ensures r.directory != "" <==> exists i :: 0 < i < |path| && path[i] == FileSeparator
  {
    var (directory, name) := SplitLast(path, FileSeparator);
    FileLocation(MavenResourceRoot, directory, name)
  }

  /** Drops one leading separator, if there is one. */
  function StripOneSeparator(d: string): (r: string)
    ensures |d| > 0 && d[0] == FileSeparator ==> d == [FileSeparator] + r
    ensures !(|d| > 0 && d[0] == FileSeparator) ==> r == d
  {
    if |d| > 0 && d[0] == FileSeparator then d[1..] else d
  }

  /** `getWritableCurrentDirRelativeResourceFileStream`: as the maven path,
      but relative to the current directory, with the directory part trimmed
      and one leading separator removed. */
  function CurrentDirLocation(path: string): (r: FileLocation)
    ensures r.root == ""
    ensures var (d, n) := SplitLast(path, FileSeparator);
      && r.name == n
      && (|Trim(d)| > 0 && Trim(d)[0] == FileSeparator ==> Trim(d) == [FileSeparator] + r.directory)
      && (!(|Trim(d)| > 0 && Trim(d)[0] == FileSeparator) ==> r.directory == Trim(d))
  {
    var (directory, name) := SplitLast(path, FileSeparator);
    FileLocation("", StripOneSeparator(Trim(directory)), name)
  }

  /** An absolute path comes out relative: `/tmp/x` is `x` in directory `tmp`. */
  lemma AbsolutePathBecomesRelative(dir: string, name: string)
    requires |dir| > 0 && FileSeparator !in dir && FileSeparator !in name
    requires forall i :: 0 <= i < |dir| ==> !IsBlank(dir[i])
    ensures CurrentDirLocation([FileSeparator] + dir + [FileSeparator] + name) == FileLocation("", dir, name)
  {
    var path := [FileSeparator] + dir + [FileSeparator] + name;
    var d := [FileSeparator] + dir;
    assert path[|d|] == FileSeparator;
    assert LastIndexOf(path, FileSeparator) == |d| by {
      assert forall j :: |d| < j < |path| ==> path[j] == name[j - |d| - 1];
    }
    assert SplitLast(path, FileSeparator) == (d, name) by {
      assert path[..|d|] == d && path[|d| + 1..] == name;
    }
    TrimNonBlankEnds(d);
    assert d[1..] == dir;
  }

  /** A string that neither starts nor ends with a blank is its own trim. */
  lemma TrimNonBlankEnds(s: string)
    requires |s| > 0 && !IsBlank(s[0]) && !IsBlank(s[|s| - 1])
    ensures Trim(s) == s
  {
    assert LeadingBlanks(s) == 0;
    var t := s[0..];
    assert t == s;
    assert TrailingBlanksStart(s) == |s|;
  }

  // ---------------------------------------------------------------------------
  // Resource references
  // ---------------------------------------------------------------------------

  /** A `ResourceReference`: a file under a chosen root, or a filer resource
      given by package and name. */
  datatype ResourceReference =
    | FileReference(root: string, relativePath: string)
    | FilerReference(pkg: string, name: string)

  /** `new ResourceReference(filer, relativePath)`: the name after the last
      separator, the package before it with separators turned into dots. With
      no separator, `substring(0, -1)` raises StringIndexOutOfBoundsException. */
  function FilerResourceReference(relativePath: string): (r: Result<ResourceReference>)
    ensures r.Throw? <==> FileSeparator !in relativePath
    ensures r.Throw? ==> r.exception == StringIndexOutOfBounds
    ensures r.Ok? ==> r.value.FilerReference?
    ensures r.Ok? ==> var ix := |r.value.pkg|;
      && ix < |relativePath|
      && relativePath[ix] == FileSeparator
      && r.value.pkg == ReplaceChar(relativePath[..ix], FileSeparator, '.')
      && r.value.name == relativePath[ix + 1..]
      && FileSeparator !in r.value.name
      && FileSeparator !in r.value.pkg
  {
    var ix := LastIndexOf(relativePath, FileSeparator);
    if ix < 0 then Throw(StringIndexOutOfBounds)
    else Ok(SplitAt(relativePath, ix))
  }

  /** The filer reference for a path whose last separator is at `ix`. */
  function SplitAt(relativePath: string, ix: nat): (r: ResourceReference)
    requires ix < |relativePath| && relativePath[ix] == FileSeparator
    requires forall j :: ix < j < |relativePath| ==> relativePath[j] != FileSeparator
    ensures r.FilerReference? && |r.pkg| == ix
    ensures r.pkg == ReplaceChar(relativePath[..ix], FileSeparator, '.') && r.name == relativePath[ix + 1..]
    ensures FileSeparator !in r.name && FileSeparator !in r.pkg
  {
    ReplaceCharRemoves(relativePath[..ix], FileSeparator, '.');
    var name := relativePath[ix + 1..];
    assert forall j :: 0 <= j < |name| ==> name[j] == relativePath[ix + 1 + j];
    FilerReference(ReplaceChar(relativePath[..ix], FileSeparator, '.'), name)
  }

  /** A directory and a file name come back apart: the directory with its
      separators turned into dots, and the name. */
  lemma FilerReferenceOf(directory: string, name: string)
    requires FileSeparator !in name
    ensures FilerResourceReference(directory + [FileSeparator] + name)
      == Ok(FilerReference(ReplaceChar(directory, FileSeparator, '.'), name))
  {
    var p := directory + [FileSeparator] + name;
    assert p[|directory|] == FileSeparator;
    assert forall j :: |directory| < j < |p| ==> p[j] == name[j - |directory| - 1];
    assert LastIndexOf(p, FileSeparator) == |directory|;
    assert p[..|directory|] == directory && p[|directory| + 1..] == name;
  }

  /** The index of the first root that exists, if any. */
  function FirstExisting(roots: seq<string>, exists_: string -> bool): (r: Option<nat>)
    ensures r.Some? ==> r.value < |roots| && exists_(roots[r.value])
    ensures r.Some? ==> forall j :: 0 <= j < r.value ==> !exists_(roots[j])
    ensures r.None? ==> forall j :: 0 <= j < |roots| ==> !exists_(roots[j])
    decreases |roots|
  {
    if |roots| == 0 then None
    else if exists_(roots[0]) then Some(0)
    else
      match FirstExisting(roots[1..], exists_)
      case None => None
      case Some(i) => Some(i + 1)
  }

  /** `getBestEffortResourceReference(relPath, tryFirstRootPaths)`: the first
      existing root of the list, else the maven resource root if it exists,
      else a filer reference. */
  function BestEffort(relativePath: string, tryFirst: seq<string>, exists_: string -> bool): (r: Result<ResourceReference>)
    ensures FirstExisting(tryFirst, exists_).Some? ==>
      r == Ok(FileReference(tryFirst[FirstExisting(tryFirst, exists_).value], relativePath))
    ensures FirstExisting(tryFirst, exists_).None? && exists_(MavenResourceRoot) ==>
      r == Ok(FileReference(MavenResourceRoot, relativePath))
    ensures FirstExisting(tryFirst, exists_).None? && !exists_(MavenResourceRoot) ==>
      r == FilerResourceReference(relativePath)
  {
    match FirstExisting(tryFirst, exists_)
    case Some(i) => Ok(FileReference(tryFirst[i], relativePath))
    case None =>
      if exists_(MavenResourceRoot) then Ok(FileReference(MavenResourceRoot, relativePath))
      else FilerResourceReference(relativePath)
  }

  /** The search loop as the source writes it: stop at the first root that
      exists, then fall back. */
  method BestEffortResourceReference(relativePath: string, tryFirst: seq<string>, exists_: string -> bool)
    returns (r: Result<ResourceReference>)
    ensures r == BestEffort(relativePath, tryFirst, exists_)
    ensures r.Ok? && r.value.FileReference? ==> r.value.relativePath == relativePath
  {
    var found: Option<nat> := None;
    var k := 0;
    while k < |tryFirst|
      invariant 0 <= k <= |tryFirst|
      invariant found.None? ==> forall j :: 0 <= j < k ==> !exists_(tryFirst[j])
      invariant found.Some? ==> found == FirstExisting(tryFirst, exists_)
      decreases |tryFirst| - k
    {
      if exists_(tryFirst[k]) {
        found := Some(k);
        FirstExistingIsFirst(tryFirst, exists_, k);
        break;
      }
      k := k + 1;
    }
    if found.Some? {
      r := Ok(FileReference(tryFirst[found.value], relativePath));
    } else {
      FirstExistingNone(tryFirst, exists_);
      if exists_(MavenResourceRoot) {
        r := Ok(FileReference(MavenResourceRoot, relativePath));
      } else {
        r := FilerResourceReference(relativePath);
      }
    }
  }

  lemma {:induction false} FirstExistingIsFirst(roots: seq<string>, exists_: string -> bool, k: nat)
    requires k < |roots| && exists_(roots[k])
    requires forall j :: 0 <= j < k ==> !exists_(roots[j])
    ensures FirstExisting(roots, exists_) == Some(k)
    decreases k
  {
    if k > 0 {
      FirstExistingIsFirst(roots[1..], exists_, k - 1);
    }
  }

  lemma {:induction false} FirstExistingNone(roots: seq<string>, exists_: string -> bool)
    requires forall j :: 0 <= j < |roots| ==> !exists_(roots[j])
    ensures FirstExisting(roots, exists_).None?
    decreases |roots|
  {
    if |roots| > 0 {
      FirstExistingNone(roots[1..], exists_);
    }
  }

  /** `getBestEffortResourceReference(resourcePath)`: the maven resource root
      if it exists, else a filer reference. */
  function BestEffortDefault(relativePath: string, exists_: string -> bool): (r: Result<ResourceReference>)
    ensures exists_(MavenResourceRoot) ==> r == Ok(FileReference(MavenResourceRoot, relativePath))
    ensures !exists_(MavenResourceRoot) ==> r == FilerResourceReference(relativePath)
  {
    BestEffort(relativePath, [], exists_)
  }

  /** Earlier roots win: a root that exists shadows every root after it, and
      the fallbacks are only reached when no listed root exists. */
  lemma EarlierRootWins(relativePath: string, before: seq<string>, root: string, after: seq<string>, exists_: string -> bool)
    requires forall j :: 0 <= j < |before| ==> !exists_(before[j])
    requires exists_(root)
    ensures BestEffort(relativePath, before + [root] + after, exists_) == Ok(FileReference(root, relativePath))
  {
    var roots := before + [root] + after;
    assert roots[|before|] == root;
    assert forall j :: 0 <= j < |before| ==> roots[j] == before[j];
    FirstExistingIsFirst(roots, exists_, |before|);
  }
}

=== FILE: javasource.dfy ===
/** The Java-construct templates of `JavaSourceOutputStream`, built only from
    the emitter operations of `CodeGen`: comments, package and import lines,
    annotations, class and method headers, fields, and if/while/for blocks.

    Every `beg...` operation writes a header, defers its closing token where
    list items may follow, and adds one indentation level; the matching
    `end...` removes the level and writes the closing brace.
 */
module JavaSource {
  import opened Wrappers
  import opened JavaStrings
  import opened CodeGen

  // ---------------------------------------------------------------------------
  // Call sites (what the stack inspection of the source would report)
  // ---------------------------------------------------------------------------

  const StreamClass := "se.natusoft.annotation.processor.simplified.codegen.JavaSourceOutputStream"
  const BegClassSite := StreamClass + ".begClass"
  const ImplementsSite := StreamClass + ".implementsInterface"
  const BegMethodSite := StreamClass + ".begMethod"
  const MethodExceptionSite := StreamClass + ".methodException"

  lemma SitesDistinct()
    ensures BegClassSite != ImplementsSite && BegMethodSite != MethodExceptionSite
  {
    assert BegClassSite[|StreamClass| + 1] == 'b';
    assert ImplementsSite[|StreamClass| + 1] == 'i';
    assert BegMethodSite[|StreamClass| + 1] == 'b';
    assert MethodExceptionSite[|StreamClass| + 1] == 'm';
  }

  /** An optional header word: omitted with its trailing space when empty. */
  function Word(s: string): string
  {
    if |s| > 0 then s + " " else ""
  }

  /** Writes an optional header word on a line already started. */
  function PrintWord(e: Emitter, w: string): (r: Emitter)
    requires e.queue.None?
    ensures r == e.(out := e.out + Word(w))
  {
    if |w| > 0 then Print(Print(e, w), " ") else e
  }

  // ---------------------------------------------------------------------------
  // Comments, package and import lines
  // ---------------------------------------------------------------------------

  /** The ` * line` rows of a block comment, each on its own indented line. */
  function CommentRows(e: Emitter, lines: seq<string>): (r: Emitter)
    requires e.queue.None?
    ensures r == e.(out := e.out + Lines(e.indent + " * ", lines))
    decreases |lines|
  {
    if |lines| == 0 then
      assert e.out + Lines(e.indent + " * ", lines) == e.out;
      e
    else
      var row := e.indent + " * " + lines[0] + NewLine;
      var e1 := Println(Print(Indent(e), " * "), lines[0]);
      assert e1 == e.(out := e.out + row);
      assert e.out + Lines(e.indent + " * ", lines) == e.out + row + Lines(e.indent + " * ", lines[1..]);
      CommentRows(e1, lines[1..])
  }

  /** The private `intComment`: for a single line without `forceBlock`, one
      indented line holding the opener, the text and the closer; otherwise the
      opener, one ` * line` row per entry and the closer, each on its own
      indented line. */
  function IntComment(e: Emitter, start: string, forceBlock: bool, lines: seq<string>): (r: Emitter)
    ensures |lines| == 1 && !forceBlock ==>
      r == e.(out := e.out + Pending(e) + e.indent + start + lines[0] + " */" + NewLine, queue := None)
    ensures !(|lines| == 1 && !forceBlock) ==>
      r == e.(out := e.out + Pending(e) + e.indent + start + NewLine + Lines(e.indent + " * ", lines)
                    + e.indent + " */" + NewLine, queue := None)
  {
    var e1 := Indent(e);
    if |lines| == 1 && !forceBlock then
      Println(Print(Print(e1, start), lines[0]), " */")
    else
      var e2 := Println(e1, start);
      var e3 := CommentRows(e2, lines);
      Println(Indent(e3), " */")
  }

  /** `comment(boolean, String...)`. */
  function Comment(e: Emitter, forceBlock: bool, lines: seq<string>): (r: Emitter)
  {
    IntComment(e, "/* ", forceBlock, lines)
  }

  /** `comment(String...)`: always the block shape, even for one line. */
  function BlockComment(e: Emitter, lines: seq<string>): (r: Emitter)
    ensures r == e.(out := e.out + Pending(e) + e.indent + "/* " + NewLine + Lines(e.indent + " * ", lines)
                    + e.indent + " */" + NewLine, queue := None)
  {
    IntComment(e, "/* ", true, lines)
  }

  /** `javadocComment(boolean, String...)`. */
  function JavadocComment(e: Emitter, forceBlock: bool, lines: seq<string>): (r: Emitter)
  {
    IntComment(e, "/** ", forceBlock, lines)
  }

  /** `javadocComment(String...)`: always the block shape, even for one line. */
  function JavadocBlock(e: Emitter, lines: seq<string>): (r: Emitter)
    ensures r == e.(out := e.out + Pending(e) + e.indent + "/** " + NewLine + Lines(e.indent + " * ", lines)
                    + e.indent + " */" + NewLine, queue := None)
  {
    IntComment(e, "/** ", true, lines)
  }

  /** `singeLineComment`: `// text` at the current column. */
  function SingleLineComment(e: Emitter, text: string): (r: Emitter)
    ensures r == e.(out := e.out + Pending(e) + "// " + text + NewLine, queue := None)
  {
    Println(Print(e, "// "), text)
  }

  /** `singeLineCommentln`: an indented `// text` line. */
  function SingleLineCommentln(e: Emitter, text: string): (r: Emitter)
    ensures r == e.(out := e.out + Pending(e) + e.indent + "// " + text + NewLine, queue := None)
  {
    Println(Print(Indent(e), "// "), text)
  }

  /** `packageLine`: not indented. */
  function PackageLine(e: Emitter, pkg: string): (r: Emitter)
    ensures r == e.(out := e.out + Pending(e) + "package " + pkg + ";" + NewLine, queue := None)
  {
    Println(Print(Print(e, "package "), pkg), ";")
  }

  /** `importLine`: not indented. */
  function ImportLine(e: Emitter, spec: string): (r: Emitter)
    ensures r == e.(out := e.out + Pending(e) + "import " + spec + ";" + NewLine, queue := None)
  {
    Println(Print(Print(e, "import "), spec), ";")
  }

  // ---------------------------------------------------------------------------
  // Annotations
  // ---------------------------------------------------------------------------

  /** `StringTokenizer` tokens: the maximal runs containing no delimiter. */
  function Tokens(s: string, delim: char): (r: seq<string>)
    ensures forall i :: 0 <= i < |r| ==> r[i] != "" && delim !in r[i]
  {
    NonEmpty(Fields(s, delim))
  }

  /** The strings of `q` that are not empty, in order. */
  function NonEmpty(q: seq<string>): (r: seq<string>)
    ensures |r| <= |q|
    ensures forall i :: 0 <= i < |r| ==> r[i] != "" && r[i] in q
    decreases |q|
  {
    if |q| == 0 then []
    else if q[0] == "" then NonEmpty(q[1..])
    else [q[0]] + NonEmpty(q[1..])
  }

  /** How the source reads one `name=value` parameter: the first two tokens
      around '='. Fewer than two tokens raise NoSuchElementException. */
  function ParamAsWritten(param: string): (r: Result<(string, string)>)
    ensures r.Throw? <==> |Tokens(param, '=')| < 2
    ensures r.Throw? ==> r.exception == NoSuchElement
    ensures r.Ok? ==> r.value.0 != "" && r.value.1 != "" && '=' !in r.value.0 && '=' !in r.value.1
    ensures r.Ok? ==> r.value == (Tokens(param, '=')[0], Tokens(param, '=')[1])
  {
    var t := Tokens(param, '=');
    if |t| < 2 then Throw(NoSuchElement) else Ok((t[0], t[1]))
  }

  /** The parameter text written for one parameter. */
  function ParamText(p: (string, string)): string
  {
    p.0 + "=" + p.1
  }

  /** The parameter list of an annotation, each preceded by the running comma. */
  function AnnotationParams(e: Emitter, params: seq<string>, comma: string, split: string -> Result<(string, string)>): (r: Result<Emitter>)
    decreases |params|
  {
    if |params| == 0 then Ok(e)
    else
      var p :- split(params[0]);
      AnnotationParams(ParamStep(e, comma, p), params[1..], Separator, split)
  }

  /** Every parameter split, or the first exception. */
  function SplitAll(params: seq<string>, split: string -> Result<(string, string)>): (r: Result<seq<string>>)
    ensures r.Ok? ==> |r.value| == |params|
    decreases |params|
  {
    if |params| == 0 then Ok([])
    else
      var p :- split(params[0]);
      var rest :- SplitAll(params[1..], split);
      Ok([ParamText(p)] + rest)
  }

  /** After the first parameter, each one comes out as `, name=value`. */
  lemma {:induction false} AnnotationParamsRest(e: Emitter, params: seq<string>,
                                                 split: string -> Result<(string, string)>)
    requires e.queue.None?
    ensures AnnotationParams(e, params, Separator, split).Ok? <==> SplitAll(params, split).Ok?
    ensures SplitAll(params, split).Ok? ==>
      AnnotationParams(e, params, Separator, split)
        == Ok(e.(out := e.out + Prefixed(SplitAll(params, split).value, Separator)))
    decreases |params|
  {
    if |params| == 0 {
      assert e.out + Prefixed([], Separator) == e.out;
    } else if split(params[0]).Ok? {
      var p := split(params[0]).value;
      var e1 := ParamStep(e, Separator, p);
      assert e.out + Pending(e) == e.out;
      AnnotationParamsRest(e1, params[1..], split);
      assert AnnotationParams(e, params, Separator, split) == AnnotationParams(e1, params[1..], Separator, split);
      var rest := SplitAll(params[1..], split);
      assert SplitAll(params, split).Ok? == rest.Ok?;
      if rest.Ok? {
        var q := [ParamText(p)] + rest.value;
        assert SplitAll(params, split).value == q;
        assert q[0] == ParamText(p) && q[1..] == rest.value;
        assert Prefixed(q, Separator) == Separator + ParamText(p) + Prefixed(rest.value, Separator);
        AppendAssoc(e.out, Separator + ParamText(p), Prefixed(rest.value, Separator));
      }
    }
  }

  /** One parameter printed after the running comma. */
  function ParamStep(e: Emitter, comma: string, p: (string, string)): (r: Emitter)
    ensures r == e.(out := e.out + Pending(e) + (comma + ParamText(p)), queue := None)
  {
    var x := e.out + Pending(e);
    AppendAssoc(x, comma, p.0);
    AppendAssoc(x, comma + p.0, "=");
    AppendAssoc(x, comma + p.0 + "=", p.1);
    AppendAssoc(comma, p.0, "=");
    AppendAssoc(comma, p.0 + "=", p.1);
    Print(Print(Print(Print(e, comma), p.0), "="), p.1)
  }

  /** The parameters come out separated by ", " with no leading comma. */
  lemma {:induction false} AnnotationParamsText(e: Emitter, params: seq<string>, split: string -> Result<(string, string)>)
    requires e.queue.None? && |params| > 0
    ensures AnnotationParams(e, params, "", split).Ok? <==> SplitAll(params, split).Ok?
    ensures SplitAll(params, split).Ok? ==>
      AnnotationParams(e, params, "", split)
        == Ok(e.(out := e.out + Join(SplitAll(params, split).value, Separator)))
  {
    if split(params[0]).Ok? {
      var p := split(params[0]).value;
      var e1 := ParamStep(e, "", p);
      assert e.out + Pending(e) == e.out && "" + ParamText(p) == ParamText(p);
      AnnotationParamsRest(e1, params[1..], split);
      assert AnnotationParams(e, params, "", split) == AnnotationParams(e1, params[1..], Separator, split);
      var rest := SplitAll(params[1..], split);
      assert SplitAll(params, split).Ok? == rest.Ok?;
      if rest.Ok? {
        var q := [ParamText(p)] + rest.value;
        assert SplitAll(params, split).value == q;
        assert q[0] == ParamText(p) && q[1..] == rest.value;
        assert Join(q, Separator) == ParamText(p) + Prefixed(rest.value, Separator);
        assert e1.out == e.out + ParamText(p);
        AppendAssoc(e.out, ParamText(p), Prefixed(rest.value, Separator));
      }
    }
  }

  /** `annotation(String, String...)` with a given reading of `name=value`:
      `@a` and a newline, with `(n1=v1, n2=v2)` in between when there are
      parameters. Not indented. */
  function AnnotationWith(e: Emitter, annotation: string, params: seq<string>,
                          split: string -> Result<(string, string)>): (r: Result<Emitter>)
    ensures |params| == 0 ==> r == Ok(e.(out := e.out + Pending(e) + "@" + annotation + NewLine, queue := None))
    ensures |params| > 0 ==> (r.Ok? <==> SplitAll(params, split).Ok?)
    ensures |params| > 0 && r.Ok? ==>
      r.value == e.(out := e.out + Pending(e) + "@" + annotation + "(" + Join(SplitAll(params, split).value, Separator)
                           + ")" + NewLine, queue := None)
  {
    var e1 := Print(Print(e, "@"), annotation);
    if |params| > 0 then
      AnnotationParamsText(Print(e1, "("), params, split);
      var e2 :- AnnotationParams(Print(e1, "("), params, "", split);
      Ok(Println(Print(e2, ")"), ""))
    else
      Ok(Println(e1, ""))
  }

  /** `annotation` as the source writes it, splitting with a `StringTokenizer`. */
  function AnnotationAsWritten(e: Emitter, annotation: string, params: seq<string>): (r: Result<Emitter>)
  {
    AnnotationWith(e, annotation, params, ParamAsWritten)
  }

  /** A parameter split at its first '=': the name before it, the whole rest
      as the value. No '=' at all raises NoSuchElementException. */
  function ParamAtFirstEquals(param: string): (r: Result<(string, string)>)
    ensures r.Throw? <==> '=' !in param
    ensures r.Ok? ==> ParamText(r.value) == param && '=' !in r.value.0
  {
    match IndexOf(param, "=")
    case None =>
      ContainsOneChar(param, '=');
      Throw(NoSuchElement)
    case Some(i) =>
      assert param[i] == '=' by { assert param[i..i + 1] == "="; }
      assert '=' !in param[..i] by {
        forall j | 0 <= j < i
          ensures param[j] != '='
        {
          assert !OccursAt(param, "=", j);
          assert param[j..j + 1] == [param[j]];
        }
      }
      assert param == param[..i] + "=" + param[i + 1..];
      Ok((param[..i], param[i + 1..]))
  }

  /** `annotation`, with every parameter written back exactly as given. */
  function Annotation(e: Emitter, annotation: string, params: seq<string>): (r: Result<Emitter>)
  {
    AnnotationWith(e, annotation, params, ParamAtFirstEquals)
  }

  /** With the first-'=' reading every parameter containing '=' is written
      back verbatim: the annotation is `@a(p1, p2, ...)`. */
  lemma {:induction false} SplitAllVerbatim(params: seq<string>)
    requires forall i :: 0 <= i < |params| ==> '=' in params[i]
    ensures SplitAll(params, ParamAtFirstEquals) == Ok(params)
    decreases |params|
  {
    if |params| > 0 {
      SplitAllVerbatim(params[1..]);
      assert [params[0]] + params[1..] == params;
    }
  }

  lemma AnnotationVerbatim(e: Emitter, annotation: string, params: seq<string>)
    requires |params| > 0
    requires forall i :: 0 <= i < |params| ==> '=' in params[i]
    ensures Annotation(e, annotation, params)
      == Ok(e.(out := e.out + Pending(e) + "@" + annotation + "(" + Join(params, Separator) + ")" + NewLine, queue := None))
  {
    SplitAllVerbatim(params);
  }

  lemma {:induction false} NonEmptyKeeps(q: seq<string>)
    requires forall i :: 0 <= i < |q| ==> q[i] != ""
    ensures NonEmpty(q) == q
    decreases |q|
  {
    if |q| > 0 {
      NonEmptyKeeps(q[1..]);
      assert [q[0]] + q[1..] == q;
    }
  }

  /** A parameter `n=v` whose name and value are non-empty and hold no '='
      is read back as the pair `(n, v)`. */
  lemma ParamAsWrittenPlain(n: string, v: string)
    requires n != "" && v != "" && '=' !in n && '=' !in v
    ensures ParamAsWritten(n + "=" + v) == Ok((n, v))
  {
    FieldsAround(n, v, '=');
    FieldsWithoutSeparator(n, '=');
    FieldsWithoutSeparator(v, '=');
    NonEmptyKeeps([n, v]);
  }

  /** The `name=value` texts of a list of pairs. */
  function ParamTexts(pairs: seq<(string, string)>): (r: seq<string>)
    ensures |r| == |pairs|
    decreases |pairs|
  {
    if |pairs| == 0 then [] else [ParamText(pairs[0])] + ParamTexts(pairs[1..])
  }

  /** A pair whose name and value are non-empty and hold no '='. */
  predicate PlainPair(p: (string, string))
  {
    p.0 != "" && p.1 != "" && '=' !in p.0 && '=' !in p.1
  }

  /** Plain `name=value` parameters pass the tokenizer unchanged. */
  lemma {:induction false} SplitAllPlain(pairs: seq<(string, string)>)
    requires forall i :: 0 <= i < |pairs| ==> PlainPair(pairs[i])
    ensures SplitAll(ParamTexts(pairs), ParamAsWritten) == Ok(ParamTexts(pairs))
    decreases |pairs|
  {
    if |pairs| > 0 {
      var q := ParamTexts(pairs);
      SplitAllPlain(pairs[1..]);
      ParamAsWrittenPlain(pairs[0].0, pairs[0].1);
      assert q[0] == ParamText(pairs[0]) && q[1..] == ParamTexts(pairs[1..]);
      assert [q[0]] + q[1..] == q;
    }
  }

  /** So for such parameters the annotation as written is the annotation as
      given: `@a(n1=v1, n2=v2)`. */
  lemma AnnotationAsWrittenPlain(e: Emitter, annotation: string, pairs: seq<(string, string)>)
    requires |pairs| > 0
    requires forall i :: 0 <= i < |pairs| ==> PlainPair(pairs[i])
    ensures AnnotationAsWritten(e, annotation, ParamTexts(pairs))
      == Ok(e.(out := e.out + Pending(e) + "@" + annotation + "(" + Join(ParamTexts(pairs), Separator) + ")" + NewLine,
               queue := None))
  {
    SplitAllPlain(pairs);
  }

  /** The tokenizer reads `n=v=w` as the name `n` and the value `v`: the
      text after a second '=' is lost, so the annotation written for this
      parameter is not the parameter given. */
  lemma TokenizerDropsSecondEquals(n: string, v: string, w: string)
    requires n != "" && v != "" && w != ""
    requires '=' !in n && '=' !in v && '=' !in w
    ensures ParamAsWritten(n + "=" + v + "=" + w) == Ok((n, v))
    ensures ParamText(ParamAsWritten(n + "=" + v + "=" + w).value) != n + "=" + v + "=" + w
  {
    var param := n + "=" + v + "=" + w;
    ThreeFields(n, v, w);
    NonEmptyKeeps([n, v, w]);
    assert |n + "=" + v| < |param|;
  }

  lemma ThreeFields(n: string, v: string, w: string)
    requires '=' !in n && '=' !in v && '=' !in w
    ensures Fields(n + "=" + v + "=" + w, '=') == [n, v, w]
  {
    FieldsAround(v, w, '=');
    FieldsWithoutSeparator(v, '=');
    assert n + "=" + v + "=" + w == n + ['='] + (v + ['='] + w);
    FieldsAround(n, v + ['='] + w, '=');
    FieldsWithoutSeparator(n, '=');
    FieldsWithoutSeparator(w, '=');
  }

  /** An annotation with one such parameter, as written: `@A(n=v)`. */
  lemma AnnotationLosesValueTail(e: Emitter, annotation: string, n: string, v: string, w: string)
    requires n != "" && v != "" && w != ""
    requires '=' !in n && '=' !in v && '=' !in w
    ensures AnnotationAsWritten(e, annotation, [n + "=" + v + "=" + w])
      == Ok(e.(out := e.out + Pending(e) + "@" + annotation + "(" + (n + "=" + v) + ")" + NewLine, queue := None))
  {
    var param := n + "=" + v + "=" + w;
    TokenizerDropsSecondEquals(n, v, w);
    var q := [param];
    assert q[0] == param && q[1..] == [];
    assert SplitAll(q[1..], ParamAsWritten) == Ok([]);
    var split: string -> Result<(string, string)> := ParamAsWritten;
    assert split(q[0]) == Ok((n, v));
    assert SplitAll(q, split) == Ok([ParamText((n, v))] + []);
    assert [ParamText((n, v))] + [] == [n + "=" + v];
    assert Join([n + "=" + v], Separator) == n + "=" + v;
  }

  /** The same call with the first-'=' reading: `@A(n=v=w)`. */
  lemma AnnotationKeepsValueTail(e: Emitter, annotation: string, n: string, v: string, w: string)
    ensures Annotation(e, annotation, [n + "=" + v + "=" + w])
      == Ok(e.(out := e.out + Pending(e) + "@" + annotation + "(" + (n + "=" + v + "=" + w) + ")" + NewLine, queue := None))
  {
    var param := n + "=" + v + "=" + w;
    var q := [param];
    assert '=' in param by { assert param[|n|] == '='; }
    AnnotationVerbatim(e, annotation, q);
    assert Join(q, Separator) == param;
  }

  // ---------------------------------------------------------------------------
  // Classes
  // ---------------------------------------------------------------------------

  /** `begClass`: `access modifiers class name` at the current indent, with
      the " {" line deferred and one more indentation level. */
  function BegClass(e: Emitter, access: string, modifiers: string, name: string): (r: Emitter)
    ensures r == e.(out := e.out + Pending(e) + e.indent + Word(access) + Word(modifiers) + "class " + name,
                    queue := Some([" {" + NewLine]),
                    indent := e.indent + IndentUnit,
                    lastCaller := BegClassSite)
    ensures Valid(e) ==> Valid(r)
  {
    var e1 := Indent(InitializeOnFirst(e, BegClassSite));
    var e3 := PrintWord(PrintWord(e1, access), modifiers);
    var e4 := Print(Print(e3, "class "), name);
    assert e4 == e.(out := e.out + Pending(e) + e.indent + Word(access) + Word(modifiers) + "class " + name,
                    queue := None, lastCaller := BegClassSite);
    IncrementIndent(DelayedPrintln(e4, " {"))
  }

  /** `endClass` (and every other `end...`): one level less, then `}` on its
      own indented line. */
  function EndBlock(e: Emitter): (r: Result<Emitter>)
    ensures r.Throw? <==> |e.indent| < 4
    ensures r.Ok? ==> |r.value.indent| == |e.indent| - 4
    ensures r.Ok? ==> r.value == e.(out := e.out + Pending(e) + r.value.indent + "}" + NewLine,
                                    indent := r.value.indent, queue := None)
  {
    var d :- DecrementIndent(e);
    Ok(Println(Indent(d), "}"))
  }

  function EndClass(e: Emitter): (r: Result<Emitter>) { EndBlock(e) }

  /** `extendsClass`: raw text, so the deferred " {" stays queued. */
  function ExtendsClass(e: Emitter, superclass: string): (r: Emitter)
    ensures r == e.(out := e.out + " extends " + superclass)
  {
    RawPrint(RawPrint(e, " extends "), superclass)
  }

  /** What the first `implementsInterface` of a run does before its item. */
  function ImplementsKeyword(e: Emitter): Emitter
  {
    NewComma(RawPrint(e, " implements "))
  }

  /** `implementsInterface`: ` implements ` and a fresh comma on the first
      call of a run, then the comma and the interface, all raw. */
  function ImplementsInterface(e: Emitter, iface: string): (r: Result<Emitter>)
    ensures e.lastCaller != ImplementsSite ==>
      r == Ok(e.(out := e.out + " implements " + iface, comma := Some(Comma(Separator)), lastCaller := ImplementsSite))
    ensures e.lastCaller == ImplementsSite && e.comma == Some(Comma(Separator)) ==>
      r == Ok(e.(out := e.out + Separator + iface))
  {
    var f := OnFirst(e, ImplementsSite, ImplementsKeyword);
    assert e.lastCaller != ImplementsSite ==>
      f == e.(out := e.out + " implements ", comma := Some(Comma("")), lastCaller := ImplementsSite);
    var c :- PrintComma(f);
    assert e.lastCaller != ImplementsSite ==> c.out == e.out + " implements ";
    Ok(RawPrint(c, iface))
  }

  /** `implementsInterface` for each interface in turn. */
  function ImplementsAll(e: Emitter, ifaces: seq<string>): Result<Emitter>
    decreases |ifaces|
  {
    if |ifaces| == 0 then Ok(e)
    else
      var e1 :- ImplementsInterface(e, ifaces[0]);
      ImplementsAll(e1, ifaces[1..])
  }

  lemma {:induction false} ImplementsRest(e: Emitter, ifaces: seq<string>)
    requires e.lastCaller == ImplementsSite && e.comma == Some(Comma(Separator))
    ensures ImplementsAll(e, ifaces) == Ok(e.(out := e.out + Prefixed(ifaces, Separator)))
    decreases |ifaces|
  {
    if |ifaces| > 0 {
      var e1 := e.(out := e.out + Separator + ifaces[0]);
      ImplementsRest(e1, ifaces[1..]);
      assert e.out + Prefixed(ifaces, Separator) == e1.out + Prefixed(ifaces[1..], Separator);
    } else {
      assert e.out + Prefixed(ifaces, Separator) == e.out;
    }
  }

  /** The text of a throws clause. */
  function ThrowsClause(exceptions: seq<string>): string
  {
    if |exceptions| == 0 then "" else " throws " + Join(exceptions, Separator)
  }

  /** The text of an implements clause. */
  function ImplementsClause(ifaces: seq<string>): string
  {
    if |ifaces| == 0 then "" else " implements " + Join(ifaces, Separator)
  }

  /** The text of an optional extends clause. */
  function ExtendsClause(superclass: Option<string>): string
  {
    if superclass.Some? then " extends " + superclass.value else ""
  }

  /** `begClass` followed by an optional `extendsClass`. */
  function ClassOpen(e: Emitter, access: string, modifiers: string, name: string, superclass: Option<string>): (r: Emitter)
    ensures r == e.(out := e.out + Pending(e) + e.indent + Word(access) + Word(modifiers) + "class " + name + ExtendsClause(superclass),
                    queue := Some([" {" + NewLine]),
                    indent := e.indent + IndentUnit,
                    lastCaller := BegClassSite)
  {
    var b := BegClass(e, access, modifiers, name);
    if superclass.Some? then
      AppendAssoc(b.out, " extends ", superclass.value);
      ExtendsClass(b, superclass.value)
    else b
  }

  /** A run of `implementsInterface` calls right after some other call site
      writes one implements clause and leaves the deferred text queued. */
  lemma ImplementsAllClause(e: Emitter, ifaces: seq<string>)
    requires e.lastCaller != ImplementsSite
    ensures ImplementsAll(e, ifaces).Ok?
    ensures var i := ImplementsAll(e, ifaces).value;
      i.out == e.out + ImplementsClause(ifaces) && i.queue == e.queue && i.indent == e.indent
  {
    if |ifaces| > 0 {
      var x1 := e.(out := e.out + " implements " + ifaces[0], comma := Some(Comma(Separator)), lastCaller := ImplementsSite);
      assert ImplementsInterface(e, ifaces[0]) == Ok(x1);
      ImplementsRest(x1, ifaces[1..]);
      var i := x1.(out := x1.out + Prefixed(ifaces[1..], Separator));
      assert ImplementsAll(e, ifaces) == Ok(i);
      ClauseText(e.out, " implements ", ifaces);
    }
  }

  /** Opening a comma-separated clause with its keyword. */
  lemma ClauseText(out: string, keyword: string, items: seq<string>)
    requires |items| > 0
    ensures out + keyword + items[0] + Prefixed(items[1..], Separator) == out + (keyword + Join(items, Separator))
  {
  }

  /** A class header: `begClass`, an optional `extendsClass`, any number of
      `implementsInterface`, then the next flushing write. The header is one
      line `access modifiers class Name extends S implements I1, I2 {`. */
  lemma ClassHeader(e: Emitter, access: string, modifiers: string, name: string,
                    superclass: Option<string>, ifaces: seq<string>)
    ensures ImplementsAll(ClassOpen(e, access, modifiers, name, superclass), ifaces).Ok?
    ensures var i := ImplementsAll(ClassOpen(e, access, modifiers, name, superclass), ifaces).value;
      && Print(i, "").out
         == e.out + Pending(e) + e.indent + Word(access) + Word(modifiers) + "class " + name
            + ExtendsClause(superclass) + ImplementsClause(ifaces) + " {" + NewLine
      && i.indent == e.indent + IndentUnit
  {
    var x := ClassOpen(e, access, modifiers, name, superclass);
    SitesDistinct();
    ImplementsAllClause(x, ifaces);
    var i := ImplementsAll(x, ifaces).value;
    ConcatOneTwo(" {" + NewLine, "");
    assert Pending(i) == " {" + NewLine;
    assert Print(i, "").out == i.out + " {" + NewLine by {
      AppendAssoc(i.out, " {", NewLine);
    }
  }

  // ---------------------------------------------------------------------------
  // Methods
  // ---------------------------------------------------------------------------

  /** `begMethod`: `access modifiers returnType name(` at the current indent;
      ")" and " {" are deferred as two separate fragments, the indent grows by
      one level and a fresh comma is ready for the arguments. */
  function BegMethod(e: Emitter, access: string, modifiers: string, returnType: string, name: string): (r: Emitter)
    ensures r == e.(out := e.out + Pending(e) + e.indent + Word(access) + Word(modifiers) + Word(returnType) + name + "(",
                    queue := Some([")", " {" + NewLine]),
                    indent := e.indent + IndentUnit,
                    comma := Some(Comma("")),
                    lastCaller := BegMethodSite)
    ensures Valid(e) ==> Valid(r)
  {
    var e1 := Indent(InitializeOnFirst(e, BegMethodSite));
    var e3 := PrintWord(PrintWord(e1, access), modifiers);
    var e4 := Print(e3, returnType);
    var e5 := if |returnType| > 0 then Print(e4, " ") else e4;
    assert e5 == e3.(out := e3.out + Word(returnType));
    var e6 := Print(Print(e5, name), "(");
    assert e6 == e.(out := e.out + Pending(e) + e.indent + Word(access) + Word(modifiers) + Word(returnType) + name + "(",
                    queue := None, lastCaller := BegMethodSite);
    var e7a := DelayedPrint(e6, ")");
    assert Queued(e6) + [")"] == [")"];
    var e7 := DelayedPrintln(e7a, " {");
    assert Queued(e7a) + [" {" + "\n"] == [")", " {" + NewLine];
    NewComma(IncrementIndent(e7))
  }

  /** `beginConstructorMethod`: a method header with no access, modifiers or return type. */
  function BeginConstructorMethod(e: Emitter, name: string): (r: Emitter)
    ensures r == e.(out := e.out + Pending(e) + e.indent + name + "(",
                    queue := Some([")", " {" + NewLine]),
                    indent := e.indent + IndentUnit,
                    comma := Some(Comma("")),
                    lastCaller := BegMethodSite)
  {
    BegMethod(e, "", "", "", name)
  }

  /** The text of one method argument. */
  function ArgText(arg: (string, string)): string
  {
    arg.0 + " " + arg.1
  }

  /** `methodArg`: the comma, the type, a space and the name, all raw. */
  function MethodArg(e: Emitter, argType: string, name: string): (r: Result<Emitter>)
    ensures r.Throw? <==> e.comma.None?
    ensures r.Ok? ==> r.value == e.(out := e.out + e.comma.value.value + argType + " " + name, comma := Some(Comma(Separator)))
  {
    var c :- PrintComma(e);
    Ok(RawPrint(RawPrint(RawPrint(c, argType), " "), name))
  }

  /** `methodArg` for each argument in turn. */
  function MethodArgs(e: Emitter, args: seq<(string, string)>): (r: Result<Emitter>)
    decreases |args|
  {
    if |args| == 0 then Ok(e)
    else
      var e1 :- MethodArg(e, args[0].0, args[0].1);
      MethodArgs(e1, args[1..])
  }

  function ArgTexts(args: seq<(string, string)>): (r: seq<string>)
    ensures |r| == |args| && forall i :: 0 <= i < |args| ==> r[i] == ArgText(args[i])
  {
    seq(|args|, i requires 0 <= i < |args| => ArgText(args[i]))
  }

  lemma {:induction false} MethodArgsRest(e: Emitter, args: seq<(string, string)>)
    requires e.comma == Some(Comma(Separator))
    ensures MethodArgs(e, args) == Ok(e.(out := e.out + Prefixed(ArgTexts(args), Separator)))
    decreases |args|
  {
    if |args| > 0 {
      var t := ArgText(args[0]);
      var rest := Prefixed(ArgTexts(args[1..]), Separator);
      ArgTextAfter(e.out + Separator, args[0]);
      var e1 := e.(out := e.out + Separator + t);
      assert MethodArg(e, args[0].0, args[0].1) == Ok(e1);
      assert MethodArgs(e, args) == MethodArgs(e1, args[1..]);
      MethodArgsRest(e1, args[1..]);
      assert ArgTexts(args) == [t] + ArgTexts(args[1..]);
      assert Prefixed(ArgTexts(args), Separator) == Separator + t + rest;
      AppendAssoc(e.out, Separator, t);
      AppendAssoc(e.out, Separator + t, rest);
    } else {
      assert e.out + Prefixed(ArgTexts(args), Separator) == e.out;
    }
  }

  /** Writing the parts of an argument writes its text. */
  lemma ArgTextAfter(x: string, a: (string, string))
    ensures x + a.0 + " " + a.1 == x + ArgText(a)
  {
    AppendAssoc(x, a.0, " ");
    AppendAssoc(x, a.0 + " ", a.1);
  }

  /** After `begMethod`'s fresh comma the arguments come out separated by
      ", ", with no leading or trailing comma, and nothing is flushed. */
  lemma {:induction false} MethodArgsJoin(e: Emitter, args: seq<(string, string)>)
    requires e.comma == Some(Comma(""))
    ensures MethodArgs(e, args)
      == Ok(e.(out := e.out + Join(ArgTexts(args), Separator),
               comma := Some(Comma(if |args| == 0 then "" else Separator))))
  {
    if |args| > 0 {
      var t := ArgText(args[0]);
      var rest := Prefixed(ArgTexts(args[1..]), Separator);
      assert e.out + "" == e.out;
      ArgTextAfter(e.out, args[0]);
      var e1 := e.(out := e.out + t, comma := Some(Comma(Separator)));
      assert MethodArg(e, args[0].0, args[0].1) == Ok(e1);
      assert MethodArgs(e, args) == MethodArgs(e1, args[1..]);
      MethodArgsRest(e1, args[1..]);
      assert ArgTexts(args) == [t] + ArgTexts(args[1..]);
      assert Join(ArgTexts(args), Separator) == t + rest;
      AppendAssoc(e.out, t, rest);
    } else {
      assert e.out + Join(ArgTexts(args), Separator) == e.out;
    }
  }

  /** What the first `methodException` of a run does before its item: write
      the queued ")" and drop it, then ` throws ` and a fresh comma. */
  function ThrowsKeyword(e: Emitter): Emitter
  {
    NewComma(RawPrint(FlushAndRemoveFirstDelayedPrint(e), " throws "))
  }

  /** `methodException`. */
  function MethodException(e: Emitter, exception: string): (r: Result<Emitter>)
    ensures e.lastCaller != MethodExceptionSite ==>
      var f := FlushAndRemoveFirstDelayedPrint(e);
      r == Ok(f.(out := f.out + " throws " + exception, comma := Some(Comma(Separator)), lastCaller := MethodExceptionSite))
    ensures e.lastCaller == MethodExceptionSite && e.comma == Some(Comma(Separator)) ==>
      r == Ok(e.(out := e.out + Separator + exception))
  {
    var f := OnFirst(e, MethodExceptionSite, ThrowsKeyword);
    assert e.lastCaller != MethodExceptionSite ==>
      var d := FlushAndRemoveFirstDelayedPrint(e);
      f == d.(out := d.out + " throws ", comma := Some(Comma("")), lastCaller := MethodExceptionSite);
    var c :- PrintComma(f);
    assert e.lastCaller != MethodExceptionSite ==> c.out == FlushAndRemoveFirstDelayedPrint(e).out + " throws ";
    Ok(RawPrint(c, exception))
  }

  /** `methodException` for each exception in turn. */
  function MethodExceptions(e: Emitter, exceptions: seq<string>): Result<Emitter>
    decreases |exceptions|
  {
    if |exceptions| == 0 then Ok(e)
    else
      var e1 :- MethodException(e, exceptions[0]);
      MethodExceptions(e1, exceptions[1..])
  }

  lemma {:induction false} MethodExceptionsRest(e: Emitter, exceptions: seq<string>)
    requires e.lastCaller == MethodExceptionSite && e.comma == Some(Comma(Separator))
    ensures MethodExceptions(e, exceptions) == Ok(e.(out := e.out + Prefixed(exceptions, Separator)))
    decreases |exceptions|
  {
    if |exceptions| > 0 {
      var e1 := e.(out := e.out + Separator + exceptions[0]);
      MethodExceptionsRest(e1, exceptions[1..]);
      assert e.out + Prefixed(exceptions, Separator) == e1.out + Prefixed(exceptions[1..], Separator);
    } else {
      assert e.out + Prefixed(exceptions, Separator) == e.out;
    }
  }


  /** A run of `methodException` calls right after the argument list: the
      first writes the queued ")" and ` throws `, the rest are comma separated,
      and only " {" stays queued. With no exceptions nothing changes. */
  lemma {:induction false} ExceptionsClause(e: Emitter, exceptions: seq<string>)
    requires e.lastCaller != MethodExceptionSite
    requires Queued(e) == [")", " {" + NewLine]
    ensures MethodExceptions(e, exceptions).Ok?
    ensures var x := MethodExceptions(e, exceptions).value;
      && x.indent == e.indent
      && (|exceptions| == 0 ==> x == e)
      && (|exceptions| > 0 ==>
            x.out == e.out + ")" + ThrowsClause(exceptions) && Queued(x) == [" {" + NewLine])
  {
    if |exceptions| > 0 {
      var x1 := FirstException(e, exceptions[0]);
      MethodExceptionsRest(x1, exceptions[1..]);
      assert MethodExceptions(e, exceptions) == MethodExceptions(x1, exceptions[1..]);
      ClauseText(e.out + ")", " throws ", exceptions);
    }
  }

  /** The first `methodException` after the argument list. */
  lemma FirstException(e: Emitter, exception: string) returns (x: Emitter)
    requires e.lastCaller != MethodExceptionSite
    requires Queued(e) == [")", " {" + NewLine]
    ensures MethodException(e, exception) == Ok(x)
    ensures x.out == e.out + ")" + " throws " + exception && Queued(x) == [" {" + NewLine]
    ensures x.lastCaller == MethodExceptionSite && x.comma == Some(Comma(Separator)) && x.indent == e.indent
  {
    var q := e.queue.value;
    var f := FlushAndRemoveFirstDelayedPrint(e);
    assert q[0] == ")" && q[1..] == [" {" + NewLine];
    x := f.(out := f.out + " throws " + exception, comma := Some(Comma(Separator)), lastCaller := MethodExceptionSite);
  }

  /** A method header: `begMethod`, any number of `methodArg`, any number of
      `methodException`, then the next flushing write. The header is one line
      `access modifiers T name(A a, B b) throws X, Y {`: the ")" comes out
      once, before the throws clause, and " {" once, at the end. */
  lemma MethodHeader(e: Emitter, access: string, modifiers: string, returnType: string, name: string,
                     args: seq<(string, string)>, exceptions: seq<string>)
    ensures MethodArgs(BegMethod(e, access, modifiers, returnType, name), args).Ok?
    ensures var a := MethodArgs(BegMethod(e, access, modifiers, returnType, name), args).value;
      && MethodExceptions(a, exceptions).Ok?
      && var x := MethodExceptions(a, exceptions).value;
         && Print(x, "").out
            == e.out + Pending(e) + e.indent + Word(access) + Word(modifiers) + Word(returnType) + name
               + "(" + Join(ArgTexts(args), Separator) + ")" + ThrowsClause(exceptions) + " {" + NewLine
         && x.indent == e.indent + IndentUnit
  {
    var m := BegMethod(e, access, modifiers, returnType, name);
    MethodArgsJoin(m, args);
    var a := MethodArgs(m, args).value;
    SitesDistinct();
    HeaderClose(a, exceptions);
  }

  /** After the argument list, the exceptions and the next write close the
      header line: ")" , the throws clause, then " {". */
  lemma HeaderClose(a: Emitter, exceptions: seq<string>)
    requires a.lastCaller != MethodExceptionSite
    requires Queued(a) == [")", " {" + NewLine]
    ensures MethodExceptions(a, exceptions).Ok?
    ensures var x := MethodExceptions(a, exceptions).value;
      && Print(x, "").out == a.out + ")" + ThrowsClause(exceptions) + " {" + NewLine
      && x.indent == a.indent
  {
    ExceptionsClause(a, exceptions);
    var x := MethodExceptions(a, exceptions).value;
    var open := " {" + NewLine;
    var y := a.out + ")" + ThrowsClause(exceptions);
    if |exceptions| == 0 {
      assert x == a && y == a.out + ")";
      ConcatOneTwo(")", open);
      assert Print(x, "").out == a.out + (")" + open) + "";
      AppendAssoc(a.out, ")", open);
    } else {
      ConcatOneTwo(open, "");
      assert x.out == y && Pending(x) == open;
      assert Print(x, "").out == y + open + "";
    }
    AppendAssoc(y, " {", NewLine);
  }

  function EndMethod(e: Emitter): (r: Result<Emitter>) { EndBlock(e) }

  // ---------------------------------------------------------------------------
  // Fields
  // ---------------------------------------------------------------------------

  /** `field`: `access type name;` on an indented line; the access word is
      written with its space even when empty. */
  function Field(e: Emitter, access: string, fieldType: string, name: string): (r: Emitter)
    ensures r == e.(out := e.out + Pending(e) + e.indent + FieldText(access, fieldType, name) + NewLine, queue := None)
  {
    var e1 := Print(Print(Print(Print(Print(Indent(e), access), " "), fieldType), " "), name);
    var x := e.out + Pending(e) + e.indent;
    assert e1.out == x + access + " " + fieldType + " " + name;
    AppendAssoc(x, access, " ");
    AppendAssoc(x, access + " ", fieldType);
    AppendAssoc(x, access + " " + fieldType, " ");
    AppendAssoc(x, access + " " + fieldType + " ", name);
    AppendAssoc(x, access + " " + fieldType + " " + name, ";");
    Println(e1, ";")
  }

  /** The declaration a field line holds: `access type name;`. */
  function FieldText(access: string, fieldType: string, name: string): string
  {
    access + " " + fieldType + " " + name + ";"
  }

  /** The one-line javadoc `privateField` writes above the field, if any. */
  function DocLine(indent: string, javadoc: Option<string>): string
  {
    if javadoc.Some? then indent + "/** " + javadoc.value + " */" + NewLine else ""
  }

  /** `privateField`: an optional one-line javadoc, the private field, and an
      empty line. */
  function PrivateField(e: Emitter, fieldType: string, name: string, javadoc: Option<string>): (r: Emitter)
    ensures r == e.(out := e.out + Pending(e) + DocLine(e.indent, javadoc)
                           + e.indent + FieldText("private", fieldType, name) + NewLine
                           + e.indent + NewLine,
                    queue := None)
  {
    var x := e.out + Pending(e);
    var e1 := if javadoc.Some? then JavadocComment(e, false, [javadoc.value]) else e;
    assert e1.out + Pending(e1) == x + DocLine(e.indent, javadoc) && e1.indent == e.indent by {
      if javadoc.Some? {
        var j := javadoc.value;
        AppendAssoc(x, e.indent, "/** ");
        AppendAssoc(x, e.indent + "/** ", j);
        AppendAssoc(x, e.indent + "/** " + j, " */");
        AppendAssoc(x, e.indent + "/** " + j + " */", NewLine);
      } else {
        assert x + "" == x;
      }
    }
    var e2 := Field(e1, "private", fieldType, name);
    EmptyLine(e2)
  }

  // ---------------------------------------------------------------------------
  // if, while and for blocks
  // ---------------------------------------------------------------------------

  /** `begIf(criteria)`: the whole `if (criteria) {` line, then one more level. */
  function BegIf(e: Emitter, criteria: string): (r: Emitter)
    ensures r == e.(out := e.out + Pending(e) + e.indent + "if (" + criteria + ") {" + NewLine,
                    queue := None, indent := e.indent + IndentUnit)
  {
    IncrementIndent(Println(Print(Print(Indent(e), "if ("), criteria), ") {"))
  }

  /** `begIf()`: only `if (`; the `) {` line is deferred until the criteria
      have been written raw. */
  function BegIfOpen(e: Emitter): (r: Emitter)
    ensures r == e.(out := e.out + Pending(e) + e.indent + "if (",
                    queue := Some([") {" + NewLine]), indent := e.indent + IndentUnit)
  {
    IncrementIndent(DelayedPrintln(Print(Indent(e), "if ("), ") {"))
  }

  /** `ifCriteria` / `whileCriteria`: a raw write. */
  function Criteria(e: Emitter, criteria: string): (r: Emitter)
    ensures r == e.(out := e.out + criteria)
  {
    RawPrint(e, criteria)
  }

  function EndIf(e: Emitter): (r: Result<Emitter>) { EndBlock(e) }

  /** `begWhile(criteria)`. */
  function BegWhile(e: Emitter, criteria: string): (r: Emitter)
    ensures r == e.(out := e.out + Pending(e) + e.indent + "while (" + criteria + ") {" + NewLine,
                    queue := None, indent := e.indent + IndentUnit)
  {
    IncrementIndent(Println(Print(Print(Indent(e), "while ("), criteria), ") {"))
  }

  /** `begWhile()`: only `while (`, with `) {` deferred. */
  function BegWhileOpen(e: Emitter): (r: Emitter)
    ensures r == e.(out := e.out + Pending(e) + e.indent + "while (",
                    queue := Some([") {" + NewLine]), indent := e.indent + IndentUnit)
  {
    IncrementIndent(DelayedPrintln(Print(Indent(e), "while ("), ") {"))
  }

  function EndWhile(e: Emitter): (r: Result<Emitter>) { EndBlock(e) }

  /** `begFor`: `for (init; compare ; increment) {`, spacing as the source writes it. */
  function BegFor(e: Emitter, init: string, compare: string, increment: string): (r: Emitter)
    ensures r == e.(out := e.out + Pending(e) + e.indent + "for (" + init + "; " + compare + " ; " + increment + ") {" + NewLine,
                    queue := None, indent := e.indent + IndentUnit)
  {
    var e1 := Print(Print(Print(Print(Print(Print(Indent(e), "for ("), init), "; "), compare), " ; "), increment);
    IncrementIndent(Println(e1, ") {"))
  }

  /** `begForShort`: `for (itemDecl : items) {`. */
  function BegForShort(e: Emitter, itemDecl: string, items: string): (r: Emitter)
    ensures r == e.(out := e.out + Pending(e) + e.indent + "for (" + itemDecl + " : " + items + ") {" + NewLine,
                    queue := None, indent := e.indent + IndentUnit)
  {
    IncrementIndent(Println(Print(Print(Print(Print(Indent(e), "for ("), itemDecl), " : "), items), ") {"))
  }

  function EndFor(e: Emitter): (r: Result<Emitter>) { EndBlock(e) }

  // ---------------------------------------------------------------------------
  // Block nesting
  // ---------------------------------------------------------------------------

  /** Whatever the body did, as long as it left the indent where the `beg...`
      put it, the matching `end...` restores the indent of before the block. */
  lemma EndRestoresIndent(before: Emitter, body: Emitter)
    requires body.indent == before.indent + IndentUnit
    ensures EndBlock(body).Ok? && EndBlock(body).value.indent == before.indent
  {
    assert (before.indent + IndentUnit)[..|before.indent|] == before.indent;
  }

  lemma IfRestoresIndent(e: Emitter, criteria: string, body: Emitter)
    requires body.indent == BegIf(e, criteria).indent
    ensures EndIf(body).Ok? && EndIf(body).value.indent == e.indent
  {
    EndRestoresIndent(e, body);
  }

  lemma WhileRestoresIndent(e: Emitter, criteria: string, body: Emitter)
    requires body.indent == BegWhile(e, criteria).indent || body.indent == BegWhileOpen(e).indent
    ensures EndWhile(body).Ok? && EndWhile(body).value.indent == e.indent
  {
    EndRestoresIndent(e, body);
  }

  lemma ForRestoresIndent(e: Emitter, init: string, compare: string, increment: string, body: Emitter)
    requires body.indent == BegFor(e, init, compare, increment).indent
    ensures EndFor(body).Ok? && EndFor(body).value.indent == e.indent
  {
    EndRestoresIndent(e, body);
  }

  lemma ClassRestoresIndent(e: Emitter, access: string, modifiers: string, name: string, body: Emitter)
    requires body.indent == BegClass(e, access, modifiers, name).indent
    ensures EndClass(body).Ok? && EndClass(body).value.indent == e.indent
  {
    EndRestoresIndent(e, body);
  }

  lemma MethodRestoresIndent(e: Emitter, access: string, modifiers: string, returnType: string, name: string, body: Emitter)
    requires body.indent == BegMethod(e, access, modifiers, returnType, name).indent
    ensures EndMethod(body).Ok? && EndMethod(body).value.indent == e.indent
  {
    EndRestoresIndent(e, body);
  }

  /** `begIf(c); contentln(y); endIf()` writes the block with `y` one level in. */
  lemma IfBlock(e: Emitter, c: string, y: string)
    ensures EndIf(Contentln(BegIf(e, c), y))
      == Ok(e.(out := e.out + Pending(e) + e.indent + "if (" + c + ") {" + NewLine
                    + e.indent + IndentUnit + y + NewLine
                    + e.indent + "}" + NewLine,
               queue := None))
  {
    var b := BegIf(e, c);
    var head := e.out + Pending(e) + e.indent + "if (" + c + ") {" + NewLine;
    assert b == e.(out := head, queue := None, indent := e.indent + IndentUnit);
    var body := Contentln(b, y);
    assert body == e.(out := head + (e.indent + IndentUnit) + y + NewLine, queue := None, indent := e.indent + IndentUnit);
    IfRestoresIndent(e, c, body);
    var r := EndIf(body).value;
    assert r == e.(out := body.out + e.indent + "}" + NewLine, queue := None);
    AppendAssoc(head, e.indent, IndentUnit);
    assert body.out == head + e.indent + IndentUnit + y + NewLine;
  }

  /** On a fresh stream the block is exactly `if (c) {`, the body line one
      level in, and `}`, each on its own line. */
  lemma IfBlockAtTop(c: string, y: string)
    ensures EndIf(Contentln(BegIf(Fresh, c), y)).Ok?
    ensures EndIf(Contentln(BegIf(Fresh, c), y)).value.out
      == "if (" + c + ") {" + NewLine + IndentUnit + y + NewLine + "}" + NewLine
  {
    IfBlock(Fresh, c, y);
    assert Pending(Fresh) == "";
    var h := "if (" + c + ") {" + NewLine;
    assert Fresh.out + Pending(Fresh) + Fresh.indent + "if (" + c + ") {" + NewLine == h;
    assert h + Fresh.indent + IndentUnit == h + IndentUnit;
  }
}

=== FILE: jstrings.dfy ===
/** The few `java.lang.String` operations the modelled code relies on, over
    `string` (a `seq<char>`): `indexOf`, `lastIndexOf(char)`, `contains`,
    `trim`, `replace(char, char)`, `split` on a single-character separator,
    plus concatenation and joining of string lists. Character classification
    and case mapping are ASCII only.

    A `char` here is a Unicode scalar value, while a Java `String` is a
    sequence of UTF-16 code units; `Utf16` gives those units where the
    difference matters (the string hash). For text in the Basic Multilingual
    Plane the two agree one for one.
 */
module JavaStrings {
  import opened Wrappers

  // ---------------------------------------------------------------------------
  // UTF-16 code units
  // ---------------------------------------------------------------------------

  /** First code point outside the Basic Multilingual Plane. */
  const SupplementaryBase: int := 0x1_0000

  /** The UTF-16 code units of one character: the character itself below
      0x10000, otherwise a high and a low surrogate. */
  function CharUnits(c: char): (r: seq<int>)
    ensures c as int < SupplementaryBase ==> r == [c as int]
    ensures c as int >= SupplementaryBase ==>
      && |r| == 2
      && 0xD800 <= r[0] < 0xDC00 && 0xDC00 <= r[1] < 0xE000
      && SupplementaryBase + (r[0] - 0xD800) * 0x400 + (r[1] - 0xDC00) == c as int
  {
    var v := c as int;
    if v < SupplementaryBase then [v]
    else
      var d := v - SupplementaryBase;
      [0xD800 + d / 0x400, 0xDC00 + d % 0x400]
  }

  /** The UTF-16 code units of a string, what Java's `String` holds. */
  function Utf16(s: string): (r: seq<int>)
    ensures |r| >= |s|
    ensures forall i :: 0 <= i < |r| ==> 0 <= r[i] < SupplementaryBase
    decreases |s|
  {
    if |s| == 0 then [] else Utf16(s[..|s| - 1]) + CharUnits(s[|s| - 1])
  }

  /** Text in the Basic Multilingual Plane is its own UTF-16 encoding. */
  lemma {:induction false} Utf16OfBmp(s: string)
    requires forall i :: 0 <= i < |s| ==> s[i] as int < SupplementaryBase
    ensures |Utf16(s)| == |s|
    ensures forall i :: 0 <= i < |s| ==> Utf16(s)[i] == s[i] as int
    decreases |s|
  {
    if |s| > 0 {
      Utf16OfBmp(s[..|s| - 1]);
    }
  }

  // ---------------------------------------------------------------------------
  // Concatenation and joining
  // ---------------------------------------------------------------------------

  /** All fragments written one after another. */
  function Concat(q: seq<string>): string
  {
    if |q| == 0 then "" else q[0] + Concat(q[1..])
  }

  /** Each item preceded by `sep`: what a list printer writes after its first item. */
  function Prefixed(items: seq<string>, sep: string): string
  {
    if |items| == 0 then "" else sep + items[0] + Prefixed(items[1..], sep)
  }

  /** The items separated by `sep`, with no leading or trailing separator. */
  function Join(items: seq<string>, sep: string): string
  {
    if |items| == 0 then "" else items[0] + Prefixed(items[1..], sep)
  }

  /** One line per item: `prefix`, the item, and a newline. */
  function Lines(prefix: string, items: seq<string>): string
  {
    if |items| == 0 then "" else prefix + items[0] + "\n" + Lines(prefix, items[1..])
  }

  lemma {:induction false} ConcatAppend(a: seq<string>, b: seq<string>)
    ensures Concat(a + b) == Concat(a) + Concat(b)
  {
    if |a| == 0 {
      assert a + b == b;
    } else {
      assert (a + b)[1..] == a[1..] + b;
      ConcatAppend(a[1..], b);
    }
  }

  lemma ConcatOneTwo(x: string, y: string)
    ensures Concat([x]) == x
    ensures Concat([x, y]) == x + y
  {
    assert [x][1..] == [];
    assert [x, y][1..] == [y];
    assert Concat([y]) == y by { assert [y][1..] == []; }
  }

  lemma AppendAssoc(a: string, b: string, c: string)
    ensures a + b + c == a + (b + c)
  {
  }

  lemma {:induction false} PrefixedAppend(a: seq<string>, b: seq<string>, sep: string)
    ensures Prefixed(a + b, sep) == Prefixed(a, sep) + Prefixed(b, sep)
  {
    if |a| == 0 {
      assert a + b == b;
    } else {
      assert (a + b)[1..] == a[1..] + b;
      PrefixedAppend(a[1..], b, sep);
    }
  }

  // ---------------------------------------------------------------------------
  // Searching
  // ---------------------------------------------------------------------------

  /** `pat` occurs in `s` starting at index `i`. */
  predicate OccursAt(s: string, pat: string, i: int)
  {
    0 <= i && i + |pat| <= |s| && s[i..i + |pat|] == pat
  }

  /** `String.contains`: `pat` occurs somewhere in `s`. */
  predicate Contains(s: string, pat: string)
  {
    exists i | 0 <= i <= |s| :: OccursAt(s, pat, i)
  }

  /** A one-character pattern occurs exactly when the character does. */
  lemma ContainsOneChar(s: string, c: char)
    ensures Contains(s, [c]) <==> c in s
  {
    if c in s {
      var i :| 0 <= i < |s| && s[i] == c;
      assert s[i..i + 1] == [c];
      assert OccursAt(s, [c], i);
    }
    if Contains(s, [c]) {
      var i :| 0 <= i <= |s| && OccursAt(s, [c], i);
      assert s[i..i + 1][0] == s[i];
    }
  }

  /** The first occurrence of `pat` in `s` at or after `k`. */
  function FindFrom(s: string, pat: string, k: nat): (r: Option<nat>)
    ensures r.Some? ==> k <= r.value && OccursAt(s, pat, r.value)
    ensures r.Some? ==> forall j :: k <= j < r.value ==> !OccursAt(s, pat, j)
    ensures r.None? ==> forall j :: k <= j ==> !OccursAt(s, pat, j)
    decreases |s| - k
  {
    if k + |pat| > |s| then None
    else if s[k..k + |pat|] == pat then Some(k)
    else FindFrom(s, pat, k + 1)
  }

  /** `String.indexOf(String)`: the first occurrence of `pat`, None for Java's -1. */
  function IndexOf(s: string, pat: string): (r: Option<nat>)
    ensures r.None? <==> !Contains(s, pat)
    ensures r.Some? ==> OccursAt(s, pat, r.value) && forall j :: 0 <= j < r.value ==> !OccursAt(s, pat, j)
  {
    FindFrom(s, pat, 0)
  }

  /** `String.lastIndexOf(char)`: the index of the last `c`, or -1. */
  function LastIndexOf(s: string, c: char): (r: int)
    ensures -1 <= r < |s|
    ensures r >= 0 ==> s[r] == c && forall j :: r < j < |s| ==> s[j] != c
    ensures r == -1 ==> forall j :: 0 <= j < |s| ==> s[j] != c
    ensures r == -1 <==> c !in s
  {
    if |s| == 0 then -1
    else if s[|s| - 1] == c then |s| - 1
    else LastIndexOf(s[..|s| - 1], c)
  }

  // ---------------------------------------------------------------------------
  // Character-level rewriting
  // ---------------------------------------------------------------------------

  /** `String.replace(char, char)`. */
  function ReplaceChar(s: string, a: char, b: char): (r: string)
    ensures |r| == |s|
    ensures forall i :: 0 <= i < |s| ==> r[i] == if s[i] == a then b else s[i]
  {
    seq(|s|, i requires 0 <= i < |s| => if s[i] == a then b else s[i])
  }

  lemma ReplaceCharRemoves(s: string, a: char, b: char)
    requires a != b
    ensures a !in ReplaceChar(s, a, b)
  {
    var r := ReplaceChar(s, a, b);
    assert forall i :: 0 <= i < |r| ==> r[i] != a;
  }

  /** `Character.isUpperCase`, for ASCII letters. */
  predicate IsUpper(c: char)
  {
    'A' <= c <= 'Z'
  }

  /** `Character.toUpperCase`, for ASCII letters. */
  function ToUpper(c: char): (r: char)
    ensures 'a' <= c <= 'z' ==> IsUpper(r)
    ensures !('a' <= c <= 'z') ==> r == c
  {
    if 'a' <= c <= 'z' then (c as int - 32) as char else c
  }

  /** Java treats every character up to and including the space as blank in `trim`. */
  predicate IsBlank(c: char)
  {
    c <= ' '
  }

  /** The number of blank characters at the start of `s`. */
  function LeadingBlanks(s: string): (k: nat)
    ensures k <= |s|
    ensures forall j :: 0 <= j < k ==> IsBlank(s[j])
    ensures k < |s| ==> !IsBlank(s[k])
  {
    if |s| > 0 && IsBlank(s[0]) then 1 + LeadingBlanks(s[1..]) else 0
  }

  /** The index where the run of blank characters at the end of `s` begins. */
  function TrailingBlanksStart(s: string): (k: nat)
    ensures k <= |s|
    ensures forall j :: k <= j < |s| ==> IsBlank(s[j])
    ensures k > 0 ==> !IsBlank(s[k - 1])
  {
    if |s| > 0 && IsBlank(s[|s| - 1]) then TrailingBlanksStart(s[..|s| - 1]) else |s|
  }

  /** `String.trim`: blank characters removed from both ends. */
  function Trim(s: string): (r: string)
    ensures |r| > 0 ==> !IsBlank(r[0]) && !IsBlank(r[|r| - 1])
    ensures var a := LeadingBlanks(s); a + |r| <= |s| && r == s[a..a + |r|]
    ensures forall j :: LeadingBlanks(s) + |r| <= j < |s| ==> IsBlank(s[j])
  {
    var a := LeadingBlanks(s);
    var t := s[a..];
    var r := t[..TrailingBlanksStart(t)];
    assert r == s[a..a + |r|];
    r
  }

  // ---------------------------------------------------------------------------
  // Splitting
  // ---------------------------------------------------------------------------

  /** Every field between occurrences of `c`, empty ones included. */
  function Fields(s: string, c: char): (r: seq<string>)
    ensures |r| >= 1
    ensures forall i :: 0 <= i < |r| ==> c !in r[i]
    ensures Join(r, [c]) == s
    decreases |s|
  {
    if |s| == 0 then [""]
    else if s[0] == c then
      var rest := Fields(s[1..], c);
      var r := [""] + rest;
      assert r[0] == "" && r[1..] == rest;
      assert Prefixed(rest, [c]) == [c] + rest[0] + Prefixed(rest[1..], [c]);
      AppendAssoc([c], rest[0], Prefixed(rest[1..], [c]));
      assert s == [c] + s[1..];
      r
    else
      var rest := Fields(s[1..], c);
      var r := [[s[0]] + rest[0]] + rest[1..];
      assert r[0] == [s[0]] + rest[0] && r[1..] == rest[1..];
      AppendAssoc([s[0]], rest[0], Prefixed(rest[1..], [c]));
      assert s == [s[0]] + s[1..];
      r
  }

  /** The list with its trailing empty strings removed. */
  function DropTrailingEmpty(q: seq<string>): (r: seq<string>)
    ensures r <= q
    ensures |r| > 0 ==> r[|r| - 1] != ""
    ensures forall i :: |r| <= i < |q| ==> q[i] == ""
  {
    if |q| > 0 && q[|q| - 1] == "" then DropTrailingEmpty(q[..|q| - 1]) else q
  }

  /** `String.split` with a one-character separator and no limit: the whole
      string when the separator does not occur, otherwise the fields with
      trailing empty fields dropped. */
  function Split(s: string, c: char): (r: seq<string>)
    ensures c !in s ==> r == [s]
    ensures c in s ==> r <= Fields(s, c)
    ensures forall i :: 0 <= i < |r| ==> c !in r[i]
  {
    if c !in s then
      assert Fields(s, c) == [s] by { FieldsWithoutSeparator(s, c); }
      [s]
    else DropTrailingEmpty(Fields(s, c))
  }

  lemma {:induction false} FieldsWithoutSeparator(s: string, c: char)
    requires c !in s
    ensures Fields(s, c) == [s]
    decreases |s|
  {
    if |s| > 0 {
      assert c !in s[1..];
      FieldsWithoutSeparator(s[1..], c);
      assert s[0] != c;
      assert [s[0]] + s[1..] == s;
    }
  }

  /** Splitting at an occurrence of the separator splits each side on its own. */
  lemma {:induction false} FieldsAround(x: string, y: string, c: char)
    ensures Fields(x + [c] + y, c) == Fields(x, c) + Fields(y, c)
    decreases |x|
  {
    var s := x + [c] + y;
    if |x| == 0 {
      assert s[0] == c && s[1..] == y;
    } else {
      assert s[0] == x[0] && s[1..] == x[1..] + [c] + y;
      FieldsAround(x[1..], y, c);
    }
  }
}

=== FILE: model.dfy ===
/** The element wrappers of the model package: `BaseElement`/`Type` and their
    `SAPBaseElement`/`SAPType` counterparts, over plain records standing in
    for the compiler's elements and annotation mirrors.

    Only what the wrappers compute is modelled: kind filters over enclosed
    elements, first-match lookups, package and simple-name derivation,
    annotation lookup by name, and `equals`/`hashCode`.
 */
module ElementModel {
  import opened Wrappers
  import opened JavaStrings

  // ---------------------------------------------------------------------------
  // Host records
  // ---------------------------------------------------------------------------

  /** `javax.lang.model.element.ElementKind`, as of Java 7. */
  datatype ElementKind =
    | Package | Enum | Class | AnnotationType | Interface
    | EnumConstant | Field | Parameter | LocalVariable | ExceptionParameter
    | Method | Constructor | StaticInit | InstanceInit | TypeParameter
    | Other | ResourceVariable

  /** `ElementKind.isField()`. */
  predicate IsFieldKind(k: ElementKind)
  {
    k == Field || k == EnumConstant
  }

  /** `ElementKind.toString()`: the constant's name. */
  function KindName(k: ElementKind): string
  {
    match k
    case Package => "PACKAGE"
    case Enum => "ENUM"
    case Class => "CLASS"
    case AnnotationType => "ANNOTATION_TYPE"
    case Interface => "INTERFACE"
    case EnumConstant => "ENUM_CONSTANT"
    case Field => "FIELD"
    case Parameter => "PARAMETER"
    case LocalVariable => "LOCAL_VARIABLE"
    case ExceptionParameter => "EXCEPTION_PARAMETER"
    case Method => "METHOD"
    case Constructor => "CONSTRUCTOR"
    case StaticInit => "STATIC_INIT"
    case InstanceInit => "INSTANCE_INIT"
    case TypeParameter => "TYPE_PARAMETER"
    case Other => "OTHER"
    case ResourceVariable => "RESOURCE_VARIABLE"
  }

  /** An annotation mirror: the annotation type as `toString()` renders it
      (the qualified name) and the simple name of its element. */
  datatype Mirror = Mirror(typeName: string, simpleName: string)

  /** A compiler element: kind, names, the `asType().toString()` text, the
      superclass text and implemented interfaces of a type, enclosed elements
      and annotation mirrors. */
  datatype Element = Element(
    kind: ElementKind,
    simpleName: string,
    qualifiedName: string,
    typeString: string,
    superclass: string,
    interfaces: seq<Element>,
    enclosed: seq<Element>,
    mirrors: seq<Mirror>)

  /** An `SAP...` wrapper: the element and the optional parent it was built with. */
  datatype Wrapped = Wrapped(element: Element, parent: Option<Element>)

  /** `SAPBaseElement.hasParent`: a non-null parent was given. */
  predicate HasParent(w: Wrapped)
  {
    w.parent.Some?
  }

  /** The one-argument constructor leaves the parent null, the two-argument
      one keeps what it is given. */
  lemma HasParentIffGiven(e: Element, parent: Option<Element>)
    ensures !HasParent(Wrapped(e, None))
    ensures HasParent(Wrapped(e, parent)) <==> parent.Some?
  {
  }

  // ---------------------------------------------------------------------------
  // Kind filters
  // ---------------------------------------------------------------------------

  /** The elements whose kind satisfies `keep`, in their original order. */
  function KindFilter(elems: seq<Element>, keep: ElementKind -> bool): (r: seq<Element>)
    ensures |r| <= |elems|
    ensures forall i :: 0 <= i < |r| ==> keep(r[i].kind) && r[i] in elems
    decreases |elems|
  {
    if |elems| == 0 then []
    else
      var rest := KindFilter(elems[1..], keep);
      if keep(elems[0].kind) then [elems[0]] + rest else rest
  }

  /** An element is kept iff it is enclosed and of a kept kind. */
  lemma {:induction false} KindFilterMembers(elems: seq<Element>, keep: ElementKind -> bool, x: Element)
    ensures x in KindFilter(elems, keep) <==> x in elems && keep(x.kind)
    decreases |elems|
  {
    if |elems| > 0 {
      KindFilterMembers(elems[1..], keep, x);
      assert elems == [elems[0]] + elems[1..];
    }
  }

  /** The filter keeps order: filtering a concatenation filters each part. */
  lemma {:induction false} KindFilterAppend(a: seq<Element>, b: seq<Element>, keep: ElementKind -> bool)
    ensures KindFilter(a + b, keep) == KindFilter(a, keep) + KindFilter(b, keep)
    decreases |a|
  {
    if |a| == 0 {
      assert a + b == b;
    } else {
      assert (a + b)[0] == a[0] && (a + b)[1..] == a[1..] + b;
      KindFilterAppend(a[1..], b, keep);
    }
  }

  /** Filtering twice with the same kinds changes nothing. */
  lemma {:induction false} KindFilterIdempotent(elems: seq<Element>, keep: ElementKind -> bool)
    ensures KindFilter(KindFilter(elems, keep), keep) == KindFilter(elems, keep)
    decreases |elems|
  {
    if |elems| > 0 {
      KindFilterIdempotent(elems[1..], keep);
      var rest := KindFilter(elems[1..], keep);
      if keep(elems[0].kind) {
        assert ([elems[0]] + rest)[1..] == rest;
      }
    }
  }

  function IsConstructorKind(k: ElementKind): bool { k == Constructor }
  function IsMethodKind(k: ElementKind): bool { k == Method }
  function IsInterfaceKind(k: ElementKind): bool { k == Interface }

  /** Each element wrapped with `parent` as its parent. */
  function WrapAll(elems: seq<Element>, parent: Option<Element>): (r: seq<Wrapped>)
    ensures |r| == |elems|
    ensures forall i :: 0 <= i < |r| ==> r[i].element == elems[i] && r[i].parent == parent
  {
    seq(|elems|, i requires 0 <= i < |elems| => Wrapped(elems[i], parent))
  }

  /** `Type.getFields`: the field and enum-constant elements, in order. */
  function TypeFields(t: Element): seq<Element>
  {
    KindFilter(t.enclosed, IsFieldKind)
  }

  /** `Type.getConstructors`. */
  function TypeConstructors(t: Element): seq<Element>
  {
    KindFilter(t.enclosed, IsConstructorKind)
  }

  /** `Type.getMethods`. */
  function TypeMethods(t: Element): seq<Element>
  {
    KindFilter(t.enclosed, IsMethodKind)
  }

  /** `Type.getInnerInterfaces`. */
  function TypeInnerInterfaces(t: Element): seq<Element>
  {
    KindFilter(t.enclosed, IsInterfaceKind)
  }

  /** `Type.getAllMethods` over the members the element utilities report
      (own and inherited), which are a parameter here. */
  function TypeAllMethods(allMembers: seq<Element>): seq<Element>
  {
    KindFilter(allMembers, IsMethodKind)
  }

  /** What the `Type` getters keep: exactly the enclosed elements of their kinds. */
  lemma TypeGettersKeepKinds(t: Element, x: Element)
    ensures x in TypeFields(t) <==> x in t.enclosed && (x.kind == Field || x.kind == EnumConstant)
    ensures x in TypeConstructors(t) <==> x in t.enclosed && x.kind == Constructor
    ensures x in TypeMethods(t) <==> x in t.enclosed && x.kind == Method
    ensures x in TypeInnerInterfaces(t) <==> x in t.enclosed && x.kind == Interface
  {
    KindFilterMembers(t.enclosed, IsFieldKind, x);
    KindFilterMembers(t.enclosed, IsConstructorKind, x);
    KindFilterMembers(t.enclosed, IsMethodKind, x);
    KindFilterMembers(t.enclosed, IsInterfaceKind, x);
  }

  /** `SAPType.getFields`: the field elements, each wrapped with the type as parent. */
  function SapFields(t: Element): (r: seq<Wrapped>)
    ensures |r| == |TypeFields(t)|
    ensures forall i :: 0 <= i < |r| ==> r[i].element == TypeFields(t)[i] && r[i].parent == Some(t)
  {
    WrapAll(TypeFields(t), Some(t))
  }

  /** `SAPType.getConstructors`. */
  function SapConstructors(t: Element): (r: seq<Wrapped>)
    ensures |r| == |TypeConstructors(t)|
    ensures forall i :: 0 <= i < |r| ==> r[i].element == TypeConstructors(t)[i] && r[i].parent == Some(t)
  {
    WrapAll(TypeConstructors(t), Some(t))
  }

  /** `SAPType.getMethods`. */
  function SapMethods(t: Element): (r: seq<Wrapped>)
    ensures |r| == |TypeMethods(t)|
    ensures forall i :: 0 <= i < |r| ==> r[i].element == TypeMethods(t)[i] && r[i].parent == Some(t)
  {
    WrapAll(TypeMethods(t), Some(t))
  }

  /** `SAPType.getAllMethods`. */
  function SapAllMethods(t: Element, allMembers: seq<Element>): (r: seq<Wrapped>)
    ensures |r| == |TypeAllMethods(allMembers)|
    ensures forall i :: 0 <= i < |r| ==> r[i].element == TypeAllMethods(allMembers)[i] && r[i].parent == Some(t)
  {
    WrapAll(TypeAllMethods(allMembers), Some(t))
  }

  /** `SAPType.getInterfaces`: each implemented interface wrapped on its
      own, without a parent. */
  function SapInterfaces(t: Element): (r: seq<Wrapped>)
    ensures |r| == |t.interfaces|
    ensures forall i :: 0 <= i < |r| ==> r[i].element == t.interfaces[i] && !HasParent(r[i])
  {
    WrapAll(t.interfaces, None)
  }

  /** `SAPType.getInnerInterfaces`: each built with the one-argument
      constructor, so none has a parent. */
  function SapInnerInterfaces(t: Element): (r: seq<Wrapped>)
    ensures |r| == |TypeInnerInterfaces(t)|
    ensures forall i :: 0 <= i < |r| ==> r[i].element == TypeInnerInterfaces(t)[i] && !HasParent(r[i])
  {
    WrapAll(TypeInnerInterfaces(t), None)
  }

  // ---------------------------------------------------------------------------
  // Method lookup by name
  // ---------------------------------------------------------------------------

  /** The index of the first item that `p` accepts for `name`; none exactly
      when it accepts no item. Every lookup by name in the model classes
      stops at its first hit; they differ only in what counts as one. */
  function FirstWhere<T>(xs: seq<T>, p: (T, string) -> bool, name: string): (r: Option<nat>)
    ensures r.Some? ==> r.value < |xs| && p(xs[r.value], name)
    ensures r.Some? ==> forall j :: 0 <= j < r.value ==> !p(xs[j], name)
    ensures r.None? <==> forall j :: 0 <= j < |xs| ==> !p(xs[j], name)
    decreases |xs|
  {
    if |xs| == 0 then None
    else if p(xs[0], name) then Some(0)
    else
      match FirstWhere(xs[1..], p, name)
      case None => None
      case Some(i) => Some(i + 1)
  }

  /** An accepted item with none accepted before it is the first. */
  lemma FirstWhereIsFirst<T>(xs: seq<T>, p: (T, string) -> bool, name: string, k: nat)
    requires k < |xs| && p(xs[k], name)
    requires forall j :: 0 <= j < k ==> !p(xs[j], name)
    ensures FirstWhere(xs, p, name) == Some(k)
  {
  }

  /** An element with the given simple name. */
  predicate HasSimpleName(x: Element, name: string)
  {
    x.simpleName == name
  }

  /** A method with the given simple name. */
  predicate IsMethodNamed(x: Element, name: string)
  {
    x.kind == Method && x.simpleName == name
  }

  /** Searching the methods alone finds the same element as searching all
      members for the first method with the name. */
  lemma {:induction false} MethodSearchesAgree(allMembers: seq<Element>, name: string)
    ensures FirstWhere(TypeAllMethods(allMembers), HasSimpleName, name).None?
        <==> FirstWhere(allMembers, IsMethodNamed, name).None?
    ensures FirstWhere(TypeAllMethods(allMembers), HasSimpleName, name).Some? ==>
      TypeAllMethods(allMembers)[FirstWhere(TypeAllMethods(allMembers), HasSimpleName, name).value]
        == allMembers[FirstWhere(allMembers, IsMethodNamed, name).value]
    decreases |allMembers|
  {
    if |allMembers| > 0 {
      var xs := allMembers;
      MethodSearchesAgree(xs[1..], name);
      var rest := TypeAllMethods(xs[1..]);
      if xs[0].kind != Method {
        assert TypeAllMethods(xs) == rest;
        assert !IsMethodNamed(xs[0], name);
      } else {
        var ms := [xs[0]] + rest;
        assert TypeAllMethods(xs) == ms;
        if xs[0].simpleName == name {
          assert HasSimpleName(ms[0], name) && IsMethodNamed(xs[0], name);
        } else {
          assert ms[1..] == rest;
          assert !HasSimpleName(ms[0], name) && !IsMethodNamed(xs[0], name);
        }
      }
    }
  }

  /** The first method, among all members, with the given simple name. */
  function MethodNamed(allMembers: seq<Element>, name: string): (r: Option<Element>)
    ensures r.None? <==> forall x :: x in allMembers && x.kind == Method ==> x.simpleName != name
    ensures r.Some? ==> r.value.kind == Method && r.value.simpleName == name && r.value in allMembers
    ensures r.None? <==> FirstWhere(allMembers, IsMethodNamed, name).None?
    ensures r.Some? ==> r.value == allMembers[FirstWhere(allMembers, IsMethodNamed, name).value]
  {
    var ms := TypeAllMethods(allMembers);
    forall x | x in allMembers && x.kind == Method
      ensures x in ms
    {
      KindFilterMembers(allMembers, IsMethodKind, x);
    }
    MethodSearchesAgree(allMembers, name);
    match FirstWhere(ms, HasSimpleName, name)
    case Some(i) =>
      KindFilterMembers(allMembers, IsMethodKind, ms[i]);
      Some(ms[i])
    case None => None
  }

  /** `Type.getMethodByName`: the loop over all methods, stopping at the
      first whose simple name matches; null when none does. */
  method TypeMethodByName(allMembers: seq<Element>, name: string) returns (r: Option<Element>)
    ensures r == MethodNamed(allMembers, name)
  {
    var methods := TypeAllMethods(allMembers);
    var k := 0;
    while k < |methods|
      invariant 0 <= k <= |methods|
      invariant forall j :: 0 <= j < k ==> methods[j].simpleName != name
      decreases |methods| - k
    {
      if methods[k].simpleName == name {
        FirstWhereIsFirst(methods, HasSimpleName, name, k);
        return Some(methods[k]);
      }
      k := k + 1;
    }
    return None;
  }

  /** `SAPType.getMethodByName`: the same lookup, the result wrapped with the
      type as parent. */
  method SapMethodByName(t: Element, allMembers: seq<Element>, name: string) returns (r: Option<Wrapped>)
    ensures r.None? <==> forall x :: x in allMembers && x.kind == Method ==> x.simpleName != name
    ensures r.Some? ==> r.value.element.kind == Method && r.value.element.simpleName == name
    ensures r.Some? ==> r.value.element in allMembers && r.value.parent == Some(t)
    ensures r == if MethodNamed(allMembers, name).Some? then Some(Wrapped(MethodNamed(allMembers, name).value, Some(t))) else None
    ensures r.Some? ==> r.value.element == allMembers[FirstWhere(allMembers, IsMethodNamed, name).value]
  {
    var m := TypeMethodByName(allMembers, name);
    r := if m.Some? then Some(Wrapped(m.value, Some(t))) else None;
  }

  // ---------------------------------------------------------------------------
  // Package and simple names
  // ---------------------------------------------------------------------------

  /** `Type.getPackage`: the qualified name without its last `|simpleName| + 1`
      characters. A simple name too long for that raises
      StringIndexOutOfBoundsException from the substring call. */
  function TypePackage(qualifiedName: string, simpleName: string): (r: Result<string>)
    ensures r.Throw? <==> |qualifiedName| < |simpleName| + 1
    ensures r.Throw? ==> r.exception == StringIndexOutOfBounds
    ensures r.Ok? ==> |r.value| + |simpleName| + 1 == |qualifiedName| && r.value <= qualifiedName
  {
    if |qualifiedName| < |simpleName| + 1 then Throw(StringIndexOutOfBounds)
    else Ok(qualifiedName[..|qualifiedName| - |simpleName| - 1])
  }

  /** For a name that is a package, a dot and the simple name, the package
      comes back: `getPackage() + "." + getSimpleName()` is the qualified name. */
  lemma TypePackageRoundTrip(pkg: string, simpleName: string)
    ensures TypePackage(pkg + "." + simpleName, simpleName) == Ok(pkg)
  {
    assert (pkg + "." + simpleName)[..|pkg|] == pkg;
  }

  /** Where the text after the last '.' begins: one past the dot, or 0. */
  function AfterLastDot(ext: string): (k: nat)
    ensures k <= |ext|
    ensures forall j :: k <= j < |ext| ==> ext[j] != '.'
    ensures k > 0 ==> ext[k - 1] == '.'
  {
    LastIndexOf(ext, '.') + 1
  }

  /** `SAPType.getExtendsSimpleName`: the superclass text after its last '.',
      all of it when there is no dot. */
  function ExtendsSimpleName(ext: string): (r: string)
    ensures |r| <= |ext| && ext[|ext| - |r|..] == r
    ensures forall j :: 0 <= j < |r| ==> r[j] != '.'
    ensures |r| < |ext| ==> ext[|ext| - |r| - 1] == '.'
  {
    var k := AfterLastDot(ext);
    var r := ext[k..];
    assert |ext| - |r| == k;
    r
  }

  /** Every part is non-empty and starts with something other than an
      upper-case letter. */
  predicate AllLower(parts: seq<string>)
  {
    forall i :: 0 <= i < |parts| ==> parts[i] != "" && !IsUpper(parts[i][0])
  }

  /** The dotted parts up to, not including, the first one starting with an
      upper-case letter. An empty part met before that raises
      StringIndexOutOfBoundsException from `charAt(0)`. */
  function LeadingLowerParts(parts: seq<string>): (r: Result<seq<string>>)
    ensures r.Ok? ==> r.value <= parts && AllLower(r.value)
    ensures r.Ok? ==> |r.value| == |parts| || (parts[|r.value|] != "" && IsUpper(parts[|r.value|][0]))
    ensures r.Throw? ==> r.exception == StringIndexOutOfBounds
    ensures r.Throw? ==> exists k :: 0 <= k < |parts| && parts[k] == "" && AllLower(parts[..k])
    decreases |parts|
  {
    if |parts| == 0 then Ok([])
    else if parts[0] == "" then
      assert AllLower(parts[..0]);
      Throw(StringIndexOutOfBounds)
    else if IsUpper(parts[0][0]) then Ok([])
    else
      var rest := LeadingLowerParts(parts[1..]);
      if rest.Throw? then
        var k :| 0 <= k < |parts[1..]| && parts[1..][k] == "" && AllLower(parts[1..][..k]);
        assert parts[..k + 1] == [parts[0]] + parts[1..][..k];
        assert AllLower(parts[..k + 1]);
        Throw(StringIndexOutOfBounds)
      else
        var r := [parts[0]] + rest.value;
        assert parts == [parts[0]] + parts[1..];
        Ok(r)
  }

  /** `SAPType.getPackage`: the package as `Type.getPackage` strips it, cut
      at the first part that names a class, so the package of an inner class
      is that of its top-level class. */
  function SapPackage(qualifiedName: string, simpleName: string): (r: Result<string>)
    ensures TypePackage(qualifiedName, simpleName).Throw? ==> r.Throw?
    ensures r.Ok? ==> TypePackage(qualifiedName, simpleName).Ok?
  {
    var stripped :- TypePackage(qualifiedName, simpleName);
    var kept :- LeadingLowerParts(Split(stripped, '.'));
    Ok(Join(kept, "."))
  }

  /** A package of lower-case parts is kept whole. */
  lemma {:induction false} LowerPartsKept(parts: seq<string>)
    requires AllLower(parts)
    ensures LeadingLowerParts(parts) == Ok(parts)
    decreases |parts|
  {
    if |parts| > 0 {
      LowerPartsKept(parts[1..]);
      assert [parts[0]] + parts[1..] == parts;
    }
  }

  /** The parts before the first upper-case one are kept, the rest dropped:
      `a.b` followed by `Outer...` gives back `a.b`'s parts. */
  lemma {:induction false} UpperPartCuts(lower: seq<string>, upper: string, rest: seq<string>)
    requires AllLower(lower)
    requires upper != "" && IsUpper(upper[0])
    ensures LeadingLowerParts(lower + [upper] + rest) == Ok(lower)
    decreases |lower|
  {
    var parts := lower + [upper] + rest;
    if |lower| == 0 {
      assert parts[0] == upper;
    } else {
      assert parts[0] == lower[0] && parts[1..] == lower[1..] + [upper] + rest;
      UpperPartCuts(lower[1..], upper, rest);
      assert [lower[0]] + lower[1..] == lower;
    }
  }

  /** Splitting a joined list of non-empty, dot-free parts gives the parts back. */
  lemma {:induction false} SplitJoin(parts: seq<string>)
    requires |parts| > 0
    requires forall i :: 0 <= i < |parts| ==> parts[i] != "" && '.' !in parts[i]
    ensures Fields(Join(parts, "."), '.') == parts
    decreases |parts|
  {
    if |parts| == 1 {
      assert Join(parts, ".") == parts[0] by { assert parts[1..] == []; }
      FieldsWithoutSeparator(parts[0], '.');
    } else {
      SplitJoin(parts[1..]);
      var tail := Join(parts[1..], ".");
      JoinPrefixed(parts);
      FieldsAround(parts[0], tail, '.');
      FieldsWithoutSeparator(parts[0], '.');
      assert [parts[0]] + parts[1..] == parts;
    }
  }

  /** Dot-separated package parts: each non-empty, free of dots, and not
      starting with an upper-case letter. */
  predicate PackageParts(parts: seq<string>)
  {
    |parts| > 0 && AllLower(parts) && forall i :: 0 <= i < |parts| ==> '.' !in parts[i]
  }

  /** `split` undoes the join of such parts. */
  lemma SplitOfJoin(parts: seq<string>)
    requires |parts| > 0
    requires forall i :: 0 <= i < |parts| ==> parts[i] != "" && '.' !in parts[i]
    ensures Split(Join(parts, "."), '.') == parts
  {
    var s := Join(parts, ".");
    SplitJoin(parts);
    if '.' in s {
      assert parts[|parts| - 1] != "";
      assert DropTrailingEmpty(parts) == parts;
    } else {
      FieldsWithoutSeparator(s, '.');
    }
  }

  /** The package of a top-level class is its package. */
  lemma SapPackageTopLevel(parts: seq<string>, simple: string)
    requires PackageParts(parts)
    ensures SapPackage(Join(parts, ".") + "." + simple, simple) == Ok(Join(parts, "."))
  {
    var pkg := Join(parts, ".");
    TypePackageRoundTrip(pkg, simple);
    SplitOfJoin(parts);
    LowerPartsKept(parts);
  }

  /** The package of a class nested in `outer` is the package of `outer`. */
  lemma SapPackageInner(parts: seq<string>, outer: string, simple: string)
    requires PackageParts(parts)
    requires outer != "" && IsUpper(outer[0]) && '.' !in outer
    ensures SapPackage(Join(parts, ".") + "." + outer + "." + simple, simple) == Ok(Join(parts, "."))
  {
    var pkg := Join(parts, ".");
    var all := parts + [outer];
    JoinAppendOne(parts, outer);
    assert Join(all, ".") == pkg + "." + outer;
    TypePackageRoundTrip(pkg + "." + outer, simple);
    SplitOfJoin(all);
    UpperPartCuts(parts, outer, []);
    assert parts + [outer] + [] == all;
  }

  /** `Type.getPackage` keeps the outer class in the package of a nested class. */
  lemma TypePackageInner(parts: seq<string>, outer: string, simple: string)
    ensures TypePackage(Join(parts, ".") + "." + outer + "." + simple, simple) == Ok(Join(parts, ".") + "." + outer)
  {
    TypePackageRoundTrip(Join(parts, ".") + "." + outer, simple);
  }

  lemma JoinAppendOne(parts: seq<string>, x: string)
    requires |parts| > 0
    ensures Join(parts + [x], ".") == Join(parts, ".") + "." + x
  {
    var all := parts + [x];
    assert all[1..] == parts[1..] + [x];
    PrefixedAppend(parts[1..], [x], ".");
    assert Prefixed([x], ".") == "." + x by { assert [x][1..] == []; }
  }

  lemma JoinPrefixed(parts: seq<string>)
    requires |parts| > 1
    ensures Join(parts, ".") == parts[0] + "." + Join(parts[1..], ".")
  {
    var t := parts[1..];
    assert Prefixed(t, ".") == "." + t[0] + Prefixed(t[1..], ".");
  }

  // ---------------------------------------------------------------------------
  // Annotation lookup
  // ---------------------------------------------------------------------------

  /** A mirror with the given simple name: the match of
      `BaseElement.getAnnotationMirrorByName`. */
  predicate MirrorHasSimpleName(m: Mirror, name: string)
  {
    m.simpleName == name
  }

  /** The loop of `BaseElement.getAnnotationMirrorByName`. */
  method BaseMirrorByName(mirrors: seq<Mirror>, name: string) returns (r: Option<Mirror>)
    ensures r.None? <==> forall j :: 0 <= j < |mirrors| ==> mirrors[j].simpleName != name
    ensures r.Some? ==> r == Some(mirrors[FirstWhere(mirrors, MirrorHasSimpleName, name).value])
  {
    r := None;
    var k := 0;
    while k < |mirrors| && r.None?
      invariant 0 <= k <= |mirrors|
      invariant r.None? ==> forall j :: 0 <= j < k ==> mirrors[j].simpleName != name
      invariant r.Some? ==> k > 0 && FirstWhere(mirrors, MirrorHasSimpleName, name) == Some(k - 1) && r.value == mirrors[k - 1]
      decreases |mirrors| - k
    {
      if mirrors[k].simpleName == name {
        r := Some(mirrors[k]);
        FirstWhereIsFirst(mirrors, MirrorHasSimpleName, name, k);
      }
      k := k + 1;
    }
  }

  /** A mirror that matches by simple name but not by qualified name: the
      case in which the source's loop breaks. */
  predicate SimpleOnly(m: Mirror, name: string)
  {
    m.typeName != name && m.simpleName == name
  }

  /** The last mirror whose qualified name matches. */
  function LastQualified(mirrors: seq<Mirror>, name: string): (r: Option<nat>)
    ensures r.Some? ==> r.value < |mirrors| && mirrors[r.value].typeName == name
    ensures r.Some? ==> forall j :: r.value < j < |mirrors| ==> mirrors[j].typeName != name
    ensures r.None? <==> forall j :: 0 <= j < |mirrors| ==> mirrors[j].typeName != name
    decreases |mirrors|
  {
    if |mirrors| == 0 then None
    else if mirrors[|mirrors| - 1].typeName == name then Some(|mirrors| - 1)
    else LastQualified(mirrors[..|mirrors| - 1], name)
  }

  /** What `SAPBaseElement.getAnnotationMirrorByName` returns: the first
      simple-only match if there is one (the loop breaks there), otherwise
      the last qualified match (that branch does not break), otherwise null. */
  function SapMirrorSpec(mirrors: seq<Mirror>, name: string): (r: Option<Mirror>)
    ensures r.Some? ==> r.value in mirrors && (r.value.typeName == name || r.value.simpleName == name)
    ensures r.None? <==> forall j :: 0 <= j < |mirrors| ==> mirrors[j].typeName != name && mirrors[j].simpleName != name
  {
    match FirstWhere(mirrors, SimpleOnly, name)
    case Some(i) => Some(mirrors[i])
    case None => QualifiedMatch(mirrors, name)
  }

  /** The last mirror whose qualified name matches, if any. */
  function QualifiedMatch(mirrors: seq<Mirror>, name: string): Option<Mirror>
  {
    match LastQualified(mirrors, name)
    case Some(i) => Some(mirrors[i])
    case None => None
  }

  /** Looking at one more mirror: a qualified match replaces the earlier one. */
  lemma QualifiedMatchStep(mirrors: seq<Mirror>, name: string, k: nat)
    requires k < |mirrors|
    ensures QualifiedMatch(mirrors[..k + 1], name)
      == if mirrors[k].typeName == name then Some(mirrors[k]) else QualifiedMatch(mirrors[..k], name)
  {
    assert mirrors[..k + 1][..k] == mirrors[..k];
  }

  /** The loop of `SAPBaseElement.getAnnotationMirrorByName`, as written. */
  method SapMirrorByName(mirrors: seq<Mirror>, name: string) returns (r: Option<Mirror>)
    ensures r == SapMirrorSpec(mirrors, name)
  {
    r := None;
    var k := 0;
    var broke := false;
    while k < |mirrors| && !broke
      invariant 0 <= k <= |mirrors|
      invariant !broke ==> forall j :: 0 <= j < k ==> !SimpleOnly(mirrors[j], name)
      invariant !broke ==> r == QualifiedMatch(mirrors[..k], name)
      invariant broke ==> k > 0 && FirstWhere(mirrors, SimpleOnly, name) == Some(k - 1) && r == Some(mirrors[k - 1])
      decreases |mirrors| - k
    {
      QualifiedMatchStep(mirrors, name, k);
      if mirrors[k].typeName == name {
        r := Some(mirrors[k]);
      } else if mirrors[k].simpleName == name {
        r := Some(mirrors[k]);
        FirstWhereIsFirst(mirrors, SimpleOnly, name, k);
        broke := true;
      }
      k := k + 1;
    }
    if !broke {
      assert mirrors[..k] == mirrors;
      FirstSimpleOnlyNone(mirrors, name);
    }
  }

  lemma FirstSimpleOnlyNone(mirrors: seq<Mirror>, name: string)
    requires forall j :: 0 <= j < |mirrors| ==> !SimpleOnly(mirrors[j], name)
    ensures FirstWhere(mirrors, SimpleOnly, name).None?
  {
  }

  lemma SameSuffixCancels(a: string, b: string, t: string)
    requires a + t == b + t
    ensures a == b
  {
    assert |a| == |b|;
    assert a == (a + t)[..|a|];
    assert b == (b + t)[..|b|];
  }

  /** A simple-only match wins over a qualified one wherever it stands: with
      mirrors `p.A` then `q.A`, looking `A` up finds `p.A`, and looking
      `p.A` up by its qualified name finds it too. */
  lemma SimpleOnlyOverridesQualified(pkgA: string, pkgB: string, simple: string)
    ensures var ms := [Mirror(pkgA + "." + simple, simple), Mirror(pkgB + "." + simple, simple)];
      && SapMirrorSpec(ms, simple) == Some(ms[0])
      && (pkgA != pkgB ==> SapMirrorSpec(ms, pkgA + "." + simple) == Some(ms[0]))
  {
    var ms := [Mirror(pkgA + "." + simple, simple), Mirror(pkgB + "." + simple, simple)];
    assert |pkgA + "." + simple| > |simple|;
    assert SimpleOnly(ms[0], simple);
    if pkgA != pkgB {
      var qa := pkgA + "." + simple;
      assert pkgB + "." + simple == pkgB + ("." + simple);
      assert qa == pkgA + ("." + simple);
      if pkgB + "." + simple == qa {
        SameSuffixCancels(pkgB, pkgA, "." + simple);
      }
      assert pkgB + "." + simple != qa;
      assert !SimpleOnly(ms[0], qa) && !SimpleOnly(ms[1], qa);
      assert ms[..1] == [ms[0]];
      assert LastQualified(ms, qa) == Some(0);
    }
  }

  /** With only qualified matches, the last of them wins. */
  lemma QualifiedLastWins(first: Mirror, second: Mirror, name: string)
    requires first.typeName == name && second.typeName == name
    ensures SapMirrorSpec([first, second], name) == Some(second)
  {
  }

  /** An annotation wrapper: the mirror and, for the `SAP...` wrappers, the
      annotated element. */
  datatype AnnotationRef = AnnotationRef(mirror: Mirror, annotated: Option<Element>)

  /** `getAnnotations`: one wrapper per mirror, in mirror order. */
  function Annotations(e: Element, sap: bool): (r: seq<AnnotationRef>)
    ensures |r| == |e.mirrors|
    ensures forall i :: 0 <= i < |r| ==> r[i].mirror == e.mirrors[i]
    ensures forall i :: 0 <= i < |r| ==> r[i].annotated == (if sap then Some(e) else None)
  {
    seq(|e.mirrors|, i requires 0 <= i < |e.mirrors| => AnnotationRef(e.mirrors[i], if sap then Some(e) else None))
  }

  /** `hasAnnotations`. */
  predicate HasAnnotations(e: Element)
  {
    |e.mirrors| > 0
  }

  lemma HasAnnotationsIffAny(e: Element)
    ensures HasAnnotations(e) <==> |Annotations(e, false)| > 0
    ensures HasAnnotations(e) <==> |Annotations(e, true)| > 0
  {
  }

  /** `BaseElement.getAnnotationByName`: wraps the mirror lookup's result. */
  function BaseAnnotationByName(e: Element, name: string): (r: Option<AnnotationRef>)
    ensures r.None? <==> forall j :: 0 <= j < |e.mirrors| ==> e.mirrors[j].simpleName != name
    ensures r.Some? ==> r.value.annotated.None? && r.value.mirror.simpleName == name && r.value.mirror in e.mirrors
    ensures r.Some? ==> r.value.mirror == e.mirrors[FirstWhere(e.mirrors, MirrorHasSimpleName, name).value]
  {
    match FirstWhere(e.mirrors, MirrorHasSimpleName, name)
    case Some(i) => Some(AnnotationRef(e.mirrors[i], None))
    case None => None
  }

  /** `SAPBaseElement.getAnnotationByName`. */
  function SapAnnotationByName(e: Element, name: string): (r: Option<AnnotationRef>)
    ensures r.None? <==> SapMirrorSpec(e.mirrors, name).None?
    ensures r.Some? ==> r.value == AnnotationRef(SapMirrorSpec(e.mirrors, name).value, Some(e))
  {
    match SapMirrorSpec(e.mirrors, name)
    case Some(m) => Some(AnnotationRef(m, Some(e)))
    case None => None
  }

  /** A Java class object, by the name `Class.getName` returns. */
  datatype JavaClass = JavaClass(name: string)

  /** `SAPBaseElement.getAnnotationByClass`: a lookup by the class's name. */
  function SapAnnotationByClass(e: Element, c: JavaClass): (r: Option<AnnotationRef>)
    ensures r.None? <==> forall j :: 0 <= j < |e.mirrors| ==> e.mirrors[j].typeName != c.name && e.mirrors[j].simpleName != c.name
    ensures r.Some? ==> r.value.annotated == Some(e) && r.value.mirror in e.mirrors
    ensures r.Some? ==> r.value.mirror.typeName == c.name || r.value.mirror.simpleName == c.name
    ensures r == SapAnnotationByName(e, c.name)
  {
    SapAnnotationMatches(e, c.name);
    SapAnnotationByName(e, c.name)
  }

  /** What the lookup finds matches the name one way or the other, and it is
      null only when nothing matches either way. */
  lemma SapAnnotationMatches(e: Element, name: string)
    ensures SapAnnotationByName(e, name).Some? ==>
      var m := SapAnnotationByName(e, name).value.mirror;
      m in e.mirrors && (m.typeName == name || m.simpleName == name)
    ensures SapAnnotationByName(e, name).None? <==>
      forall j :: 0 <= j < |e.mirrors| ==> e.mirrors[j].typeName != name && e.mirrors[j].simpleName != name
  {
    var ms := e.mirrors;
    if FirstWhere(ms, SimpleOnly, name).None? && LastQualified(ms, name).None? {
      forall j | 0 <= j < |ms|
        ensures ms[j].typeName != name && ms[j].simpleName != name
      {
        assert !SimpleOnly(ms[j], name);
      }
    }
  }

  /** The simple-name lookup of `BaseElement` finds a mirror by its simple
      name even when given a qualified name, but never by the qualified name
      itself: the qualified `p.A` finds nothing in a mirror for `p.A`. */
  lemma BaseIgnoresQualifiedName(pkg: string, simple: string)
    requires pkg != ""
    ensures var e := Element(Class, "C", "C", "C", "", [], [], [Mirror(pkg + "." + simple, simple)]);
      && BaseAnnotationByName(e, pkg + "." + simple).None?
      && BaseAnnotationByName(e, simple).Some?
      && SapAnnotationByName(e, pkg + "." + simple).Some?
  {
    assert |pkg + "." + simple| > |simple|;
  }

  // ---------------------------------------------------------------------------
  // equals and hashCode
  // ---------------------------------------------------------------------------

  /** `Type.equals` / `SAPType.equals`: same qualified name, kind and type text. */
  predicate TypeEquals(a: Element, b: Element)
  {
    a.qualifiedName == b.qualifiedName && a.kind == b.kind && a.typeString == b.typeString
  }

  lemma TypeEqualsIsEquivalence(a: Element, b: Element, c: Element)
    ensures TypeEquals(a, a)
    ensures TypeEquals(a, b) ==> TypeEquals(b, a)
    ensures TypeEquals(a, b) && TypeEquals(b, c) ==> TypeEquals(a, c)
  {
  }

  const TwoTo31: int := 0x8000_0000
  const TwoTo32: int := 0x1_0000_0000

  /** A Java `int`. */
  newtype Int32 = x: int | -0x8000_0000 <= x < 0x8000_0000

  /** Two's-complement wrap-around of an unbounded result into an `int`. */
  function Wrap(x: int): (r: Int32)
    ensures (r as int - x) % TwoTo32 == 0
  {
    var m := (x + TwoTo31) % TwoTo32;
    (m - TwoTo31) as Int32
  }

  /** `String.hashCode`: `h = 31 * h + u` over the string's UTF-16 code
      units, in `int` arithmetic; a character outside the Basic Multilingual
      Plane contributes both of its surrogates. The result is the documented
      polynomial of the code units modulo 2^32. */
  function StringHash(s: string): (r: Int32)
    ensures (r as int - HashPolynomial(Utf16(s))) % TwoTo32 == 0
  {
    UnitsHashIsPolynomial(Utf16(s));
    UnitsHash(Utf16(s))
  }

  /** The hash loop over a sequence of code units. */
  function UnitsHash(u: seq<int>): Int32
    decreases |u|
  {
    if |u| == 0 then 0
    else Wrap(31 * UnitsHash(u[..|u| - 1]) as int + u[|u| - 1])
  }

  /** The polynomial the Java documentation gives for `String.hashCode`,
      without wrap-around: `s[0]*31^(n-1) + ... + s[n-1]` over the code units. */
  function HashPolynomial(u: seq<int>): int
    decreases |u|
  {
    if |u| == 0 then 0 else 31 * HashPolynomial(u[..|u| - 1]) + u[|u| - 1]
  }

  /** The step-by-step wrap-around computes the documented polynomial
      modulo 2^32. */
  lemma {:induction false} UnitsHashIsPolynomial(u: seq<int>)
    ensures (UnitsHash(u) as int - HashPolynomial(u)) % TwoTo32 == 0
    decreases |u|
  {
    if |u| > 0 {
      var p := u[..|u| - 1];
      UnitsHashIsPolynomial(p);
      var h := UnitsHash(p) as int;
      var q := HashPolynomial(p);
      var c := u[|u| - 1];
      var w := UnitsHash(u) as int;
      assert (w - (31 * h + c)) % TwoTo32 == 0;
      assert w - HashPolynomial(u) == (w - (31 * h + c)) + 31 * (h - q);
      CongruentSum(w - (31 * h + c), h - q);
    }
  }

  /** A character outside the Basic Multilingual Plane hashes as its two
      surrogates: U+1F600 is the units 0xD83D, 0xDE00, and its hash is
      31 * 0xD83D + 0xDE00 = 1772899, not the code point 0x1F600. */
  lemma SupplementaryCharHash()
    ensures Utf16("\U{1F600}") == [0xD83D, 0xDE00]
    ensures StringHash("\U{1F600}") == 1772899
  {
    var s := "\U{1F600}";
    assert s[..0] == "";
    assert Utf16(s) == [] + CharUnits(s[0]);
    assert UnitsHash([0xD83D, 0xDE00][..1]) == 0xD83D by {
      assert [0xD83D, 0xDE00][..1][..0] == [];
    }
  }

  /** A multiple of 2^32 plus 31 times another is a multiple of 2^32. */
  lemma CongruentSum(a: int, b: int)
    requires a % TwoTo32 == 0 && b % TwoTo32 == 0
    ensures (a + 31 * b) % TwoTo32 == 0
  {
    var i := a / TwoTo32;
    var j := b / TwoTo32;
    assert a + 31 * b == (i + 31 * j) * TwoTo32;
  }

  /** `Type.hashCode` / `SAPType.hashCode`: the hash of the qualified name
      plus the string hashes of the kind and type text, added with `int`
      wrap-around. A `Name`'s hash is implementation-defined, so it is the
      parameter `nameHash`; the kind and type text are strings. */
  function TypeHash(t: Element, nameHash: string -> Int32): (r: Int32)
    ensures (r as int - (nameHash(t.qualifiedName) as int + StringHash(KindName(t.kind)) as int
                         + StringHash(t.typeString) as int)) % TwoTo32 == 0
  {
    Wrap(nameHash(t.qualifiedName) as int + KindTextHash(t))
  }

  /** The part both `hashCode`s share: the string hashes of the kind and the
      type text, before the final wrap-around. */
  function KindTextHash(t: Element): int
  {
    StringHash(KindName(t.kind)) as int + StringHash(t.typeString) as int
  }

  /** Equal types hash alike, whatever the name hash. */
  lemma EqualTypesHashAlike(a: Element, b: Element, nameHash: string -> Int32)
    requires TypeEquals(a, b)
    ensures TypeHash(a, nameHash) == TypeHash(b, nameHash)
  {
  }

  /** `BaseElement.equals` / `SAPBaseElement.equals`: same simple name, kind
      and type text. */
  predicate ElementEquals(a: Element, b: Element)
  {
    a.simpleName == b.simpleName && a.kind == b.kind && a.typeString == b.typeString
  }

  lemma ElementEqualsIsEquivalence(a: Element, b: Element, c: Element)
    ensures ElementEquals(a, a)
    ensures ElementEquals(a, b) ==> ElementEquals(b, a)
    ensures ElementEquals(a, b) && ElementEquals(b, c) ==> ElementEquals(a, c)
  {
  }

  /** `BaseElement.hashCode` / `SAPBaseElement.hashCode`: as `TypeHash`, but
      over the simple name. */
  function ElementHash(e: Element, nameHash: string -> Int32): (r: Int32)
    ensures (r as int - (nameHash(e.simpleName) as int + StringHash(KindName(e.kind)) as int
                         + StringHash(e.typeString) as int)) % TwoTo32 == 0
  {
    Wrap(nameHash(e.simpleName) as int + KindTextHash(e))
  }

  lemma EqualElementsHashAlike(a: Element, b: Element, nameHash: string -> Int32)
    requires ElementEquals(a, b)
    ensures ElementHash(a, nameHash) == ElementHash(b, nameHash)
  {
  }

  /** Adding the same amount to two different `int` values and wrapping
      keeps them different. */
  lemma WrapSeparates(x: int, y: int, k: int)
    requires -TwoTo31 <= x < TwoTo31 && -TwoTo31 <= y < TwoTo31 && x != y
    ensures Wrap(x + k) != Wrap(y + k)
  {
    var wx := Wrap(x + k) as int;
    var wy := Wrap(y + k) as int;
    var i := (wx - (x + k)) / TwoTo32;
    var j := (wy - (y + k)) / TwoTo32;
    assert wx - (x + k) == i * TwoTo32;
    assert wy - (y + k) == j * TwoTo32;
    assert wx - wy == (x - y) + (i - j) * TwoTo32;
    if i > j {
      assert (i - j) * TwoTo32 >= TwoTo32;
    } else if i < j {
      assert (j - i) * TwoTo32 >= TwoTo32;
    }
  }

  /** A wrapper object by its runtime class: `SAPBaseElement` itself, or
      `SAPType`, which extends it and overrides `equals`. */
  datatype WrapperObject = BaseWrapper(base: Element) | TypeWrapper(typeElement: Element)

  function Wrapee(w: WrapperObject): Element
  {
    if w.BaseWrapper? then w.base else w.typeElement
  }

  /** `equals(Object)` as dispatched on the receiver's class: null is never
      equal; a type only equals a type, by qualified name; a base wrapper
      equals any wrapper, by simple name. */
  predicate WrapperEquals(self: WrapperObject, other: Option<WrapperObject>)
  {
    match other
    case None => false
    case Some(o) =>
      if self.TypeWrapper? then o.TypeWrapper? && TypeEquals(self.typeElement, o.typeElement)
      else ElementEquals(self.base, Wrapee(o))
  }

  /** Equality across the two classes is not symmetric: a base wrapper of a
      type element equals the type wrapper of the same element, but not the
      other way round. */
  lemma WrapperEqualsNotSymmetric(t: Element)
    ensures WrapperEquals(BaseWrapper(t), Some(TypeWrapper(t)))
    ensures !WrapperEquals(TypeWrapper(t), Some(BaseWrapper(t)))
    ensures !WrapperEquals(BaseWrapper(t), None) && !WrapperEquals(TypeWrapper(t), None)
  {
  }

  /** Within one class equality is an equivalence. */
  lemma WrapperEqualsWithinClass(a: WrapperObject, b: WrapperObject, c: WrapperObject)
    requires a.TypeWrapper? == b.TypeWrapper? == c.TypeWrapper?
    ensures WrapperEquals(a, Some(a))
    ensures WrapperEquals(a, Some(b)) ==> WrapperEquals(b, Some(a))
    ensures WrapperEquals(a, Some(b)) && WrapperEquals(b, Some(c)) ==> WrapperEquals(a, Some(c))
  {
  }

  /** `hashCode` as dispatched on the receiver's class. */
  function WrapperHash(w: WrapperObject, nameHash: string -> Int32): Int32
  {
    if w.BaseWrapper? then ElementHash(w.base, nameHash) else TypeHash(w.typeElement, nameHash)
  }

  /** A base wrapper equals the type wrapper of the same type element, yet
      the two hash the simple and the qualified name respectively: whenever
      those two names hash differently, equal objects have different hash
      codes. */
  lemma WrapperHashBreaksEquals(t: Element, nameHash: string -> Int32)
    requires nameHash(t.simpleName) != nameHash(t.qualifiedName)
    ensures WrapperEquals(BaseWrapper(t), Some(TypeWrapper(t)))
    ensures WrapperHash(BaseWrapper(t), nameHash) != WrapperHash(TypeWrapper(t), nameHash)
  {
    WrapSeparates(nameHash(t.simpleName) as int, nameHash(t.qualifiedName) as int, KindTextHash(t));
  }

  /** Equality that also requires the same runtime class: the reading under
      which `equals` and `hashCode` agree. */
  predicate SameClassWrapperEquals(self: WrapperObject, other: Option<WrapperObject>)
  {
    match other
    case None => false
    case Some(o) => self.TypeWrapper? == o.TypeWrapper? && WrapperEquals(self, other)
  }

  /** With the class check, equality is symmetric and equal wrappers hash
      alike, whatever the name hash. */
  lemma SameClassEqualsKeepsHashContract(a: WrapperObject, b: WrapperObject, nameHash: string -> Int32)
    ensures SameClassWrapperEquals(a, Some(b)) <==> SameClassWrapperEquals(b, Some(a))
    ensures SameClassWrapperEquals(a, Some(b)) ==> WrapperHash(a, nameHash) == WrapperHash(b, nameHash)
  {
    if SameClassWrapperEquals(a, Some(b)) {
      if a.TypeWrapper? {
        EqualTypesHashAlike(a.typeElement, b.typeElement, nameHash);
      } else {
        EqualElementsHashAlike(a.base, b.base, nameHash);
      }
    }
  }
}

=== FILE: wrappers.dfy ===
/** Optional values and the Java runtime exceptions the modelled code can raise.

    A `Result` is failure-compatible, so a chain of emitter operations can be
    written with `:-` and stops at the first exception, as a Java call chain
    stops at the first throw.
 */
module Wrappers {

  /** A Java reference that may be null. */
  datatype Option<+T> = None | Some(value: T)

  /** The unchecked exceptions the modelled code raises. `OutOfFuel` is not a
      Java exception: it stands for a loop that did not finish within the
      iteration bound the caller supplied (the Java loop would spin forever). */
  datatype Exception =
    | NullPointer
    | StringIndexOutOfBounds
    | NoSuchElement
    | OutOfFuel

  datatype Result<+T> = Ok(value: T) | Throw(exception: Exception) {

    predicate IsFailure() {
      Throw?
    }

    function PropagateFailure<U>(): Result<U>
      requires Throw?
    {
      Throw(exception)
    }

    function Extract(): T
      requires Ok?
    {
      value
    }
  }
}
